=== FILE: README.md ===
# UDS-over-CAN bootloader client — Dafny model

This project models the core of a desktop tool that reprograms an ECU over CAN.
The tool speaks UDS (ISO 14229) over ISO-TP framing (ISO 15765-2).
Its 29-bit identifiers follow J1939 addressing.

Everything is modelled as pure functions over immutable datatypes.
Python exceptions become explicit outcomes: `Raised`, `None`, `Err` or an early return of the state machine.
Qt signals and timers become events and flags in the state.

| module (file) | what it models |
|---|---|
| `Common` (common.dfy) | bytes, frames, `Option`, byte order, and Python's `strip`/`lower`/`upper`/`in` on strings (ASCII and Cyrillic) |
| `Bits` (bits.dfy) | Python's `&`, `\|`, `<<` and `>>` on non-negative integers, with their arithmetic meaning |
| `Numerals` (numerals.dfy) | Python's `int(text, base)` and its inverses `bin`, `hex` and `str` |
| `ByteCodec` (byte_codec.dfy) | big- and little-endian byte strings of integers |
| `IsoTp` (isotp.dfy) | ISO-TP single frames (section 9.6 of ISO 15765-2): PCI byte, payload and padding |
| `CanIdentifier` (can_identifier.dfy) | `J1939CanIdentifier`: the packing of priority, PGN and source into 29 bits, and the destination in the PGN's low byte |
| `UdsIdentifiers` (uds_identifiers.dfy) | the tester's request/response identifier pair and the source-address rewrite |
| `DataIdentifiers` (data_identifiers.dfy) | the catalogue of UDS variables (`UdsData`) and its accessors |
| `BaseTranslator` (base_translator.dfy) | `to_int`/`to_base` |
| `PidField` (pid_field.dfy) | the DID field of a response in the configured byte order |
| `Session` … `TransferData` | one module per UDS service: its request frames and its response check |
| `Bootloader` (bootloader.dfy) | the state machine, fed one inbound frame or command at a time |
| `CanTraffic` (can_traffic.dfy) | the traffic page's pure helpers: ISO-TP summary, bounded journal, filters, observed-device bookkeeping |
| `Collector` (collector.dfy) | the data collector: CSV header resolution, node table, pruning, trend buffers, frame handling, round-robin polling |
| `AppController` (app_controller.dfy) | the page controller's field parsing, byte-order selector, poll-interval setters, progress, log bounding, and the two identifier-apply actions |

## Where the code departs from ISO 15765-2, ISO 14229-1 and its own comments

The model follows the code in each of these places.

- Flow control with block size 0: section 9.6.5 of ISO 15765-2 says block size 0 means "send all remaining consecutive frames without waiting for another flow control". The code returns without sending anything (uds/services/transfer_data.py:112-113, `TransferData.BlockSizeZeroSendsNothing`).
- Separation time: section 9.6.5 of ISO 15765-2 reads STmin 0 as "no minimum" and 0xF1 to 0xF9 as 100 to 900 microseconds. The code waits 10 ms for 0 and takes every other value as milliseconds (uds/services/transfer_data.py:114-117, `TransferData.SendConsecutiveFrames`).
- Block sequence counter: the TransferData service (0x36) of ISO 14229-1 wraps the counter from 0xFF to 0x00. The code increments it and never masks it, so block 256 carries 256 (uds/services/transfer_data.py:57, `TransferData.BlockSeqUnmasked`).
- Block planning: the code's own comment (uds/services/transfer_data.py:40-43) gives a block 1024 content bytes plus 2 header bytes. The plan instead adds 2 header bytes per 1026 content bytes (uds/services/transfer_data.py:49-51). So a final block shorter than six message bytes is mis-counted or raises (`TransferData.PlanUndercounts`, `TransferData.ShortFinalBlock`, `TransferData.FinalBlockRaises`).
- Seed byte order: the commented-out line uds/services/security_access.py:51 reads the seed high byte first. The live line 52 reads it low byte first, and the key is sent high byte first at line 34 (`SecurityAccess.SeedAndKeyByteOrder`).
- Counters across runs: `start` calls `set_firmware` again (uds/bootloader.py:194). That recomputes the plan but resets neither the sent total nor the block counter. `reset_transfer` (uds/services/transfer_data.py:168-170) would reset the total, but nothing calls it. A second download after a completed one therefore starts with everything counted as sent, and its first block is empty (`TransferData.SecondRunStartsSpent`, `Bootloader.RestartKeepsCounters`).

## Model

| member | source | states |
|---|---|---|
| BaseTranslator.ToInt | app_can/BaseTranslator.py:6-24 | `to_int` is the value Python's `int` reads in the base the prefix selects ("0b" binary, "0x" hexadecimal, else decimal), and 0 for every text `int` rejects |
| BaseTranslator.ToBaseText | app_can/BaseTranslator.py:34-44 | `to_base` on text prints a non-empty text that starts with a minus sign exactly when `to_int` reads the text as negative |
| BaseTranslator.HexToBase | app_can/BaseTranslator.py:46-69 | `hex_to_base` gives back the unchanged text when `int(text, 16)` rejects it, and otherwise prints the hexadecimal value in the requested base |
| BaseTranslator.FormatBase | app_can/BaseTranslator.py:39-44 | `to_base` prints binary exactly for base 2 and hexadecimal exactly for base 16; every other base prints decimal |
| BaseTranslator.ToBase | app_can/BaseTranslator.py:27-44 | the text `to_base` prints for an integer is never empty, and it starts with a minus sign exactly when the number is negative |
| BaseTranslator.ToIntUnstripped | app_can/BaseTranslator.py:12-20 | text with no whitespace at either end is read by `to_int` exactly as the signed numeral in the base its prefix selects (0 when it is not one) |
| BaseTranslator.DecimalPrefix | app_can/BaseTranslator.py:15-20 | text whose second character is neither `b` nor `x` is read as decimal |
| BaseTranslator.ToIntToBase | app_can/BaseTranslator.py:6-44 | for every natural number and every base, `to_int` reads the text `to_base` printed back as the same number |
| BaseTranslator.ToIntToBaseDecimal | app_can/BaseTranslator.py:19-20 | decimal text reads back as the same number for negative numbers too |
| BaseTranslator.NegativeHexLost | app_can/BaseTranslator.py:17-18 | `to_base(16, -1)` prints "-0x1", which `to_int` reads as 0: negative hexadecimal does not read back |
| BaseTranslator.ToIntHex | app_can/BaseTranslator.py:17-18 | "0x" followed by hexadecimal digits reads as the value of those digits |
| BaseTranslator.ToIntBin | app_can/BaseTranslator.py:15-16 | "0b" followed by binary digits reads as the value of those digits |
| BaseTranslator.ToIntDec | app_can/BaseTranslator.py:19-20 | a run of decimal digits reads as its value |
| BaseTranslator.ToIntEmpty | app_can/BaseTranslator.py:23-24 | empty text is rejected by `int` and read as 0 |
| BaseTranslator.ToIntBarePrefix | app_can/BaseTranslator.py:15-24 | a bare "0x" or "0b" with no digits is rejected and read as 0 |
| BaseTranslator.HexToBaseOfHex | app_can/BaseTranslator.py:47-69 | for every integer, `hex_to_base` applied to its `hex` text gives the same text as printing the integer in the requested base |
| BaseTranslator.ToBaseTextStable | app_can/BaseTranslator.py:34-44 | converting, with `to_base` on text, a text that `to_base` printed for a natural number returns that same text |
| Common.ParseByteOrder | uds/services/read_data_by_id.py:22-24 | after stripping and lower-casing, the text selects little-endian exactly when it is "little"; "big" and every other text select big-endian |
| PidField.PidToBytes | uds/services/read_data_by_id.py:26-31 | the two DID bytes are bytes, and they are the low two bytes of the DID: little-endian order puts the low byte first, big-endian puts the high byte first |
| PidField.ParsePidField | uds/services/read_data_by_id.py:33-36 | bytes 2 and 3 read as a 16-bit DID, as a big-endian or little-endian number according to the byte order |
| PidField.PidRoundTrip | uds/services/read_data_by_id.py:26-36 | a response that echoes the request's DID bytes reads back as the DID reduced to 16 bits |
| PidField.ParsePidInjective | uds/services/read_data_by_id.py:33-36 | two responses read as the same DID exactly when their bytes 2 and 3 agree |
| PidField.PidMatches | uds/services/read_data_by_id.py:26-41 | a response reads as a given DID exactly when the DID fits 16 bits and bytes 2 and 3 are the bytes a request for it carries |
| ReadDataById.SetByteOrder | uds/services/read_data_by_id.py:22-24 | setting the byte order keeps the requested DID; the order is little-endian exactly when the stripped, lower-cased text is "little" |
| ReadDataById.ReadData | uds/services/read_data_by_id.py:43-59 | a read request remembers the DID and sends one 0xFF-padded single frame whose payload is 0x22 followed by the DID bytes in the configured order |
| ReadDataById.VerifyReadData | uds/services/read_data_by_id.py:38-41 | a response is accepted exactly when byte 1 is 0x62 and bytes 2 and 3 are the bytes of the DID requested last, which must fit 16 bits |
| ReadDataById.ParseDataField | uds/services/read_data_by_id.py:67-79 | a length byte of 3 or less reads as 0; otherwise the result is the little-endian value of the data record from byte 4 up to the end of the announced length, so it is below 256 to the power of the record length |
| ReadDataById.AppendByte | uds/services/read_data_by_id.py:75-78 | one step of the record loop (or-ing the next byte shifted above the bytes read so far) appends that byte at the most significant end |
| ReadDataById.ReadEchoAccepted | uds/services/read_data_by_id.py:38-59 | a positive response that echoes the DID bytes of the request just sent is accepted exactly when the DID fits 16 bits |
| IsoTp.FrameType | uds/services/transfer_data.py:155 | the frame type read from a PCI byte is below 16, and for a byte it is its high nibble |
| WriteDataById.SetByteOrder | uds/services/write_data_by_id.py:12-14 | setting the byte order keeps the stored DID; the order is little-endian exactly when the stripped, lower-cased text is "little" |
| WriteDataById.TxIdentifier | uds/services/write_data_by_id.py:46 | a request goes out on the identifier passed in, or on the request identifier of the pair when none is passed |
| WriteDataById.WriteData | uds/services/write_data_by_id.py:28-48 | a variable wider than four bytes is refused with nothing stored or sent; otherwise the DID is stored and one 0xFF-padded single frame is sent with payload 0x2E, the DID bytes and the value's low `size` bytes, low byte first, which read back as the value modulo 256 to the power of `size` |
| WriteDataById.VerifyWriteData | uds/services/write_data_by_id.py:50-54 | a response is accepted exactly when byte 1 is 0x6E and bytes 2 and 3 are the bytes of the DID written last, which must fit 16 bits |
| WriteDataById.WriteFingerprint | uds/services/write_data_by_id.py:56-62 | the fingerprint write is one 0xFF-padded single frame on the request identifier with payload 0x2E, the bytes of DID 0x1500 and the value unmasked |
| WriteDataById.VerifyFingerprint | uds/services/write_data_by_id.py:64-67 | a response is accepted exactly when byte 1 is 0x6E and bytes 2 and 3 are the bytes of DID 0x1500 in the configured order |
| WriteDataById.WriteEchoAccepted | uds/services/write_data_by_id.py:28-54 | a positive response echoing the DID bytes of the write just sent is accepted exactly when the DID fits 16 bits |
| WriteDataById.WriteValueRoundTrip | uds/services/write_data_by_id.py:37-39 | a value below 256 to the power of `size` reads back unchanged from the value bytes of the frame |
| WriteDataById.FingerprintEchoAccepted | uds/services/write_data_by_id.py:56-67 | the echo of a fingerprint write is always accepted |
| CanIdentifier.Parse | j1939/j1939_can_identifier.py:14-17 | the fields read from an identifier are a PGN below 2^18 and a source below 2^8, and priority times 2^26 plus PGN times 256 plus source is the identifier again, whatever its width |
| CanIdentifier.ParseBitwise | j1939/j1939_can_identifier.py:14-17 | splitting an identifier gives priority `id >> 26`, PGN `(id >> 8) & 0x3FFFF` and source `id & 0xFF` |
| CanIdentifier.Dst | j1939/j1939_can_identifier.py:43-45 | the destination is the low byte of the PGN |
| CanIdentifier.SetDst | j1939/j1939_can_identifier.py:47-50 | setting the destination keeps priority and source, keeps PGN bits 8 to 17, clears everything above them, and makes the low byte `d & 0xFF`, which then reads back as the destination |
| CanIdentifier.SetDstArith | j1939/j1939_can_identifier.py:49-50 | `(pgn & 0x3FF00) \| (d & 0xFF)` equals the PGN's bits 8 to 17 times 256 plus `d mod 256`, and is below 2^18 |
| CanIdentifier.Identifier | j1939/j1939_can_identifier.py:52-56 | for a PGN that fits 18 bits, the identifier is prio times 2^26 plus PGN times 256 plus the source's low byte |
| CanIdentifier.IdentifierBound | j1939/j1939_can_identifier.py:1-4 | fields that fit 3 and 18 bits build an identifier below 2^29 |
| CanIdentifier.ParseIdentifier | j1939/j1939_can_identifier.py:14-17 | parsing an identifier and building it again gives back every natural number, whatever its width |
| CanIdentifier.DstOfParse | j1939/j1939_can_identifier.py:43-45 | the destination of a parsed identifier is its bits 8 to 15 |
| CanIdentifier.IdentifierParse | j1939/j1939_can_identifier.py:52-60 | building then parsing gives back fields whose PGN fits 18 bits and whose source fits a byte; the priority may have any width |
| CanIdentifier.PgnBleedsIntoPriority | j1939/j1939_can_identifier.py:31-33 | a PGN set wider than 18 bits is not masked: PGN 0x40000 builds identifier 0x4000000, which parses back as priority 1 and PGN 0 |
| CanIdentifier.SourceMasked | j1939/j1939_can_identifier.py:56 | a source set to 0x100 is masked away when the identifier is built |
| UdsIdentifiers.Default | uds/uds_identifiers.py:5-6 | the default pair is requests 0x18DA6AF1 from tester 0xF1 to ECU 0x6A and responses 0x18DAF16A back; the request destination equals the response source and vice versa |
| UdsIdentifiers.SetTx | uds/uds_identifiers.py:9-11 | a new request identifier is taken as it stands, and the response source becomes its destination byte, with nothing else of the response changed |
| UdsIdentifiers.SetRx | uds/uds_identifiers.py:13-16 | a new response identifier is taken as it stands, and the request destination becomes the low byte of its source, keeping the request's priority, source and PGN bits 8 to 17 |
| UdsIdentifiers.SetSrc | uds/uds_identifiers.py:18-21 | re-addressing sets both the request destination (as a byte) and the response source, and changes nothing else |
| UdsIdentifiers.SetTxIdentifier | uds/uds_identifiers.py:9-10 | after `set_tx` the request identifier is exactly the number given |
| UdsIdentifiers.SetRxIdentifier | uds/uds_identifiers.py:14-15 | after `set_rx` the response identifier is exactly the number given |
| UdsIdentifiers.SetSrcIdentifiers | uds/uds_identifiers.py:18-21 | after re-addressing an ECU below 256, the request identifier keeps its source byte and carries the new address in bits 8 to 15, and the response identifier's low byte is the new address |
| DataIdentifiers.Vars | uds/data_identifiers.py:22-54 | the values of the catalogue, one per entry, in declaration order |
| DataIdentifiers.Lookup | uds/data_identifiers.py:56-86 | `vars.get(name)` returns the entry of the first catalogue row with that name, and None exactly when no row has it |
| DataIdentifiers.Find | uds/data_identifiers.py:56-86 | the search finds the first row carrying the name, or reports that no row carries it |
| DataIdentifiers.FindFirst | uds/data_identifiers.py:56-86 | whenever row i is the first with the name, the search returns row i's entry |
| DataIdentifiers.CanSaAlias | uds/data_identifiers.py:24 | `can_sa` is DID 0x0011, one byte |
| DataIdentifiers.FingerprintAlias | uds/data_identifiers.py:28 | `fingerprint` is DID 0x1500, two bytes |
| DataIdentifiers.GetVarAsWritten | uds/data_identifiers.py:94-98 | `get_var` as written raises exactly for the index equal to the catalogue length |
| DataIdentifiers.GetPidAsWritten | uds/data_identifiers.py:88-92 | `get_pid` as written raises exactly for the index equal to the catalogue length |
| DataIdentifiers.GetVar | uds/data_identifiers.py:94-98 | corrected `get_var`: an entry exactly for indexes inside the catalogue, and then the entry at that position |
| DataIdentifiers.GetPid | uds/data_identifiers.py:88-92 | corrected `get_pid`: a DID exactly for indexes inside the catalogue, and then the DID at that position |
| DataIdentifiers.GetVarOffByOne | uds/data_identifiers.py:90-98 | index 30 (one past the last entry) raises in both accessors as written and gives None in the corrected ones |
| DataIdentifiers.GetVarAgrees | uds/data_identifiers.py:88-98 | at every other index the accessors as written return what the corrected ones do |
| DataIdentifiers.Descriptions | uds/data_identifiers.py:100-102 | one description per entry, in catalogue order |
| Session.Code | uds/services/session.py:7-10 | the three session codes lie between 1 and 3 |
| Session.Request | uds/services/session.py:31-38 | the session request is one 0xFF-padded single frame with payload 0x10 and the session code |
| Session.VerifyAnswer | uds/services/session.py:21-29 | a response is accepted exactly when byte 1 is 0x50, and the stored verdict is the answer returned |
| Session.CodeInjective | uds/services/session.py:7-10 | two sessions have the same code exactly when they are the same session |
| Session.NegativeRejected | uds/services/session.py:24-27 | a negative response (0x7F) is refused and clears the stored verdict |
| Session.SessionEchoAccepted | uds/services/session.py:21-38 | for every session, a response is accepted exactly when byte 1 is the request's SID 0x10 plus 0x40 |
| SecurityAccess.CalcKey | uds/services/security_access.py:15-16 | the key is a 16-bit word equal, bit for bit, to the key computed on 16-bit words |
| SecurityAccess.KeyBits | uds/services/security_access.py:15-16 | `(seed ^ 0xAA55) \| seed` equals `seed \| 0xAA55`: every bit of 0xAA55 and every bit of the seed is set |
| SecurityAccess.RequestSeed | uds/services/security_access.py:18-25 | the seed request is one 0xFF-padded single frame with payload 0x27 0x01 |
| SecurityAccess.RequestCheckKey | uds/services/security_access.py:27-35 | the key request is one 0xFF-padded single frame with payload 0x27 0x02 followed by the key high byte first, which reads back as the key |
| SecurityAccess.GetSession | uds/services/security_access.py:37-44 | the session query is a zero-padded single frame reading DID 0x0016 with service 0x22 |
| SecurityAccess.VerifySeed | uds/services/security_access.py:46-57 | a response is accepted exactly when bytes 1 and 2 are 0x67 0x01; then the seed is byte 4 times 256 plus byte 3 and the key is recomputed from it, access unchanged; a refused response changes nothing |
| SecurityAccess.VerifyCheckKey | uds/services/security_access.py:59-67 | access is granted exactly when bytes 1 and 2 are 0x67 0x02, nothing else changes, and the answer returned is the stored verdict |
| SecurityAccess.SeedAndKeyByteOrder | uds/services/security_access.py:34-52 | the seed arrives low byte first and the key leaves high byte first: seed bytes FF 00 give seed 0x00FF, key 0xAAFF, and key bytes AA FF |
| EcuReset.Code | uds/services/ecu_reset.py:7-12 | every reset code is at most 0x7E, and only the UDS software reset lies in the supplier range 0x60 to 0x7E |
| EcuReset.Request | uds/services/ecu_reset.py:20-36 | a reset request is one 0xFF-padded single frame with payload 0x11 and the reset code |
| EcuReset.UdsResetRequest | uds/services/ecu_reset.py:20-27 | `ecu_uds_reset` sends the reset request for type 0x60 |
| EcuReset.SoftwareResetRequest | uds/services/ecu_reset.py:29-36 | `ecu_software_reset` sends the reset request for type 0x03 |
| EcuReset.VerifyReset | uds/services/ecu_reset.py:38-54 | a response confirms a reset type exactly when byte 1 is 0x51 and byte 2 is that type's code |
| EcuReset.VerifyUdsReset | uds/services/ecu_reset.py:38-45 | the UDS reset is confirmed exactly by 0x51 0x60 in bytes 1 and 2 |
| EcuReset.VerifySoftwareReset | uds/services/ecu_reset.py:47-54 | the software reset is confirmed exactly by 0x51 0x03 in bytes 1 and 2 |
| EcuReset.CodeInjective | uds/services/ecu_reset.py:7-12 | two reset types share a code exactly when they are the same type |
| EcuReset.VerifiersExclusive | uds/services/ecu_reset.py:38-54 | no response confirms both kinds of reset |
| EcuReset.ResetEchoAccepted | uds/services/ecu_reset.py:20-54 | a positive response echoing the request's type byte confirms that reset |
| RoutineControl.RequestErase | uds/services/routine_control.py:11-19 | the erase request is one 0xFF-padded single frame with payload 0x31 0x01 followed by routine 0x00FF low byte first |
| RoutineControl.VerifyErase | uds/services/routine_control.py:21-31 | a response is accepted exactly when bytes 1 to 4 are 0x71, 0x01, 0xFF, 0x00, which is routine 0x00FF read low byte first |
| RoutineControl.EraseEchoAccepted | uds/services/routine_control.py:11-31 | a positive response echoing the request's sub-function and routine bytes is accepted |
| RequestTransferExit.Request | uds/services/request_transfer_exit.py:9-15 | the exit request is one 0xFF-padded single frame with payload 0x37 |
| RequestTransferExit.Verify | uds/services/request_transfer_exit.py:17-23 | a response is accepted exactly when byte 1 is 0x77 |
| RequestTransferExit.VerifyReadsOnlySid | uds/services/request_transfer_exit.py:17-23 | responses that agree in byte 1 get the same answer |
| RequestTransferExit.ExitEchoAccepted | uds/services/request_transfer_exit.py:9-23 | a response is accepted exactly when byte 1 is the exit request's SID 0x37 plus 0x40 |
| RequestDownload.SetMemoryLength | uds/services/request_download.py:20-24 | the stored length never exceeds 80 KiB: larger lengths are cut to 80 KiB and the rest are kept; the byte order is untouched |
| RequestDownload.SetByteOrder | uds/services/request_download.py:26-28 | setting the byte order keeps the length; the order is little-endian exactly when the stripped, lower-cased text is "little" |
| RequestDownload.U32ToBytes | uds/services/request_download.py:30-44 | four bytes of the value reduced to 32 bits, least significant first for little-endian and most significant first for big-endian |
| RequestDownload.LeBytes4 | uds/services/request_download.py:33-38 | the four shifted-and-masked bytes are the little-endian bytes of the word |
| RequestDownload.U32RoundTrip | uds/services/request_download.py:30-44 | read in the same byte order, the four bytes give back the value modulo 2^32 |
| RequestDownload.VerifyFlowControl | uds/services/request_download.py:46-50 | flow control is recognised exactly when byte 0 lies in 0x30 to 0x3F |
| RequestDownload.FirstFrame | uds/services/request_download.py:52-67 | the first frame has frame type 1, announces an 11-byte message, and carries 0x34, 0x00, 0x44 and the first three address bytes |
| RequestDownload.LeadingFrame | uds/services/request_download.py:57-66 | the same layout for any four address bytes |
| RequestDownload.ConsecutiveFrame | uds/services/request_download.py:69-85 | consecutive frame 1 carries the last address byte, then the four length bytes, then two 0xFF |
| RequestDownload.SecondFrame | uds/services/request_download.py:75-84 | the same layout for any address and length bytes |
| RequestDownload.VerifyRequestDownload | uds/services/request_download.py:87-92 | a response is accepted exactly when byte 1 is 0x74 |
| RequestDownload.RequestReassembles | uds/services/request_download.py:52-85 | the payloads of the two frames join into the announced 11-byte request: 0x34, 0x00, 0x44, the address bytes, the length bytes |
| RequestDownload.Reassemble | uds/services/request_download.py:57-84 | the two frame layouts join into SID, formats, address and length for any four-byte fields |
| RequestDownload.AddressBytes | uds/services/request_download.py:12 | the start address 0x08007800 goes out as 08 00 78 00 big-endian and as 00 78 00 08 little-endian |
| RequestDownload.LengthRoundTrip | uds/services/request_download.py:20-44 | a length set from a file size travels exactly: read in the same order, the length bytes give back the stored length |
| TransferData.CeilDiv | uds/services/transfer_data.py:50 | `math.ceil(n / d)`: the least r with d times r at least n |
| TransferData.SetFirmware | uds/services/transfer_data.py:46-51 | the image is kept and its planned size is its length plus two header bytes per started 1026 bytes; every counter is kept |
| TransferData.SecondRunStartsSpent | uds/services/transfer_data.py:46-51 | after a completed download, `set_firmware` with the same image plans the same size but keeps the sent total and the block counter, so the image counts as sent and the next first frame carries length 0 |
| TransferData.BlockTransferred | uds/services/transfer_data.py:88-89 | a block is finished exactly when the bytes sent in it reach its first frame's length |
| TransferData.DataTransferred | uds/services/transfer_data.py:91-92 | the image is finished exactly when the total sent reaches the planned size, header bytes included |
| TransferData.Gather | uds/services/transfer_data.py:68-69 | copying n bytes from an index raises exactly when n is positive and some index in the run falls outside Python's valid range; otherwise exactly n bytes are copied (none when n is not positive) |
| TransferData.GatherReads | uds/services/transfer_data.py:68-69 | each copied byte is the one Python reads at that index, negative indexes counting from the end; for plain indexes the copy is the slice |
| TransferData.WindowReads | uds/services/transfer_data.py:128-129 | a run of valid Python indexes reads what Python reads, and a run of plain indexes is the slice |
| TransferData.FirstFramePci | uds/services/transfer_data.py:59-61 | the two PCI bytes have frame type 1 and carry the low twelve bits of the block length |
| TransferData.PciSplit | uds/services/transfer_data.py:60-61 | the nibble above the low byte and the low byte together are the length modulo 4096 |
| TransferData.FormFirst | uds/services/transfer_data.py:53-87 | before `set_firmware` nothing is sent; otherwise the block counter goes up by one, and either the frame [PCI, 0x36, counter, up to four content bytes, 0xFF fill] is sent and index, totals and frame number advance by the bytes copied plus two header bytes, or the copy raises with only the counter changed; it is sent exactly when the copy succeeds |
| TransferData.SendFirstFrame | uds/services/transfer_data.py:95-107 | the block length is the smaller of 1026 and what remains of the plan, so it stays between 0 and 1026 while the total has not passed the plan; the data length reported is that minus two |
| TransferData.SendConsecutiveFrames | uds/services/transfer_data.py:109-117 | block size 0 schedules nothing; otherwise pacing starts at STmin milliseconds, or 10 when STmin is 0, with nothing else changed |
| TransferData.CfLength | uds/services/transfer_data.py:123-125 | a consecutive frame carries 7 bytes while 7 fit the block, else exactly what is left of it |
| TransferData.ConsecutiveFrame | uds/services/transfer_data.py:119-142 | the timer callback either sends a frame or raises; it never does nothing |
| TransferData.ConsecutiveFrameSpec | uds/services/transfer_data.py:119-142 | the sequence number steps modulo 16; on a raise only the sequence number changes; otherwise the 8-byte frame has type 2, carries the sequence number and 0xFF fill after the data, and index, totals and block count advance by the frame's length, pacing stopping once the block is full |
| TransferData.Tick | uds/services/transfer_data.py:27-28 | a timer event sends a consecutive frame while pacing and nothing otherwise |
| TransferData.VerifyAfterSentBlock | uds/services/transfer_data.py:144-152 | a response is accepted exactly when byte 1 is 0x76 and byte 2 is the current block counter |
| TransferData.VerifyFlowControl | uds/services/transfer_data.py:154-166 | a frame is taken as flow control exactly when byte 0 lies in 0x30 to 0x3F; then status, block size and STmin are recorded from byte 0's low nibble and bytes 1 and 2; otherwise nothing changes |
| TransferData.ResetTransfer | uds/services/transfer_data.py:168-170 | only the total and the sequence number go back to 0 |
| TransferData.Run | uds/services/transfer_data.py:119-142 | k timer callbacks in a row; when none of them raises, exactly k frames go out |
| TransferData.RunCons | uds/services/transfer_data.py:119-142 | a run of k frames is its first frame followed by the run of k - 1 from the state after it |
| TransferData.CfStep | uds/services/transfer_data.py:119-142 | inside a well-formed block, one callback sends the next reference frame, keeps the block well-formed and leaves one frame fewer to send |
| TransferData.RestOfBlock | uds/services/transfer_data.py:109-142 | from any well-formed point of a block, the frames still due go out without raising and are exactly the reference frames; the block then ends complete, the total advances by the rest of the block, and pacing stops |
| TransferData.BlockFramesCount | uds/services/transfer_data.py:123-125 | the rest of a block takes ceil(rest / 7) frames |
| TransferData.BlockFrameAt | uds/services/transfer_data.py:120-127 | frame j of the rest of a block is 8 bytes and numbered on from the previous number plus j + 1, modulo 16 |
| TransferData.BlockFramesNumbered | uds/services/transfer_data.py:120-127 | every reference frame is 8 bytes and numbered in sequence modulo 16 |
| TransferData.BlockFramesPayload | uds/services/transfer_data.py:127-129 | the bytes the reference frames carry are the rest of the block's content followed by 0xFF fill |
| TransferData.PayloadStep | uds/services/transfer_data.py:127-129 | one more frame in front of the remaining frames keeps the carried bytes equal to content then fill |
| TransferData.PayloadJoin | uds/services/transfer_data.py:127-129 | a frame's data bytes in front of the rest's bytes make the content then fill |
| TransferData.ModShift | uds/services/transfer_data.py:120-122 | sequence numbers counted modulo 16 shift with their start |
| TransferData.BlockInOrder | uds/services/transfer_data.py:53-142 | a block of at least six message bytes goes out in order: the first frame carries the next four content bytes, and the consecutive frames after it, numbered 1, 2, ... modulo 16, carry the rest of the block's content bytes and then only 0xFF |
| TransferData.BlockReference | uds/services/transfer_data.py:53-142 | a first frame with the block's first four bytes followed by the reference frames sends the block in order |
| TransferData.HeadJoin | uds/services/transfer_data.py:65-70 | the first frame's four bytes in front of the rest make the block's content then fill |
| TransferData.FirstFrameOfBlock | uds/services/transfer_data.py:53-107 | for a block of at least six message bytes, the first frame goes out with the incremented counter and the next four content bytes, counts six bytes, and leaves a well-formed block |
| TransferData.BlockSizeZeroSendsNothing | uds/services/transfer_data.py:112-113 | after a flow control with block size 0 the next timer event sends nothing |
| TransferData.BlockSeqUnmasked | uds/services/transfer_data.py:57-63 | the block counter is not reduced to a byte: after 255 the first frame carries 256 |
| TransferData.PlanUndercounts | uds/services/transfer_data.py:49-51 | the plan counts two header bytes per 1026 content bytes: a 1025-byte image is planned as 1027 message bytes |
| TransferData.ShortFinalBlock | uds/services/transfer_data.py:66-125 | with a 1026-byte image, the final block has length 2, but its first frame copies two bytes and counts four, and the next consecutive frame has length -2 and brings the total back to the plan |
| TransferData.FinalBlockRaises | uds/services/transfer_data.py:66-69 | with a 1027-byte image, the final block's first frame copies four bytes where three remain and raises |
| Bootloader.Wire | uds/bootloader.py:169-330 | every request of the machine goes out on the current request identifier |
| Bootloader.SetFirmware | uds/bootloader.py:97-100 | the image is kept and the download request's length becomes its size, clamped to 80 KiB; nothing else changes |
| Bootloader.SetTransferByteOrder | uds/bootloader.py:102-110 | the order is parsed once and the same order reaches the download, read and write services, whose DIDs and length are kept; nothing else changes |
| Bootloader.Start | uds/bootloader.py:187-205 | start succeeds exactly from Ready with an image loaded; it then hands the image to the transfer service, enters the programming-session state and sends the session request; otherwise nothing changes; either way one report goes out, informational exactly when it succeeded |
| Bootloader.RestartKeepsCounters | uds/bootloader.py:187-205 | `start` after a completed download moves on to the programming-session request, but the transfer still counts as complete and the next first frame carries no data |
| Bootloader.PendingRx | uds/bootloader.py:133 | `(rx & ~0xFF) \| sa`: the response identifier with its low byte replaced by the address and all higher bits kept |
| Bootloader.WriteSourceAddress | uds/bootloader.py:112-138 | accepted exactly from Ready with an address from 0 to 255; it then writes the one-byte address DID, remembers the address and the response identifier it implies, arms the timeout and waits; a refusal changes and sends nothing; the identifiers are untouched |
| Bootloader.ReadSourceAddress | uds/bootloader.py:140-150 | accepted exactly from Ready; it then reads the address DID, arms the timeout and waits; a refusal changes and sends nothing; the identifiers and the pending address are untouched |
| Bootloader.SaTimeout | uds/bootloader.py:152-167 | in either source-address state the timeout reports failure (the pending address, or the current response source, for a write; the current response source for a read) and returns to Ready with nothing pending; in any other state only the timer is disarmed; nothing is sent |
| Bootloader.UdsReset | uds/bootloader.py:169-173 | from any state, the UDS reset request (type 0x60) goes out and the machine waits for its answer; nothing else changes |
| Bootloader.SoftwareReset | uds/bootloader.py:175-179 | from any state, the software reset request (type 0x03) goes out and the machine waits for its answer; nothing else changes |
| Bootloader.CheckState | uds/bootloader.py:181-185 | from any state, the fingerprint DID is read and the machine waits for the answer; only the state and the requested DID change |
| Bootloader.PacingTick | uds/bootloader.py:89-95 | the pacing timer changes only the transfer service, does nothing when it is not pacing, and sends at most one frame |
| Bootloader.Step | uds/bootloader.py:207-219 | a frame on an identifier the machine does not listen to changes nothing; Error ignores every frame; a frame leads to Error only from the two transfer states and the exit state; at most one request is sent |
| Bootloader.Listens | uds/bootloader.py:210-219 | a frame is handled only from the response identifier or, while a new source address is being written, also from the pending one |
| Bootloader.MinLength | uds/bootloader.py:221-404 | the number of response bytes each state's handler reads before it decides |
| Bootloader.Dispatch | uds/bootloader.py:221-404 | the handler of each state: Error ignores every frame, only the transfer and exit handlers can lead to Error, and at most one request is sent |
| Bootloader.OnSession | uds/bootloader.py:221-232 | the session answer moves to the seed request exactly when byte 1 is 0x50 |
| Bootloader.OnSeed | uds/bootloader.py:234-245 | the seed answer moves to key verification exactly when it is a positive seed response long enough to hold the seed |
| Bootloader.OnKey | uds/bootloader.py:247-257 | the key answer moves to the fingerprint write exactly when bytes 1 and 2 are 0x67 0x02 |
| Bootloader.OnFingerprint | uds/bootloader.py:259-269 | the fingerprint answer moves to the erase exactly when it confirms the fingerprint DID |
| Bootloader.OnErase | uds/bootloader.py:271-281 | the erase answer moves to the download request exactly when it confirms routine 0x00FF |
| Bootloader.OnDownloadFc | uds/bootloader.py:283-288 | a flow control frame (byte 0 from 0x30 to 0x3F) moves on to the second download frame; anything else is ignored without a report |
| Bootloader.OnDownloadAnswer | uds/bootloader.py:290-296 | the download answer starts the transfer exactly when byte 1 is 0x74 |
| Bootloader.NextBlock | uds/bootloader.py:290-321 | starting a block enters the first-frame state with the transfer service advanced by one first frame; it sends that frame when one was formed and raises exactly when the copy raised |
| Bootloader.OnTransferFc | uds/bootloader.py:298-304 | after a first frame, a flow control frame moves to the consecutive frames and anything else is an error; nothing is sent; a response shorter than three bytes raises |
| Bootloader.OnTransferCf | uds/bootloader.py:306-330 | when the plan is met the exit is requested without reading the frame; after a full block, the matching block acknowledgement starts the next block and anything else is ignored; in the middle of a block a flow control resumes pacing and anything else is an error |
| Bootloader.OnExit | uds/bootloader.py:332-341 | the exit answer returns to Ready and reports success exactly when byte 1 is 0x77, and is an error otherwise |
| Bootloader.OnWriteSa | uds/bootloader.py:343-359 | the answer to the address write disarms the timer; a readable answer returns to Ready with nothing pending, installs the reported address as the ECU's address only when the write is confirmed, and reports whether it was |
| Bootloader.LowDataByte | uds/bootloader.py:368 | `parse_data_field(data) & 0xFF` is 0 for a length byte of 3 or less, and otherwise the first record byte |
| Bootloader.OnReadSa | uds/bootloader.py:361-377 | the answer to the address read disarms the timer and keeps the identifiers; it raises exactly when it is too short to check, or confirmed but shorter than its length byte; otherwise it returns to Ready and reports the address read (confirmed) or the current response source (refused) |
| Bootloader.OnReset | uds/bootloader.py:379-395 | a reset answer returns to Ready whatever it says, and reports success exactly when it confirms the reset type asked for |
| Bootloader.OnStatus | uds/bootloader.py:397-404 | the status answer returns to Ready and reports the loader active exactly when it confirms the fingerprint DID |
| Bootloader.SessionMoves | uds/bootloader.py:221-232 | the session answer moves one step along the programming chain when positive, and otherwise stays (an error after a first frame) and sends nothing; a positive answer sends exactly one request |
| Bootloader.SeedMoves | uds/bootloader.py:234-245 | the seed answer moves one step along the programming chain when positive, and otherwise stays (an error after a first frame) and sends nothing; a positive answer sends exactly one request |
| Bootloader.KeyMoves | uds/bootloader.py:247-257 | the key answer moves one step along the programming chain when positive, and otherwise stays (an error after a first frame) and sends nothing; a positive answer sends exactly one request |
| Bootloader.FingerprintMoves | uds/bootloader.py:259-269 | the fingerprint answer moves one step along the programming chain when positive, and otherwise stays (an error after a first frame) and sends nothing; a positive answer sends exactly one request |
| Bootloader.EraseMoves | uds/bootloader.py:271-281 | the erase answer moves one step along the programming chain when positive, and otherwise stays (an error after a first frame) and sends nothing; a positive answer sends exactly one request |
| Bootloader.DownloadFcMoves | uds/bootloader.py:283-288 | the download flow control moves one step along the programming chain when positive, and otherwise stays (an error after a first frame) and sends nothing; a positive answer sends exactly one request |
| Bootloader.DownloadAnswerMoves | uds/bootloader.py:290-296 | the download answer moves one step along the programming chain when positive, and otherwise stays (an error after a first frame) and sends nothing; a positive answer sends exactly one request |
| Bootloader.TransferFcMoves | uds/bootloader.py:298-304 | the flow control after a first frame moves one step along the programming chain when positive, and otherwise stays (an error after a first frame) and sends nothing; a positive answer sends exactly one request |
| Bootloader.OnSessionShort | uds/bootloader.py:221-223 | a session answer too short for the bytes its handler reads raises before the state changes or anything is sent |
| Bootloader.OnSeedShort | uds/bootloader.py:234-235 | a seed answer too short for the bytes its handler reads raises before the state changes or anything is sent |
| Bootloader.OnKeyShort | uds/bootloader.py:247-248 | a key answer too short for the bytes its handler reads raises before the state changes or anything is sent |
| Bootloader.OnFingerprintShort | uds/bootloader.py:259-260 | a fingerprint answer too short for the bytes its handler reads raises before the state changes or anything is sent |
| Bootloader.OnEraseShort | uds/bootloader.py:271-272 | a erase answer too short for the bytes its handler reads raises before the state changes or anything is sent |
| Bootloader.OnDownloadFcShort | uds/bootloader.py:283-285 | a download flow control too short for the bytes its handler reads raises before the state changes or anything is sent |
| Bootloader.OnDownloadAnswerShort | uds/bootloader.py:290-291 | a download answer too short for the bytes its handler reads raises before the state changes or anything is sent |
| Bootloader.OnTransferFcShort | uds/bootloader.py:298-299 | a transfer flow control too short for the bytes its handler reads raises before the state changes or anything is sent |
| Bootloader.OnTransferCfShort | uds/bootloader.py:306-326 | a frame during the transfer too short for the bytes its handler reads raises before the state changes or anything is sent |
| Bootloader.OnExitShort | uds/bootloader.py:332-333 | a exit answer too short for the bytes its handler reads raises before the state changes or anything is sent |
| Bootloader.OnWriteSaShort | uds/bootloader.py:343-349 | a address-write answer too short for the bytes its handler reads raises before the state changes or anything is sent |
| Bootloader.OnReadSaShort | uds/bootloader.py:361-367 | a address-read answer too short for the bytes its handler reads raises before the state changes or anything is sent |
| Bootloader.OnResetUdsShort | uds/bootloader.py:379-380 | a UDS reset answer too short for the bytes its handler reads raises before the state changes or anything is sent |
| Bootloader.OnResetSoftShort | uds/bootloader.py:388-389 | a software reset answer too short for the bytes its handler reads raises before the state changes or anything is sent |
| Bootloader.OnStatusShort | uds/bootloader.py:397-398 | a status answer too short for the bytes its handler reads raises before the state changes or anything is sent |
| Bootloader.OnSessionValid | uds/bootloader.py:221-232 | the handler of SetProgrammingSession keeps the machine valid |
| Bootloader.OnSeedValid | uds/bootloader.py:234-245 | the handler of RequestSeed keeps the machine valid |
| Bootloader.OnKeyValid | uds/bootloader.py:247-257 | the handler of SeedVerification keeps the machine valid |
| Bootloader.OnFingerprintValid | uds/bootloader.py:259-269 | the handler of WriteFingerprint keeps the machine valid |
| Bootloader.OnEraseValid | uds/bootloader.py:271-281 | the handler of EraseFirmware keeps the machine valid |
| Bootloader.OnDownloadFcValid | uds/bootloader.py:283-288 | the handler of RequestDownload keeps the machine valid |
| Bootloader.OnDownloadAnswerValid | uds/bootloader.py:290-296 | the handler of RequestDownloadConsecutive keeps the machine valid |
| Bootloader.OnTransferFcValid | uds/bootloader.py:298-304 | the handler of TransferDataFf keeps the machine valid |
| Bootloader.OnTransferCfValid | uds/bootloader.py:306-330 | the handler of TransferDataCf keeps the machine valid |
| Bootloader.OnExitValid | uds/bootloader.py:332-341 | the handler of RequestTransferExit keeps the machine valid |
| Bootloader.OnWriteSaValid | uds/bootloader.py:343-359 | the handler of WriteCanSourceAddress keeps the machine valid |
| Bootloader.OnReadSaValid | uds/bootloader.py:361-377 | the handler of ReadCanSourceAddress keeps the machine valid |
| Bootloader.OnResetUdsValid | uds/bootloader.py:379-386 | the handler of EcuUdsReset keeps the machine valid |
| Bootloader.OnResetSoftValid | uds/bootloader.py:388-395 | the handler of EcuSoftwareReset keeps the machine valid |
| Bootloader.OnStatusValid | uds/bootloader.py:397-404 | the handler of ReadFingerprint keeps the machine valid |
| Bootloader.ChainStep | uds/bootloader.py:207-304 | in every state of the programming chain, a readable frame on the listened identifier moves exactly one step on the positive answer of that state, and otherwise stays put without sending (an error after a first frame) |
| Bootloader.ErrorIsSticky | uds/bootloader.py:406-408 | no frame moves the machine out of Error |
| Bootloader.ErrorIgnoresCommands | uds/bootloader.py:112-205 | in Error, start and the source-address commands are refused with nothing changed, and the timeout, the pacing timer and the configuration setters keep the Error state |
| Bootloader.ShortResponseRaises | uds/bootloader.py:207-404 | in every state, a response too short for the bytes its handler reads raises before the state changes or anything is sent |
| Bootloader.DispatchShort | uds/bootloader.py:221-404 | the same for the handler of the current state |
| Bootloader.InitialValid | uds/bootloader.py:61-91 | the machine starts valid |
| Bootloader.TransferKeepsImage | uds/services/transfer_data.py:95-166 | no transfer operation drops the image, and a first frame with an image is never silently skipped |
| Bootloader.HandlerKeepsValid | uds/bootloader.py:221-404 | every state handler keeps the machine valid: a programming run has its image, a pending address write knows its address and identifier, and the declared but unused states are never entered |
| Bootloader.StepKeepsValid | uds/bootloader.py:207-404 | every inbound frame keeps the machine valid |
| Bootloader.StartKeepsValid | uds/bootloader.py:187-205 | start keeps the machine valid |
| Bootloader.WriteSaKeepsValid | uds/bootloader.py:112-138 | the address write keeps the machine valid |
| Bootloader.ReadSaKeepsValid | uds/bootloader.py:140-150 | the address read keeps the machine valid |
| Bootloader.SaTimeoutKeepsValid | uds/bootloader.py:152-167 | the address timeout keeps the machine valid |
| Bootloader.ResetsKeepValid | uds/bootloader.py:169-185 | both resets and the status check keep the machine valid |
| Bootloader.ConfigurationKeepsValid | uds/bootloader.py:97-110 | loading an image and setting the byte order keep the machine valid |
| Bootloader.PacingKeepsValid | uds/bootloader.py:89-95 | the pacing timer keeps the machine valid |
| Bootloader.BlocksAlwaysFormed | uds/bootloader.py:290-321 | in a valid machine every block's first frame is formed: the transfer service has its image whenever a block starts |
| Bootloader.SetSrcRx | uds/bootloader.py:133 | re-addressing the ECU gives the response identifier that the pending write computed: the old one with its low byte replaced |
| Bootloader.WriteSaAnswer | uds/bootloader.py:343-359 | a confirmed answer to a pending address write returns to Ready, installs the pending address and reports success |
| Bootloader.SourceAddressApplied | uds/bootloader.py:112-359 | after an accepted address write and its confirmed answer, the ECU's address is the new one, the pair stays linked, and the machine listens on exactly the response identifier the write computed |
| Bootloader.ParseOrderName | uds/bootloader.py:103-104 | the names "big" and "little" read back as their own byte order |
| Bootloader.LowByte | uds/bootloader.py:368 | the low byte of a little-endian value is its first byte |
| CanTraffic.NormalizeDirection | ui/qml/app_controller_parts/can_traffic.py:94-101 | a direction always normalises to a non-empty label |
| CanTraffic.DirectionCases | ui/qml/app_controller_parts/can_traffic.py:94-101 | the label is TX exactly when the stripped, upper-cased text starts with T, RX exactly when it starts with R, and "-" exactly when it is empty or "-" |
| CanTraffic.NormalizeIdempotent | ui/qml/app_controller_parts/can_traffic.py:94-101 | normalising a normalised direction changes nothing |
| CanTraffic.NormalizedFixed | ui/qml/app_controller_parts/can_traffic.py:94-101 | a normalised label is its own stripped upper-case form, and a label starting with T or R is TX or RX |
| CanTraffic.UpperIdempotent | ui/qml/app_controller_parts/can_traffic.py:97 | upper-casing twice is upper-casing once |
| CanTraffic.Summarize | ui/qml/app_controller_parts/can_traffic.py:133-164 | an empty payload has no summary, and otherwise the summary's kind is the ISO-TP frame type in the high nibble of the first byte |
| CanTraffic.SummarizeSingleFrame | ui/qml/app_controller_parts/can_traffic.py:139-146 | a single frame built by the transport reads back as its length and service, or as a negative response with its service and code |
| CanTraffic.FirstFrameLength | ui/qml/app_controller_parts/can_traffic.py:148-152 | a first frame reads back the 12-bit length it announces and its service |
| CanTraffic.FirstLengthBitwise | ui/qml/app_controller_parts/can_traffic.py:149 | the mask-and-shift length of a first frame is the low nibble times 256 plus the second byte |
| CanTraffic.ConsecutiveNumber | ui/qml/app_controller_parts/can_traffic.py:154-155 | a consecutive frame reads back its sequence number |
| CanTraffic.FlowControlFields | ui/qml/app_controller_parts/can_traffic.py:157-162 | a flow control reads back its block size and separation time, and its status is unknown exactly when it is above 2 |
| CanTraffic.MarkerRow | ui/qml/app_controller_parts/can_traffic.py:193-210 | the clean-up marker is a system row |
| CanTraffic.AppendRow | ui/qml/app_controller_parts/can_traffic.py:186-192 | the appended row is always the last one of the journal |
| CanTraffic.JournalBounded | ui/qml/app_controller_parts/can_traffic.py:186-211 | the journal never exceeds 5000 rows: below the limit a row is appended, at the limit the journal shrinks to the marker row and the last 1500 rows |
| CanTraffic.JournalKeepsRecent | ui/qml/app_controller_parts/can_traffic.py:186-211 | up to the last 1500 rows, counting the new one, are always kept in order |
| CanTraffic.NormalizeFilters | ui/qml/app_controller_parts/can_traffic.py:222-224 | each filter field gets its value stripped and lower-cased, or empty when it has none |
| CanTraffic.RowMatchesPasses | ui/qml/app_controller_parts/can_traffic.py:230-239 | the early-exit filter loop accepts a row exactly when every non-empty filter is a substring of its lower-cased field |
| CanTraffic.RowMatches | ui/qml/app_controller_parts/can_traffic.py:232-239 | empty filters are skipped, and the first filter missing from its lower-cased field rejects the row |
| CanTraffic.FilterRows | ui/qml/app_controller_parts/can_traffic.py:229-242 | the filtered view is never longer than the journal |
| CanTraffic.FilterRowsMembers | ui/qml/app_controller_parts/can_traffic.py:229-242 | the filtered view holds exactly the journal rows the filters accept |
| CanTraffic.RebuildView | ui/qml/app_controller_parts/can_traffic.py:221-244 | the view is never longer than the journal |
| CanTraffic.ViewMembers | ui/qml/app_controller_parts/can_traffic.py:221-244 | a row is in the rebuilt view exactly when it is in the journal and passes every normalised filter |
| CanTraffic.NoFilterKeepsAll | ui/qml/app_controller_parts/can_traffic.py:226-228 | without a filter the view is the whole journal |
| CanTraffic.DiagnosticBitwise | ui/qml/app_controller_parts/can_traffic.py:296-298 | a PGN is diagnostic exactly when its shift-and-mask PDU format byte is 0xDA |
| CanTraffic.IsDiagnosticPgn | ui/qml/app_controller_parts/can_traffic.py:296-298 | a PGN is diagnostic when its PDU-format byte, bits 8 to 15, is 0xDA |
| CanTraffic.SetDstKeepsDiagnostic | ui/qml/app_controller_parts/can_traffic.py:296-298 | re-addressing an identifier does not change whether its PGN is diagnostic |
| CanTraffic.Count | ui/qml/app_controller_parts/can_traffic.py:421 | an address with votes has an entry in the vote table |
| CanTraffic.VoteCounts | ui/qml/app_controller_parts/can_traffic.py:418-422 | a vote adds one to its tester's count, leaves every other count alone and keeps one entry per tester |
| CanTraffic.Vote | ui/qml/app_controller_parts/can_traffic.py:418-422 | a vote adds at most one entry to the tally |
| CanTraffic.VoteKeys | ui/qml/app_controller_parts/can_traffic.py:418-422 | a vote adds no tester other than the one voted for |
| CanTraffic.BestIndex | ui/qml/app_controller_parts/can_traffic.py:307 | the best entry has the highest count and is the first entry with it, as max keeps the first maximum |
| CanTraffic.ChooseTester | ui/qml/app_controller_parts/can_traffic.py:302-308 | without votes the tester is the default address with count 0, and otherwise it is a voted entry whose count no other entry exceeds |
| CanTraffic.ChooseFirstOfTie | ui/qml/app_controller_parts/can_traffic.py:302-308 | among entries with the highest count, the chosen tester is the first one |
| CanTraffic.KeepKnownSpec | ui/qml/app_controller_parts/can_traffic.py:326-332 | the first pass keeps each known address of the previous order once, and nothing else |
| CanTraffic.KeepKnown | ui/qml/app_controller_parts/can_traffic.py:326-332 | the first pass never lengthens the order |
| CanTraffic.KeepKnownIdentity | ui/qml/app_controller_parts/can_traffic.py:326-332 | an order of distinct known addresses passes through unchanged |
| CanTraffic.AscendingSorted | ui/qml/app_controller_parts/can_traffic.py:334 | the second pass visits addresses in strictly increasing order |
| CanTraffic.AscendingMembers | ui/qml/app_controller_parts/can_traffic.py:334 | the second pass visits exactly the known addresses |
| CanTraffic.StableOrder | ui/qml/app_controller_parts/can_traffic.py:320-340 | the new order is at least as long as the known part of the old one |
| CanTraffic.StableOrderSpec | ui/qml/app_controller_parts/can_traffic.py:320-340 | the stable order lists every known address exactly once |
| CanTraffic.StablePrefix | ui/qml/app_controller_parts/can_traffic.py:320-340 | an existing order of known addresses is kept as a prefix, never reshuffled |
| CanTraffic.NewAddressesAscend | ui/qml/app_controller_parts/can_traffic.py:320-340 | after the kept prefix, new addresses are appended in ascending order |
| CanTraffic.IndexOf | ui/qml/app_controller_parts/can_traffic.py:362 | the index found holds the address and is its first occurrence |
| CanTraffic.SelectIndex | ui/qml/app_controller_parts/can_traffic.py:316-366 | the selection is -1 exactly for an empty list, otherwise in range, and a previously selected address still listed stays selected |
| CanTraffic.Rebuild | ui/qml/app_controller_parts/can_traffic.py:310-375 | a rebuild does not change the statistics or the frame counter |
| CanTraffic.RebuildKeeps | ui/qml/app_controller_parts/can_traffic.py:310-375 | a rebuild lists exactly the observed addresses once each, keeps the existing list as a prefix and keeps the selected address |
| CanTraffic.Tally | ui/qml/app_controller_parts/can_traffic.py:408-425 | counting a frame adds its device to the observed table and no other address |
| CanTraffic.Update | ui/qml/app_controller_parts/can_traffic.py:396-403 | a frame from the tester's own address changes nothing |
| CanTraffic.UpdateCounts | ui/qml/app_controller_parts/can_traffic.py:396-425 | a frame from another device counts one more frame for it, one more diagnostic frame and tester vote when its PGN is diagnostic, stamps it with the next frame number and leaves every other device alone |
| CanTraffic.UpdateStable | ui/qml/app_controller_parts/can_traffic.py:396-439 | after an update the list is consistent, the previous list is kept as a prefix and the selected address stays selected |
| CanTraffic.TallyRebuildable | ui/qml/app_controller_parts/can_traffic.py:408-425 | counting a frame keeps the candidate order ready for a rebuild, with list and selection unchanged |
| CanTraffic.ResetConsistent | ui/qml/app_controller_parts/can_traffic.py:441-450 | the reset state is consistent: empty list and no selection |
| CanTraffic.ObservedTableSmall | ui/qml/app_controller_parts/can_traffic.py:427-437 | the observed table never holds more than 256 addresses, so the trim above 256 cannot fire |
| Collector.Tags | ui/qml/app_controller_parts/collector.py:37-39 | each header cell is trimmed and case-folded, and names the roles one of whose key words it contains |
| Collector.ScanHeader | ui/qml/app_controller_parts/collector.py:37-49 | each of time, temperature and fuel is the first non-empty column naming it that an earlier role has not already claimed, or -1 when there is none |
| Collector.ScanInRange | ui/qml/app_controller_parts/collector.py:37-49 | the columns found by name are in range and pairwise distinct |
| Collector.Fallback | ui/qml/app_controller_parts/collector.py:51-59 | columns found by name are never moved; with both data columns found or fewer than three columns nothing changes; with three or more columns temperature and fuel always get a column in range |
| Collector.ResolveColumns | ui/qml/app_controller_parts/collector.py:32-65 | the resolved columns are in range, and every header of three or more columns gets a temperature and a fuel column |
| Collector.RoleSet | ui/qml/app_controller_parts/collector.py:37-49 | a header name stands for the time, temperature or fuel column when its stripped, lower-cased text contains that column's Russian or English keyword; an empty name stands for none |
| Collector.FallbackSharesColumn | ui/qml/app_controller_parts/collector.py:51-55 | a four-column header naming only its last column as temperature gets fuel on that same column |
| Collector.NodeSa | ui/qml/app_controller_parts/collector.py:157-163 | a frame from any other address belongs to its source; a frame whose source is the tester's own address belongs to its destination; the node is the tester's address only for a tester frame sent to the tester |
| Collector.EnsureNode | ui/qml/app_controller_parts/collector.py:165-182 | the node table gains the address with a zeroed record if it was new, keeps every other record, and the address joins the end of the polling order unless it is already there |
| Collector.EnsureKeepsTracked | ui/qml/app_controller_parts/collector.py:165-182 | the polling order keeps listing each known node exactly once, and the new node is in it |
| Collector.LiveMembers | ui/qml/app_controller_parts/collector.py:199-220 | the kept order holds exactly the ordered, known nodes that are not stale |
| Collector.LiveNoDup | ui/qml/app_controller_parts/collector.py:199-220 | the kept order lists each node once |
| Collector.Gone | ui/qml/app_controller_parts/collector.py:199-214 | only stale, known nodes are removed |
| Collector.Prune | ui/qml/app_controller_parts/collector.py:189-214 | with an empty order or nothing stale, pruning changes nothing |
| Collector.PruneSpec | ui/qml/app_controller_parts/collector.py:189-227 | pruning removes exactly the stale nodes with their trends, keeps every other record and the order consistent, and keeps the polling position in range, resetting it and the phase when no node is left |
| Collector.PruneNothingStale | ui/qml/app_controller_parts/collector.py:189-214 | with no stale node, pruning changes nothing |
| Collector.AppendTrend | ui/qml/app_controller_parts/collector.py:383-408 | the new sample ends both the global trend and the node's history, the global trend stays within its point limit and the node's history within its limit, and no other node's history changes |
| Collector.TrendKeepsRecent | ui/qml/app_controller_parts/collector.py:394-397 | the latest samples up to the point limit are kept in order, ending with the new one |
| Collector.DataValue | ui/qml/app_controller_parts/collector.py:500 | a record of length 3 or less reads 0, a record announcing more bytes than the frame holds raises, and otherwise the value is the little-endian number of the announced bytes |
| Collector.HandleFrame | ui/qml/app_controller_parts/collector.py:467-527 | a frame from the tester is ignored; any other frame marks its node as seen now and joins it to the polling order, and leaves every other node's record alone |
| Collector.IsReading | ui/qml/app_controller_parts/collector.py:482-496 | a frame is a reading when its PGN equals the response PGN in 18 bits, it has at least four bytes, and byte 1 is the positive-response SID |
| Collector.FuelReadingCounted | ui/qml/app_controller_parts/collector.py:507-522 | a fuel reading sets the node's fuel level, counts one more fuel reading and adds a trend sample for that node carrying the value |
| Collector.TemperatureReadingCounted | ui/qml/app_controller_parts/collector.py:514-522 | a temperature reading sets the node's temperature, counts one more temperature reading and adds a trend sample for that node |
| Collector.NonReadingKeepsValues | ui/qml/app_controller_parts/collector.py:484-497 | a frame that is not a positive reading from the response PGN only marks the node as seen |
| Collector.HandleKeepsTracked | ui/qml/app_controller_parts/collector.py:467-527 | handling a frame keeps the polling order consistent with the node table |
| Collector.PollTick | ui/qml/app_controller_parts/collector.py:529-540 | when disconnected or busy nothing happens, and otherwise a request goes out exactly when nodes remain after pruning |
| Collector.PollNext | ui/qml/app_controller_parts/collector.py:542-561 | a request goes out exactly when the order is not empty; it is addressed to the current node from the tester, and the polling position stays in range |
| Collector.PollAt | ui/qml/app_controller_parts/collector.py:548-552 | the request reads the phase's variable from the given node, with the tester's priority and address |
| Collector.PollPhaseZero | ui/qml/app_controller_parts/collector.py:547-556 | in phase 0 the fuel level is read from the current node, the next tick comes after the poll interval and the phase moves to 1 on the same node |
| Collector.PollPhaseOne | ui/qml/app_controller_parts/collector.py:547-561 | in phase 1 the temperature is read from the current node, the next tick comes after the cycle pause and polling moves to the next node, wrapping around |
| Collector.PollCycle | ui/qml/app_controller_parts/collector.py:529-561 | with nothing stale, two ticks read fuel and then temperature from the same node, and then move on to the next one |
| Collector.TickNothingStale | ui/qml/app_controller_parts/collector.py:529-561 | when connected, idle and with nothing stale, a tick is just the next poll |
| Collector.PollKeepsTracked | ui/qml/app_controller_parts/collector.py:529-561 | a poll tick keeps the polling order consistent with the node table |
| AppController.BaseOf | ui/qml/app_controller.py:1311 | the text is read in base 16 when it starts with 0x in any case, otherwise in base 10 |
| AppController.ParseUintField | ui/qml/app_controller.py:1305-1320 | a blank field is refused as blank; an accepted value is the integer the trimmed text spells in its base and lies within the bounds; an out-of-range refusal has read an integer outside them |
| AppController.HexBase | ui/qml/app_controller.py:1311 | a 0x prefix selects base 16 |
| AppController.DecimalBase | ui/qml/app_controller.py:1311 | plain decimal digits select base 10 |
| AppController.FieldReads | ui/qml/app_controller.py:1305-1320 | a trimmed text that reads as an in-range integer in its base is accepted as that integer |
| AppController.HexTextReads | ui/qml/app_controller.py:1305-1320 | an in-range value printed with hex() reads back as itself |
| AppController.DecimalTextReads | ui/qml/app_controller.py:1305-1320 | an in-range value printed with str() reads back as itself |
| AppController.ParseSourceAddress | ui/qml/app_controller.py:1341-1351 | an accepted address is the integer its trimmed text spells |
| AppController.SourceAddressIsField | ui/qml/app_controller.py:1341-1351 | an address is accepted exactly when the field parser accepts the text within 0..255, with the same value |
| AppController.SourceAddressReadsHex | ui/qml/app_controller.py:1341-1351 | every address printed in hex reads back as itself |
| AppController.SetByteOrderIndex | ui/qml/app_controller.py:544-563 | index 1 selects little-endian and anything else, including a non-integer, big-endian; the same index again changes nothing, and a change is handed to the bootloader and the collector's read service |
| AppController.SelectorStaysInStep | ui/qml/app_controller.py:544-563 | the bootloader and the collector always use the order the selector shows, and selecting twice is selecting once |
| AppController.Bound | ui/qml/app_controller.py:975 | the bounded value lies in 30..10000, equals the typed value when it is in range and the nearer end otherwise |
| AppController.BoundedText | ui/qml/app_controller.py:970-975 | a text that reads as an integer gives a bounded value |
| AppController.SetPollInterval | ui/qml/app_controller.py:967-985 | only the poll interval can change, to the bounded value typed; the running timer is re-armed with it exactly when it changed during phase 1 |
| AppController.SetCyclePause | ui/qml/app_controller.py:988-1006 | only the cycle pause can change, to the bounded value typed; the running timer is re-armed with it exactly when it changed during phase 0 |
| AppController.PollIntervalTyped | ui/qml/app_controller.py:967-985 | a typed number sets the bounded interval, and typing it again changes nothing |
| AppController.CyclePauseTyped | ui/qml/app_controller.py:988-1006 | a typed number sets the bounded pause, and typing it again changes nothing |
| AppController.OnDataSent | ui/qml/app_controller.py:1165-1170 | the progress lies in 0..maximum and equals the count sent when that is in range |
| AppController.DataSentMonotone | ui/qml/app_controller.py:1165-1170 | more bytes sent never show less progress |
| AppController.StartProgrammingAsWritten | ui/qml/app_controller.py:873-885 | as written: `startProgramming` returns while programming, without an adapter, or while a BIN file loads; in every other case it raises at `_set_programming_active(True)`, and programming never becomes active |
| AppController.StartProgramming | ui/qml/app_controller.py:873-885 | corrected: the same three refusals, and programming becomes active exactly when all guards pass |
| AppController.StartProgrammingDivergence | ui/qml/app_controller.py:873-885 | the code as written and the corrected one agree on every refusal and differ exactly where the guards pass: raise against activate |
| AppController.ConnectedStartRaises | ui/qml/app_controller.py:873-885 | with the adapter connected and no file loading, the code as written raises and the corrected one activates programming |
| AppController.AppendLog | ui/qml/app_controller.py:1417-1437 | corrected: the log never exceeds 2000 entries and ends with the new one; a red entry while programming ends programming, and otherwise the flag is kept |
| AppController.AppendLogAsWritten | ui/qml/app_controller.py:1417-1437 | as written: the log is updated in the same way, then a red entry while the programming flag is set raises, because the controller defines no `_set_programming_active`; otherwise the flag is kept. As written the flag is never set, so that raise cannot happen |
| AppController.AppendLogDivergence | ui/qml/app_controller.py:1436-1437 | the code as written and the corrected one keep the same log, and differ exactly on a red entry while the programming flag is set |
| AppController.RedWhileProgrammingRaises | ui/qml/app_controller.py:1436-1437 | a red entry on an empty log while programming raises as written, and ends programming once corrected |
| AppController.LogKeepsRecent | ui/qml/app_controller.py:1431-1432 | the latest entries up to the limit are kept in order, ending with the new one |
| AppController.ApplyObserved | ui/qml/app_controller.py:621-655 | refused with the identifiers unchanged while programming, while an address operation runs or without a selected candidate; otherwise the request goes to the selected device from the chosen tester, responses come back from the device to the tester, and the priorities are kept |
| AppController.ObservedTesterVoted | ui/qml/app_controller.py:636-638 | the tester address applied is the default one when the device has no votes, and otherwise a tester with the most votes for it |
| AppController.ReadSide | ui/qml/app_controller.py:688-700 | the four fields of one side are read within their ranges, and the first bad field refuses that side with its reason |
| AppController.Build | ui/qml/app_controller.py:702-710 | the identifier built carries the typed priority, source and destination, with the destination in the low byte of the PGN |
| AppController.ApplyUdsIdentifiers | ui/qml/app_controller.py:678-719 | refused with the identifiers unchanged while programming, while an address operation runs or when a field is bad (the transmit side reported first); otherwise both identifiers carry the typed fields |
| AppController.ApplyTypedPair | ui/qml/app_controller.py:678-719 | typing back the fields of a pair within range, as `hex()` prints them, reproduces the pair |
| AppController.ApplyPageTexts | ui/qml/app_controller.py:678-719 | typing back the fields of a pair within range exactly as the page shows them reproduces the pair: the priority in decimal, the PGN and addresses as zero-padded upper-case hexadecimal |
| AppController.PageTexts | ui/qml/app_controller.py:1322-1336 | the page shows the priority `& 7` with `str`, the PGN `& 0xFFFF` as `0x%04X`, source and destination `& 0xFF` as `0x%02X`; each text typed back reads as that masked field |
| AppController.Masked | ui/qml/app_controller.py:1326-1329 | an identifier cut to the page's masks has fields within the page's ranges |
| AppController.ApplyPageTextsMasked | ui/qml/app_controller.py:678-719 | for every pair, typing back exactly what the page shows gives the pair cut to the masks `& 7`, `& 0xFFFF` and `& 0xFF` |
| AppController.PageSideReadsMasked | ui/qml/app_controller.py:1322-1336 | one side's page texts read back as its masked fields |
| AppController.BuildMasked | ui/qml/app_controller.py:702-710 | building from the masked fields gives the masked identifier |
| AppController.PageSideReads | ui/qml/app_controller.py:1322-1336 | the texts the page shows for an identifier within range read back as its fields |
| AppController.PageTextsUnmasked | ui/qml/app_controller.py:1326-1329 | for fields within range the page's masks `& 7`, `& 0xFFFF` and `& 0xFF` change nothing |
| AppController.PaddedTextReads | ui/qml/app_controller.py:1305-1320 | "0x" and zero-padded upper-case digits typed into a field read back as the number when it is in range |
| Numerals.PaddedHex | ui/qml/app_controller.py:1327-1329 | the `04X` and `02X` formats print exactly that many hexadecimal digits |
| Numerals.PaddedHexValue | ui/qml/app_controller.py:1327-1329 | the zero-padded digits printed for a number below 16^w denote that number |
| AppController.SideReads | ui/qml/app_controller.py:688-700 | the `hex()` texts of an identifier within range read back as its fields |
| AppController.BuildFields | ui/qml/app_controller.py:702-710 | building from an identifier's own fields gives the identifier back |

## Left out

- CAN hardware, the adapter driver, device enumeration and `CanDevice`: every send becomes an outbound frame in the result, and every received frame is an input. `app_can/CanDevice.py` is outside this model.
- Loading firmware files (`uds/firmware.py`), worker threads, Qt signals and their payloads, message boxes and log colours: not protocol logic.
- Wall-clock and monotonic time: the clock is a parameter (`now`). The collector's staleness test, `now - lastSeen > max(6, 2.5 × cycle estimate)` on floats, is given as the set of stale nodes.
- Timers: the consecutive-frame timer, the 2500 ms source-address timeout and the poll timer become explicit events. Their intervals are results, not waits.
- `UdsIdentifiers` as a process-wide singleton: it is passed as a value and returned changed.
- Strings: Python's Unicode `strip`, `lower`, `upper` and `casefold` are modelled for ASCII and Cyrillic letters only. `int()` with underscore separators or non-ASCII digits is not modelled.
- The collector's temperature: it is kept in tenths (an integer) instead of the float `value / 10.0`.
- CSV reading and writing (`_parse_collector_trend_csv_file`, `_append_collector_csv`, `_parse_collector_csv_number`, `collector_csv_manager.py`): file I/O and float parsing. Only the header resolution is modelled.
- The series statistics, view refreshes, captions and labels (`_calc_series_stats`, `_rebuild_collector_trend_views`, `_refresh_collector_nodes_view`, `_update_observed_candidate_text`): presentation only.
- Traffic page helpers `_on_can_message`, `_format_can_time`, `_parse_j1939_application_summary` and `_update_can_filter_options_with_row`: row formatting, time formatting and the filter drop-down lists. `_is_uds_identifier` is not modelled either; the diagnostic-PGN test is.
- Tester selection: `setSelectedObservedUdsCandidateIndex` and the remaining QML slots (connection, trace, recording, directories) are not modelled. They only forward to the modelled operations or to I/O.
- CanTraffic.ObservedTableSmall: the trim of the observed table above 256 entries is not modelled. The lemma shows the table is keyed by bytes, so the trim never fires.
- Collector.PollTick: the early return for an empty list of poll variables is not modelled. The list is a constant of two entries.
- ReadDataById.ParseDataField: it requires the frame to hold the bytes its length byte announces. On a shorter frame Python raises IndexError; the collector models that case through `Collector.DataValue`.
- The service verifiers (`Session.VerifyAnswer`, `SecurityAccess.VerifySeed`, `EcuReset.VerifyReset` and the others): each requires a frame long enough for the bytes it reads. The IndexError on a shorter response is modelled once, in `Bootloader.ShortResponseRaises`.
- Collector.FallbackSharesColumn: with four columns where only the last is named as temperature, the fallback puts fuel on the same column. This is recorded as the code's behaviour, not as a defect.
- AppController.AppendLog: the corrected member only clears the programming flag. The rest of the intended `_set_programming_active(False)` is not modelled: stopping the programming-start timer and clearing the pending start after reset.
- AppController.StartProgramming: the corrected member stops once programming is active. The auto-reset branch and the bootloader start that follow it (ui/qml/app_controller.py:887-902) are not modelled. `startCollectorRecording` and the other callers of the missing setter (lines 816, 1042, 1050, 1059, 1176, 1390) are outside this model.
- The programming flag: as written it is never true, since it is assigned only at ui/qml/app_controller.py:120 and inside the unreachable setter body. So the "refused while programming" branches of `AppController.ApplyObserved` and `AppController.ApplyUdsIdentifiers` (lines 579, 605, 623, 680) and the red-entry branch of `AppendLogAsWritten` cannot be taken as written. The model keeps the flag as a parameter, as the corrected controller would set it.
- The transmit echo: the CAN device re-emits every frame it sends on the receive signal (app_can/CanDevice.py:277-313), and `on_new_message` filters only by identifier. With request and response identifiers equal, which `applyUdsIdentifiers` accepts, the bootloader would read its own request as the answer. Echoed frames are not an input of `Bootloader.Step`.

## Findings

| source | as written | input that shows it | evidently intended | confidence | as-written member | corrected member |
|---|---|---|---|---|---|---|
| uds/data_identifiers.py:88-98 | `get_pid`/`get_var` guard with `index > len(vars)`, so `index == len(vars)` reaches the list subscript | index 30 (the catalogue has 30 entries) raises IndexError instead of returning None | `index >= len(vars)`: every index outside the catalogue gives None | high, not executed | DataIdentifiers.GetVarAsWritten, DataIdentifiers.GetPidAsWritten (witness `DataIdentifiers.GetVarOffByOne`) | DataIdentifiers.GetVar, DataIdentifiers.GetPid |
| ui/qml/app_controller.py:873-885 | `startProgramming` calls `self._set_programming_active(True)`, but the controller defines no such method: its body sits unreachable after the `return` of `_to_local_path` (lines 1371-1379) | pressing Start with the adapter connected and no BIN file loading raises AttributeError at line 885, before the auto-reset or the bootloader start; programming never starts from the page | programming becomes active and the scenario starts | high, not executed | AppController.StartProgrammingAsWritten (witness `AppController.ConnectedStartRaises`), AppController.AppendLogAsWritten | AppController.StartProgramming, AppController.AppendLog |

=== FILE: app_controller.dfy ===
/** Pure helpers of the main page controller (`AppController`): the
    numeric fields the operator types, the byte-order selector, the
    clamps on collector timing and progress, the log's length bound, and
    the two ways of replacing the UDS identifier pair. Qt signals,
    message boxes and the Russian texts are not modelled; a refusal is
    reported as a reason. "Programming active" and "source-address
    operation busy" are flags passed in. */
module AppController {
  import opened Common
  import opened CanIdentifier
  import Numerals
  import UdsIdentifiers
  import Bootloader
  import ReadDataById
  import Collector
  import CanTraffic

  // ------------------------------------------------------------ numeric fields

  /** Why a typed number was refused. */
  datatype FieldError = Blank | NotANumber | OutOfRange

  /** A typed number: its value, or why it was refused. */
  datatype Parsed = Value(v: int) | Refused(why: FieldError)

  /** The base a field is read in: 16 when, lower-cased, it starts with
      "0x", else 10. */
  function BaseOf(raw: string): (b: nat)
    ensures Numerals.ValidBase(b)
  {
    if StartsWith(Lower(raw), "0x") then 16 else 10
  }

  /** `_parse_uint_field`: the trimmed text must be non-empty, must read
      as an integer in the base its prefix selects, and must lie in
      [minimum, maximum]. */
  function ParseUintField(text: string, minimum: int, maximum: int): (r: Parsed)
    ensures r == Refused(Blank) <==> |Strip(text)| == 0
    ensures r.Value? ==> minimum <= r.v <= maximum
    ensures r.Value? ==> Numerals.PyInt(Strip(text), BaseOf(Strip(text))) == Some(r.v)
    ensures r == Refused(OutOfRange) ==>
      exists v :: Numerals.PyInt(Strip(text), BaseOf(Strip(text))) == Some(v) && (v < minimum || v > maximum)
  {
    var raw := Strip(text);
    if |raw| == 0 then Refused(Blank)
    else
      match Numerals.PyInt(raw, BaseOf(raw))
      case None => Refused(NotANumber)
      case Some(v) => if v < minimum || v > maximum then Refused(OutOfRange) else Value(v)
  }

  /** Text that starts "0x" is read in base 16. */
  lemma HexBase(d: string)
    ensures BaseOf("0x" + d) == 16
  {
    var t := "0x" + d;
    assert Lower(t)[0] == LowerChar(t[0]) && Lower(t)[1] == LowerChar(t[1]);
    assert Lower(t)[..2] == "0x";
  }

  /** A run of decimal digits is read in base 10. */
  lemma DecimalBase(d: string)
    requires Numerals.AllDigits(d, 10)
    ensures BaseOf(d) == 10
  {
    if |d| >= 2 {
      assert Numerals.IsDigit(d[1], 10);
      assert Lower(d)[1] == LowerChar(d[1]) != 'x';
    }
  }

  /** A trimmed text that reads as v in its base, v in range, is v. */
  lemma FieldReads(s: string, v: int, minimum: int, maximum: int)
    requires minimum <= v <= maximum && Strip(s) == s && |s| > 0
    requires Numerals.ParseSigned(s, BaseOf(s)) == Some(v)
    ensures ParseUintField(s, minimum, maximum) == Value(v)
  {
  }

  /** `hex(v)` typed into a field reads back as v when v is in range. */
  lemma HexTextReads(v: nat, minimum: int, maximum: int)
    requires minimum <= v <= maximum
    ensures ParseUintField(Numerals.PyFormat(16, v), minimum, maximum) == Value(v)
  {
    var s := Numerals.PyFormat(16, v);
    var d := Numerals.FormatDigits(v, 16);
    assert s == Numerals.Unsigned(16, v) == "0x" + d;
    StripNoop(s);
    HexBase(d);
    Numerals.ParseUnsigned(16, v);
    FieldReads(s, v, minimum, maximum);
  }

  /** `str(v)` typed into a field reads back as v when v is in range. */
  lemma DecimalTextReads(v: nat, minimum: int, maximum: int)
    requires minimum <= v <= maximum
    ensures ParseUintField(Numerals.PyFormat(10, v), minimum, maximum) == Value(v)
  {
    var s := Numerals.PyFormat(10, v);
    assert s == Numerals.Unsigned(10, v) == Numerals.FormatDigits(v, 10);
    StripNoop(s);
    DecimalBase(s);
    Numerals.ParseUnsigned(10, v);
    FieldReads(s, v, minimum, maximum);
  }

  /** `_parse_source_address`: an address of 0..255 in decimal or
      0x-hex; None stands for the ValueError raised otherwise. */
  function ParseSourceAddress(text: string): (r: Option<Byte>)
    ensures r.Some? ==> Numerals.PyInt(Strip(text), BaseOf(Strip(text))) == Some(r.value as int)
  {
    var raw := Strip(text);
    if |raw| == 0 then None
    else
      match Numerals.PyInt(raw, BaseOf(raw))
      case None => None
      case Some(v) => if v < 0 || v > 0xFF then None else Some(v)
  }

  /** The source-address parser is the field parser for 0..255. */
  lemma SourceAddressIsField(text: string)
    ensures ParseSourceAddress(text).Some? <==> ParseUintField(text, 0, 0xFF).Value?
    ensures ParseSourceAddress(text).Some? ==>
      ParseSourceAddress(text).value == ParseUintField(text, 0, 0xFF).v
  {
  }

  /** Every address the page shows in hex reads back. */
  lemma SourceAddressReadsHex(sa: Byte)
    ensures ParseSourceAddress(Numerals.PyFormat(16, sa)) == Some(sa)
  {
    HexTextReads(sa, 0, 0xFF);
    SourceAddressIsField(Numerals.PyFormat(16, sa));
  }

  // ------------------------------------------------------------ byte order

  /** The part of the page the byte-order selector drives: the selected
      index, the bootloader and the collector's read service. */
  datatype Selector = Selector(index: nat, loader: Bootloader.Loader,
                               collectorRead: ReadDataById.ReadService)

  /** The byte order an index stands for: 1 is little-endian, anything
      else big-endian. */
  function OrderOf(index: int): ByteOrder {
    if index == 1 then Little else Big
  }

  /** The selector shows the order the bootloader and the collector use. */
  predicate InStep(p: Selector) {
    p.index <= 1 && p.loader.order == OrderOf(p.index) && p.collectorRead.order == OrderOf(p.index)
  }

  /** `setTransferByteOrderIndex`: an index that does not read as an
      integer (None) counts as 0; 1 selects little-endian and anything
      else big-endian. A change is handed, by name, to the bootloader and
      to the collector's read service; the same index again changes
      nothing. */
  function SetByteOrderIndex(p: Selector, index: Option<int>): (r: Selector)
    ensures r.index == (if index == Some(1) then 1 else 0)
    ensures r.index == p.index ==> r == p
    ensures r.index != p.index ==>
      r.loader.order == OrderOf(r.index) && r.collectorRead.order == OrderOf(r.index) &&
      r.collectorRead.pidRequest == p.collectorRead.pidRequest
  {
    var parsed := if index.Some? then index.value else 0;
    var newIndex := if parsed == 1 then 1 else 0;
    if p.index == newIndex then p
    else
      var name := OrderName(OrderOf(newIndex));
      Bootloader.ParseOrderName(OrderOf(newIndex));
      p.(index := newIndex,
         loader := Bootloader.SetTransferByteOrder(p.loader, name),
         collectorRead := ReadDataById.SetByteOrder(p.collectorRead, name))
  }

  /** Selecting keeps the selector, the bootloader and the collector in
      step, and selecting the same index twice is selecting it once. */
  lemma SelectorStaysInStep(p: Selector, index: Option<int>)
    requires InStep(p)
    ensures InStep(SetByteOrderIndex(p, index))
    ensures SetByteOrderIndex(SetByteOrderIndex(p, index), index) == SetByteOrderIndex(p, index)
  {
  }

  // ------------------------------------------------------------ collector timing

  /** `max(30, min(10000, v))`: the range of the poll interval and the
      cycle pause, in ms. */
  function Bound(v: int): (r: int)
    ensures 30 <= r <= 10000
    ensures 30 <= v <= 10000 ==> r == v
    ensures v < 30 ==> r == 30
    ensures v > 10000 ==> r == 10000
  {
    if v < 30 then 30 else if v > 10000 then 10000 else v
  }

  /** The typed interval, bounded; None when the text is not an integer. */
  function BoundedText(text: string): (r: Option<int>)
    ensures r.Some? ==> 30 <= r.value <= 10000
  {
    match Numerals.PyInt(Strip(text), 10)
    case None => None
    case Some(v) => Some(Bound(v))
  }

  /** `setCollectorPollIntervalMs`: a typed integer, bounded to
      30..10000, replaces the poll interval; the running timer takes it
      at once only in phase 1. The second component is the interval the
      running timer is given, if any. */
  function SetPollInterval(c: Collector.State, text: string): (r: (Collector.State, Option<nat>))
    ensures r.0.nodes == c.nodes && r.0.order == c.order && r.0.trend == c.trend &&
      r.0.trendByNode == c.trendByNode && r.0.read == c.read
    ensures r.0.pollIndex == c.pollIndex && r.0.phase == c.phase && r.0.cyclePause == c.cyclePause
    ensures r.0.pollInterval != c.pollInterval ==> 30 <= r.0.pollInterval <= 10000 && Some(r.0.pollInterval as int) == BoundedText(text)
    ensures r.1.Some? <==> r.0.pollInterval != c.pollInterval && c.phase == 1
    ensures r.1.Some? ==> r.1.value == r.0.pollInterval
  {
    var t := BoundedText(text);
    if t.None? || c.pollInterval == t.value then (c, None)
    else
      var b: nat := t.value;
      (c.(pollInterval := b), if c.phase == 1 then Some(b) else None)
  }

  /** `setCollectorCyclePauseMs`: the same for the pause between cycles,
      which the running timer takes at once only in phase 0. */
  function SetCyclePause(c: Collector.State, text: string): (r: (Collector.State, Option<nat>))
    ensures r.0.nodes == c.nodes && r.0.order == c.order && r.0.trend == c.trend &&
      r.0.trendByNode == c.trendByNode && r.0.read == c.read
    ensures r.0.pollIndex == c.pollIndex && r.0.phase == c.phase && r.0.pollInterval == c.pollInterval
    ensures r.0.cyclePause != c.cyclePause ==> 30 <= r.0.cyclePause <= 10000 && Some(r.0.cyclePause as int) == BoundedText(text)
    ensures r.1.Some? <==> r.0.cyclePause != c.cyclePause && c.phase == 0
    ensures r.1.Some? ==> r.1.value == r.0.cyclePause
  {
    var t := BoundedText(text);
    if t.None? || c.cyclePause == t.value then (c, None)
    else
      var b: nat := t.value;
      (c.(cyclePause := b), if c.phase == 0 then Some(b) else None)
  }

  /** A typed interval in range is taken exactly; one outside is bounded;
      typing the same text again changes nothing. */
  lemma PollIntervalTyped(c: Collector.State, v: nat)
    ensures var r := SetPollInterval(c, Numerals.PyFormat(10, v)).0;
      r.pollInterval == Bound(v) && SetPollInterval(r, Numerals.PyFormat(10, v)) == (r, None)
  {
    var s := Numerals.PyFormat(10, v);
    Numerals.PyFormatParse(10, v);
    StripNoop(s);
  }

  /** The same for the cycle pause. */
  lemma CyclePauseTyped(c: Collector.State, v: nat)
    ensures var r := SetCyclePause(c, Numerals.PyFormat(10, v)).0;
      r.cyclePause == Bound(v) && SetCyclePause(r, Numerals.PyFormat(10, v)) == (r, None)
  {
    var s := Numerals.PyFormat(10, v);
    Numerals.PyFormatParse(10, v);
    StripNoop(s);
  }

  // ------------------------------------------------------------ progress and log

  /** `_on_data_sent`: the progress becomes the count sent, clamped to
      [0, progress maximum]. */
  function OnDataSent(progressMax: int, value: int): (r: int)
    ensures progressMax >= 0 ==> 0 <= r <= progressMax
    ensures 0 <= value <= progressMax ==> r == value
  {
    var low := if value < 0 then 0 else value;
    if low < progressMax then low else progressMax
  }

  /** The clamp never reverses the order of two counts. */
  lemma DataSentMonotone(progressMax: int, a: int, b: int)
    requires a <= b
    ensures OnDataSent(progressMax, a) <= OnDataSent(progressMax, b)
  {
  }

  /** One line of the log. */
  datatype LogEntry = LogEntry(time: string, text: string, color: string)

  const LogLimit: nat := 2000

  /** `_append_log`: the entry joins the log, which keeps its last 2000
      entries; a red entry while programming ends programming. The
      result is the log and the programming flag. */
  function AppendLog(logs: seq<LogEntry>, entry: LogEntry, red: bool, programming: bool): (r: (seq<LogEntry>, bool))
    ensures 0 < |r.0| <= LogLimit && r.0[|r.0| - 1] == entry
    ensures r.1 <==> programming && !red
  {
    var all := logs + [entry];
    (if |all| > LogLimit then all[|all| - LogLimit..] else all, programming && !red)
  }

  /** The log is the most recent entries: up to 1999 of the previous
      ones, in order, then the new one. */
  lemma LogKeepsRecent(logs: seq<LogEntry>, entry: LogEntry, red: bool, programming: bool, k: nat)
    requires k < LogLimit && k <= |logs|
    ensures var r := AppendLog(logs, entry, red, programming).0;
      |r| > k && r[|r| - 1 - k..] == logs[|logs| - k..] + [entry]
  {
    var all := logs + [entry];
    var r := AppendLog(logs, entry, red, programming).0;
    assert r == all[|all| - |r|..];
    assert r[|r| - 1 - k..] == all[|all| - 1 - k..];
    assert all[|all| - 1 - k..] == logs[|logs| - k..] + [entry];
  }

  /** How `startProgramming` ends before the programming scenario runs. */
  datatype StartOutcome = AlreadyActive | NotConnected | StillLoading | Activated | StartRaised

  /** `startProgramming` as written: it returns while programming, without
      an adapter, or while a BIN file is loading; otherwise its first act,
      `self._set_programming_active(True)`, raises AttributeError because
      the controller defines no such method. Programming never becomes
      active. */
  function StartProgrammingAsWritten(programming: bool, connected: bool, loading: bool): (r: StartOutcome)
    ensures r == StartRaised <==> !programming && connected && !loading
    ensures r != Activated
  {
    if programming then AlreadyActive
    else if !connected then NotConnected
    else if loading then StillLoading
    else StartRaised
  }

  /** `startProgramming` with the setter defined: the same guards, then
      programming becomes active. */
  function StartProgramming(programming: bool, connected: bool, loading: bool): (r: StartOutcome)
    ensures r == Activated <==> !programming && connected && !loading
    ensures r != StartRaised
  {
    if programming then AlreadyActive
    else if !connected then NotConnected
    else if loading then StillLoading
    else Activated
  }

  /** The two agree on every refusal and differ exactly where the guards
      pass: the code raises, the corrected one activates. */
  lemma StartProgrammingDivergence(programming: bool, connected: bool, loading: bool)
    ensures var w := StartProgrammingAsWritten(programming, connected, loading);
      var c := StartProgramming(programming, connected, loading);
      (w == c <==> w != StartRaised) && (w == StartRaised <==> c == Activated)
  {
  }

  /** Starting with the adapter connected and no file loading. */
  lemma ConnectedStartRaises()
    ensures StartProgrammingAsWritten(false, true, false) == StartRaised
    ensures StartProgramming(false, true, false) == Activated
  {
  }

  /** What `_append_log` does as written. The controller defines no
      `_set_programming_active`: its body is left, unreachable, after the
      `return` of `_to_local_path`. A red entry while programming would
      raise AttributeError once the log is updated. As written, though, the
      programming flag is never true: it is set only at construction and
      inside that unreachable body (see StartProgrammingAsWritten), so this
      branch is shown for the corrected controller's flag. */
  datatype LogOutcome =
    | Logged(logs: seq<LogEntry>, programming: bool)
    | LoggedThenRaised(logs: seq<LogEntry>)

  function AppendLogAsWritten(logs: seq<LogEntry>, entry: LogEntry, red: bool, programming: bool): (r: LogOutcome)
    ensures 0 < |r.logs| <= LogLimit && r.logs[|r.logs| - 1] == entry
    ensures r.LoggedThenRaised? <==> programming && red
    ensures r.Logged? ==> r.programming == programming
  {
    var all := logs + [entry];
    var kept := if |all| > LogLimit then all[|all| - LogLimit..] else all;
    if programming && red then LoggedThenRaised(kept) else Logged(kept, programming)
  }

  /** The code as written and the corrected `AppendLog` keep the same log;
      they differ exactly on a red entry while programming, where the code
      raises and the corrected one ends programming. */
  lemma AppendLogDivergence(logs: seq<LogEntry>, entry: LogEntry, red: bool, programming: bool)
    ensures var w := AppendLogAsWritten(logs, entry, red, programming);
      var c := AppendLog(logs, entry, red, programming);
      w.logs == c.0 && (w.Logged? <==> !(programming && red)) && (w.Logged? ==> w.programming == c.1)
    ensures programming && red ==> !AppendLog(logs, entry, red, programming).1
  {
  }

  /** An error line during programming, on an empty log. */
  lemma RedWhileProgrammingRaises()
    ensures AppendLogAsWritten([], LogEntry("", "", "#ff0000"), true, true) == LoggedThenRaised([LogEntry("", "", "#ff0000")])
    ensures AppendLog([], LogEntry("", "", "#ff0000"), true, true) == ([LogEntry("", "", "#ff0000")], false)
  {
  }

  // ------------------------------------------------------------ identifiers

  /** Which of the eight identifier fields. */
  datatype Side = TxSide | RxSide
  datatype Part = Priority | Pgn | Source | Destination

  /** Why the identifier pair was not replaced. */
  datatype Reason =
    | ProgrammingActive
    | AddressBusy
    | NoCandidate
    | BadField(side: Side, part: Part, why: FieldError)

  /** The new pair, or the pair unchanged and why. */
  datatype Applied = Applied(ids: UdsIdentifiers.Pair, refused: Option<Reason>)

  /** `applyObservedUdsIdentifiers`: refused while programming, while a
      source-address operation runs, or with no selected candidate;
      otherwise the selected device and the tester it was most often
      seen answering (the current request source when it has no votes)
      become the pair's addresses: tx.src = rx.dst = tester and
      tx.dst = rx.src = device. */
  function ApplyObserved(ids: UdsIdentifiers.Pair, programming: bool, busy: bool,
                         o: CanTraffic.Observed): (r: Applied)
    ensures programming ==> r == Applied(ids, Some(ProgrammingActive))
    ensures !programming && busy ==> r == Applied(ids, Some(AddressBusy))
    ensures r.refused.None? <==> !programming && !busy && 0 <= o.index < |o.values|
    ensures r.refused.Some? ==> r.ids == ids
    ensures r.refused.None? ==>
      var device := o.values[o.index];
      Dst(r.ids.tx) == device && r.ids.rx.src == device &&
      Dst(r.ids.rx) == r.ids.tx.src && r.ids.tx.src < 256 &&
      UdsIdentifiers.Linked(r.ids) &&
      r.ids.tx.prio == ids.tx.prio && r.ids.rx.prio == ids.rx.prio
  {
    if programming then Applied(ids, Some(ProgrammingActive))
    else if busy then Applied(ids, Some(AddressBusy))
    else if !(0 <= o.index < |o.values|) then Applied(ids, Some(NoCandidate))
    else
      var device := o.values[o.index] % 256;
      var votes := if device in o.stats then o.stats[device].votes else [];
      var tester := CanTraffic.ChooseTester(votes, ids.tx.src % 256).0;
      assert tester % 0x100 == tester && device % 0x100 == device;
      var tx := SetDst(ids.tx.(src := tester), device);
      var rx := SetDst(ids.rx.(src := device), tester);
      Applied(UdsIdentifiers.Pair(tx, rx), None)
  }

  /** The tester ApplyObserved picks is the current request source when
      the device has no votes, and otherwise a most-voted tester of it. */
  lemma ObservedTesterVoted(ids: UdsIdentifiers.Pair, o: CanTraffic.Observed)
    requires 0 <= o.index < |o.values|
    ensures var device := o.values[o.index];
      var votes := if device in o.stats then o.stats[device].votes else [];
      var tester := ApplyObserved(ids, false, false, o).ids.tx.src;
      (|votes| == 0 ==> tester == ids.tx.src % 256) &&
      (|votes| > 0 ==> exists i :: 0 <= i < |votes| && votes[i].0 == tester &&
                         forall j :: 0 <= j < |votes| ==> votes[j].1 <= votes[i].1)
  {
    var device := o.values[o.index];
    var votes := if device in o.stats then o.stats[device].votes else [];
    var best := CanTraffic.ChooseTester(votes, ids.tx.src % 256);
    assert ApplyObserved(ids, false, false, o).ids.tx.src == best.0 by {
      assert device % 256 == device;
    }
    if |votes| > 0 {
      var i :| 0 <= i < |votes| && votes[i] == best;
    }
  }

  /** Eight typed values, checked. */
  datatype Fields = Fields(prio: int, pgn: int, src: int, dst: int)

  /** The four texts of one identifier. */
  datatype IdTexts = IdTexts(prio: string, pgn: string, src: string, dst: string)

  /** The four fields of one side, read in the order the page reads them
      (priority 0..7, PGN 0..0xFFFF, source and destination 0..255);
      the first refusal wins. */
  function ReadSide(t: IdTexts, side: Side): (r: Result<Fields>)
    ensures r.Ok? ==> 0 <= r.value.prio <= 7 && 0 <= r.value.pgn <= 0xFFFF &&
                      0 <= r.value.src <= 0xFF && 0 <= r.value.dst <= 0xFF
    ensures r.Err? ==> r.error.BadField? && r.error.side == side
    ensures ParseUintField(t.prio, 0, 7).Refused? ==> r == Err(BadField(side, Priority, ParseUintField(t.prio, 0, 7).why))
  {
    match ParseUintField(t.prio, 0, 7)
    case Refused(w) => Err(BadField(side, Priority, w))
    case Value(p) =>
      match ParseUintField(t.pgn, 0, 0xFFFF)
      case Refused(w) => Err(BadField(side, Pgn, w))
      case Value(g) =>
        match ParseUintField(t.src, 0, 0xFF)
        case Refused(w) => Err(BadField(side, Source, w))
        case Value(s) =>
          match ParseUintField(t.dst, 0, 0xFF)
          case Refused(w) => Err(BadField(side, Destination, w))
          case Value(d) => Ok(Fields(p, g, s, d))
  }

  /** A side's outcome: the fields read, or why not. */
  datatype Result<T> = Ok(value: T) | Err(error: Reason)

  /** The identifier the page builds from checked fields: priority, PGN
      and source are stored, then the destination is written into the
      PGN's low byte, so the PGN ends up as (pgn & 0xFF00) | dst. */
  function Build(f: Fields): (c: CanId)
    requires 0 <= f.prio && 0 <= f.pgn <= 0xFFFF && 0 <= f.src && 0 <= f.dst <= 0xFF
    ensures c.prio == f.prio && c.src == f.src && Dst(c) == f.dst
    ensures c.pgn == (f.pgn / 0x100) * 0x100 + f.dst
  {
    assert (f.pgn / 0x100) % 0x400 == f.pgn / 0x100 && f.dst % 0x100 == f.dst;
    SetDst(CanId(f.prio, f.pgn, f.src), f.dst)
  }

  /** `applyUdsIdentifiers`: refused while programming or while a
      source-address operation runs; otherwise the eight fields are read,
      TX first, and the first bad one refuses the whole change, leaving
      the pair as it was. */
  function ApplyUdsIdentifiers(ids: UdsIdentifiers.Pair, programming: bool, busy: bool,
                               tx: IdTexts, rx: IdTexts): (r: Applied)
    ensures programming ==> r == Applied(ids, Some(ProgrammingActive))
    ensures !programming && busy ==> r == Applied(ids, Some(AddressBusy))
    ensures r.refused.Some? ==> r.ids == ids
    ensures r.refused.None? <==> !programming && !busy && ReadSide(tx, TxSide).Ok? && ReadSide(rx, RxSide).Ok?
    ensures !programming && !busy && ReadSide(tx, TxSide).Err? ==> r.refused == Some(ReadSide(tx, TxSide).error)
    ensures r.refused.None? ==>
      var a := ReadSide(tx, TxSide).value;
      var b := ReadSide(rx, RxSide).value;
      r.ids.tx.pgn == (a.pgn / 0x100) * 0x100 + a.dst && r.ids.rx.pgn == (b.pgn / 0x100) * 0x100 + b.dst &&
      r.ids.tx.src == a.src && r.ids.rx.src == b.src && r.ids.tx.prio == a.prio && r.ids.rx.prio == b.prio
  {
    if programming then Applied(ids, Some(ProgrammingActive))
    else if busy then Applied(ids, Some(AddressBusy))
    else
      match ReadSide(tx, TxSide)
      case Err(e) => Applied(ids, Some(e))
      case Ok(a) =>
        match ReadSide(rx, RxSide)
        case Err(e) => Applied(ids, Some(e))
        case Ok(b) => Applied(UdsIdentifiers.Pair(Build(a), Build(b)), None)
  }

  /** The fields of an identifier as `hex()` prints them. */
  function HexTexts(c: CanId): IdTexts {
    IdTexts(Numerals.PyFormat(16, c.prio), Numerals.PyFormat(16, c.pgn),
            Numerals.PyFormat(16, c.src), Numerals.PyFormat(16, Dst(c)))
  }

  /** An identifier whose fields fit the page's ranges. */
  predicate Fits(c: CanId) {
    c.prio <= 7 && c.pgn <= 0xFFFF && c.src <= 0xFF
  }

  /** Typing back the fields of a pair that fits the ranges reproduces
      the pair. */
  lemma ApplyTypedPair(ids: UdsIdentifiers.Pair)
    requires Fits(ids.tx) && Fits(ids.rx)
    ensures ApplyUdsIdentifiers(ids, false, false, HexTexts(ids.tx), HexTexts(ids.rx)) == Applied(ids, None)
  {
    SideReads(ids.tx, TxSide);
    SideReads(ids.rx, RxSide);
    BuildFields(ids.tx);
    BuildFields(ids.rx);
  }

  /** Reading one side's printed fields gives its fields. */
  lemma SideReads(c: CanId, side: Side)
    requires Fits(c)
    ensures ReadSide(HexTexts(c), side) == Ok(Fields(c.prio, c.pgn, c.src, Dst(c)))
  {
    var t := HexTexts(c);
    HexTextReads(c.prio, 0, 7);
    HexTextReads(c.pgn, 0, 0xFFFF);
    HexTextReads(c.src, 0, 0xFF);
    HexTextReads(Dst(c), 0, 0xFF);
  }

  /** The fields of an identifier as `_refresh_uds_identifier_texts`
      shows them: the priority `& 7` in decimal, the PGN `& 0xFFFF` as
      "0x" and four upper-case digits, source and destination `& 0xFF` as
      "0x" and two. Each text typed back reads as the masked field. */
  function PageTexts(c: CanId): (r: IdTexts)
    ensures ParseUintField(r.prio, 0, 7) == Value(c.prio % 8)
    ensures ParseUintField(r.pgn, 0, 0xFFFF) == Value(c.pgn % 0x1_0000)
    ensures ParseUintField(r.src, 0, 0xFF) == Value(c.src % 0x100)
    ensures ParseUintField(r.dst, 0, 0xFF) == Value(Dst(c))
  {
    Numerals.Pow16Values();
    DecimalTextReads(c.prio % 8, 0, 7);
    PaddedTextReads(c.pgn % 0x1_0000, 4, 0, 0xFFFF);
    PaddedTextReads(c.src % 0x100, 2, 0, 0xFF);
    PaddedTextReads(Dst(c), 2, 0, 0xFF);
    IdTexts(Numerals.PyFormat(10, c.prio % 8),
            "0x" + Numerals.PaddedHex(c.pgn % 0x1_0000, 4),
            "0x" + Numerals.PaddedHex(c.src % 0x100, 2),
            "0x" + Numerals.PaddedHex(Dst(c), 2))
  }

  /** "0x" and w padded upper-case digits typed into a field read back
      as the number when it is in range. */
  lemma PaddedTextReads(v: nat, w: nat, minimum: int, maximum: int)
    requires 0 < w && v < Numerals.Pow16(w) && minimum <= v <= maximum
    ensures ParseUintField("0x" + Numerals.PaddedHex(v, w), minimum, maximum) == Value(v)
  {
    var d := Numerals.PaddedHex(v, w);
    var s := "0x" + d;
    assert s[|s| - 1] == d[w - 1] && Numerals.IsDigit(d[w - 1], 16);
    StripNoop(s);
    HexBase(d);
    Numerals.PaddedHexValue(v, w);
    Numerals.ParsePrefixed(16, d);
    FieldReads(s, v, minimum, maximum);
  }

  /** Typing back the texts the page shows for a pair that fits the
      ranges reproduces the pair. */
  lemma ApplyPageTexts(ids: UdsIdentifiers.Pair)
    requires Fits(ids.tx) && Fits(ids.rx)
    ensures ApplyUdsIdentifiers(ids, false, false, PageTexts(ids.tx), PageTexts(ids.rx)) == Applied(ids, None)
  {
    PageSideReads(ids.tx, TxSide);
    PageSideReads(ids.rx, RxSide);
    BuildFields(ids.tx);
    BuildFields(ids.rx);
  }

  /** Reading one side's page texts gives its fields. */
  lemma PageSideReads(c: CanId, side: Side)
    requires Fits(c)
    ensures ReadSide(PageTexts(c), side) == Ok(Fields(c.prio, c.pgn, c.src, Dst(c)))
  {
    assert c.prio % 8 == c.prio && c.pgn % 0x1_0000 == c.pgn && c.src % 0x100 == c.src;
  }

  /** For fields within range the page's masks change nothing. */
  lemma PageTextsUnmasked(c: CanId)
    requires Fits(c)
    ensures Numerals.Pow16(2) == 0x100 && Numerals.Pow16(4) == 0x1_0000
    ensures PageTexts(c) == IdTexts(Numerals.PyFormat(10, c.prio), "0x" + Numerals.PaddedHex(c.pgn, 4),
                                    "0x" + Numerals.PaddedHex(c.src, 2), "0x" + Numerals.PaddedHex(Dst(c), 2))
  {
    Numerals.Pow16Values();
    assert c.prio % 8 == c.prio && c.pgn % 0x1_0000 == c.pgn && c.src % 0x100 == c.src;
  }

  /** An identifier cut to the page's masks: priority `& 7`, PGN
      `& 0xFFFF`, source `& 0xFF`. */
  function Masked(c: CanId): (m: CanId)
    ensures Fits(m)
  {
    CanId(c.prio % 8, c.pgn % 0x1_0000, c.src % 0x100)
  }

  /** Typing back the texts the page shows gives, for every pair, the
      pair cut to the page's masks. */
  lemma ApplyPageTextsMasked(ids: UdsIdentifiers.Pair)
    ensures ApplyUdsIdentifiers(ids, false, false, PageTexts(ids.tx), PageTexts(ids.rx))
         == Applied(UdsIdentifiers.Pair(Masked(ids.tx), Masked(ids.rx)), None)
  {
    PageSideReadsMasked(ids.tx, TxSide);
    PageSideReadsMasked(ids.rx, RxSide);
    BuildMasked(ids.tx);
    BuildMasked(ids.rx);
  }

  /** Reading one side's page texts gives its masked fields. */
  lemma PageSideReadsMasked(c: CanId, side: Side)
    ensures ReadSide(PageTexts(c), side) == Ok(Fields(c.prio % 8, c.pgn % 0x1_0000, c.src % 0x100, Dst(c)))
  {
  }

  /** Building from the masked fields gives the masked identifier. */
  lemma BuildMasked(c: CanId)
    ensures Build(Fields(c.prio % 8, c.pgn % 0x1_0000, c.src % 0x100, Dst(c))) == Masked(c)
  {
    var g := c.pgn % 0x1_0000;
    var q := c.pgn / 0x1_0000;
    assert c.pgn == 0x100 * (0x100 * q + g / 0x100) + g % 0x100;
    Bits.DivModUnique(c.pgn, 0x100, 0x100 * q + g / 0x100, g % 0x100);
    assert g == (g / 0x100) * 0x100 + Dst(c);
  }

  /** Rebuilding an identifier from its own fields gives it back. */
  lemma BuildFields(c: CanId)
    requires Fits(c)
    ensures Build(Fields(c.prio, c.pgn, c.src, Dst(c))) == c
  {
    var b := Build(Fields(c.prio, c.pgn, c.src, Dst(c)));
    assert b.pgn == (c.pgn / 0x100) * 0x100 + c.pgn % 0x100 == c.pgn;
  }
}

=== FILE: base_translator.dfy ===
/** Conversions between the textual number forms shown in the UI: text to
    integer by prefix ("0b", "0x", else decimal), and integer to `bin`,
    `hex` or `str` text. Failed conversions fall back to 0 (`to_int`) or
    to the unchanged text (`hex_to_base`). */
module BaseTranslator {
  import opened Common
  import opened Numerals

  /** The base whose format `to_base` prints: 2 and 16 as asked, anything
      else decimal. */
  function FormatBase(base: int): (b: nat)
    ensures ValidBase(b)
    ensures b == 2 <==> base == 2
    ensures b == 16 <==> base == 16
  {
    if base == 2 then 2 else if base == 16 then 16 else 10
  }

  /** `to_int`: a "0b" prefix reads binary, "0x" reads hexadecimal,
      anything else decimal; text Python rejects reads as 0. */
  function ToInt(text: string): (r: int)
    ensures PyInt(text, PrefixBase(text)).None? ==> r == 0
    ensures PyInt(text, PrefixBase(text)).Some? ==> r == PyInt(text, PrefixBase(text)).value
  {
    PyInt(text, PrefixBase(text)).GetOr(0)
  }

  /** The base `to_int` picks from the first two characters. */
  function PrefixBase(text: string): (b: nat)
    ensures ValidBase(b)
  {
    if StartsWith(text, "0b") then 2 else if StartsWith(text, "0x") then 16 else 10
  }

  /** `to_base` on an integer: `bin`, `hex` or `str`. */
  function ToBase(base: int, v: int): (r: string)
    ensures |r| > 0
    ensures r[0] == '-' <==> v < 0
  {
    PyFormat(FormatBase(base), v)
  }

  /** `to_base` on text: convert with `to_int` first. */
  function ToBaseText(base: int, text: string): (r: string)
    ensures |r| > 0
    ensures r[0] == '-' <==> ToInt(text) < 0
  {
    ToBase(base, ToInt(text))
  }

  /** `hex_to_base`: read the text as hexadecimal (with or without "0x",
      with an optional sign and surrounding whitespace) and print it in the
      base; text that is not hexadecimal comes back unchanged. */
  function HexToBase(base: int, text: string): (r: string)
    ensures PyInt(text, 16).None? ==> r == text
    ensures PyInt(text, 16).Some? ==> r == ToBase(base, PyInt(text, 16).value)
  {
    match PyInt(text, 16)
    case None => text
    case Some(v) => ToBase(base, v)
  }

  // ---------------------------------------------------------------- lemmas

  /** Converting text `to_base` has printed for a natural number gives the
      same text again. */
  lemma ToBaseTextStable(base: int, n: nat)
    ensures ToBaseText(base, ToBase(base, n)) == ToBase(base, n)
  {
    ToIntToBase(base, n);
  }

  /** Text without surrounding whitespace is parsed as it stands. */
  lemma ToIntUnstripped(t: string)
    requires |t| > 0 && !IsSpace(t[0]) && !IsSpace(t[|t| - 1])
    ensures ToInt(t) == ParseSigned(t, PrefixBase(t)).GetOr(0)
  {
    PyIntUnstripped(t, PrefixBase(t));
  }

  /** Hexadecimal, binary and decimal text of a natural number reads back. */
  lemma ToIntToBase(base: int, n: nat)
    ensures ToInt(ToBase(base, n)) == n
  {
    var b := FormatBase(base);
    var r := ToBase(base, n);
    assert r == Unsigned(b, n);
    assert PrefixBase(r) == b by {
      var d := FormatDigits(n, b);
      assert r == PrefixOf(b) + d;
      if b == 10 {
        assert r == d && IsDigit(r[0], 10);
        if |r| >= 2 {
          assert IsDigit(r[1], 10);
        }
        DecimalPrefix(r);
      } else if b == 2 {
        assert r[..2] == "0b";
      } else {
        assert r[..2] == "0x";
      }
    }
    ToIntUnstripped(r);
    ParseUnsigned(b, n);
  }

  /** Text whose second character is not a letter is read as decimal. */
  lemma DecimalPrefix(t: string)
    requires |t| >= 2 ==> t[1] != 'b' && t[1] != 'x'
    ensures PrefixBase(t) == 10
  {
    if |t| >= 2 {
      assert t[..2][1] == t[1];
    }
  }

  /** Decimal text reads back for every sign. */
  lemma ToIntToBaseDecimal(v: int)
    ensures ToInt(ToBase(10, v)) == v
  {
    if v >= 0 {
      ToIntToBase(10, v);
    } else {
      var m: nat := -v;
      var d := FormatDigits(m, 10);
      var r := ToBase(10, v);
      assert r == "-" + Unsigned(10, m) && Unsigned(10, m) == d;
      assert PrefixBase(r) == 10 by {
        assert r[1] == d[0] && IsDigit(d[0], 10);
        DecimalPrefix(r);
      }
      assert r[|r| - 1] == d[|d| - 1];
      ToIntUnstripped(r);
      ParseUnsigned(10, m);
      ParseNegated(10, Unsigned(10, m));
    }
  }

  /** A negative hexadecimal number does not survive: hex(-1) is "-0x1",
      which has no "0x" prefix, so it is read as decimal and rejected. */
  lemma NegativeHexLost()
    ensures ToBase(16, -1) == "-0x1"
    ensures ToInt(ToBase(16, -1)) == 0
  {
    assert FormatDigits(1, 16) == "1";
    assert Unsigned(16, 1) == "0x1";
    var r := ToBase(16, -1);
    assert r == "-0x1";
    PyIntUnstripped(r, 10);
    assert r[1..] == "0x1";
    assert !IsDigit('x', 10);
    assert ParseDigits("0x1", 10).None?;
  }

  /** A "0x" run of hexadecimal digits reads as their value. */
  lemma ToIntHex(d: string)
    requires |d| > 0 && AllDigits(d, 16)
    ensures ToInt("0x" + d) == DigitsValue(d, 16)
  {
    var t := "0x" + d;
    assert PrefixBase(t) == 16 by {
      assert t[..2] == "0x";
    }
    assert t[|t| - 1] == d[|d| - 1];
    DigitNotSpace(d[|d| - 1], 16);
    ToIntUnstripped(t);
    ParsePrefixed(16, d);
  }

  /** A "0b" run of binary digits reads as their value. */
  lemma ToIntBin(d: string)
    requires |d| > 0 && AllDigits(d, 2)
    ensures ToInt("0b" + d) == DigitsValue(d, 2)
  {
    var t := "0b" + d;
    assert PrefixBase(t) == 2 by {
      assert t[..2] == "0b";
    }
    assert t[|t| - 1] == d[|d| - 1];
    DigitNotSpace(d[|d| - 1], 2);
    ToIntUnstripped(t);
    ParsePrefixed(2, d);
  }

  /** A plain run of decimal digits reads as their value. */
  lemma ToIntDec(d: string)
    requires |d| > 0 && AllDigits(d, 10)
    ensures ToInt(d) == DigitsValue(d, 10)
  {
    assert IsDigit(d[0], 10) && IsDigit(d[|d| - 1], 10);
    if |d| >= 2 {
      assert IsDigit(d[1], 10);
    }
    DecimalPrefix(d);
    PyIntUnstripped(d, 10);
    ParseSignedDigits(d, 10);
  }

  /** Empty text reads as 0. */
  lemma ToIntEmpty()
    ensures ToInt("") == 0
  {
    assert Strip("") == "";
  }

  /** A bare "0x" or "0b" with no digits after it reads as 0. */
  lemma ToIntBarePrefix(base: nat)
    requires base == 2 || base == 16
    ensures ToInt(PrefixOf(base)) == 0
  {
    var t := PrefixOf(base);
    assert PrefixBase(t) == base by {
      assert t[..2] == t;
    }
    ToIntUnstripped(t);
    ParsePrefixed(base, "");
    assert t + "" == t;
  }

  /** Re-printing a hexadecimal text in another base equals printing its
      number there; for every integer, hex text reads back through
      `hex_to_base`. */
  lemma HexToBaseOfHex(base: int, v: int)
    ensures HexToBase(base, ToBase(16, v)) == ToBase(base, v)
  {
    PyFormatParse(16, v);
  }
}

=== FILE: bits.dfy ===
/** Python's `>>`, `&` and `|` on non-negative integers of any size, and the
    facts that turn shift-and-mask expressions into arithmetic. The
    identifier codec applies them to fields that are not masked when they
    are stored, so they must hold for every natural number, not just for
    29-bit ones. Every definition halves by the constant 2, which keeps the
    solver away from division by a variable. */
module Bits {

  function Pow2(k: nat): (r: nat)
    ensures r >= 1
  {
    if k == 0 then 1 else 2 * Pow2(k - 1)
  }

  /** a << k. */
  function Shl(a: nat, k: nat): nat {
    if k == 0 then a else 2 * Shl(a, k - 1)
  }

  /** a >> k. */
  function Shr(a: nat, k: nat): nat {
    if k == 0 then a else Shr(a / 2, k - 1)
  }

  /** The low k bits of a: a & ((1 << k) - 1), equivalently a % 2^k. */
  function Low(a: nat, k: nat): nat {
    if k == 0 then 0 else 2 * Low(a / 2, k - 1) + a % 2
  }

  /** a | b, bit by bit from the least significant end. */
  function Or(a: nat, b: nat): nat
    decreases a + b
  {
    if a == 0 then b
    else if b == 0 then a
    else 2 * Or(a / 2, b / 2) + (if a % 2 == 1 || b % 2 == 1 then 1 else 0)
  }

  /** a & b, bit by bit from the least significant end. */
  function And(a: nat, b: nat): nat
    decreases a + b
  {
    if a == 0 || b == 0 then 0
    else 2 * And(a / 2, b / 2) + (if a % 2 == 1 && b % 2 == 1 then 1 else 0)
  }

  // ------------------------------------------------------------ arithmetic

  lemma MulAtLeast(d: int, t: int)
    requires d > 0 && t >= 1
    ensures d * t >= d
  {
    assert d * t == d + d * (t - 1);
  }

  lemma MulLeq(c: nat, x: int, y: int)
    requires x <= y
    ensures c * x <= c * y
  {
    assert c * y - c * x == c * (y - x);
  }

  /** Division is unique: the quotient and remainder are determined. */
  lemma DivModUnique(a: int, d: int, x: int, y: int)
    requires d > 0 && 0 <= y < d && a == d * x + y
    ensures a / d == x && a % d == y
  {
    var q, r := a / d, a % d;
    assert d * (q - x) == y - r;
    assert d * (x - q) == r - y;
    if q - x >= 1 { MulAtLeast(d, q - x); }
    if x - q >= 1 { MulAtLeast(d, x - q); }
  }

  /** Dividing twice is dividing by the product. */
  lemma DivDiv(x: int, a: int, b: int)
    requires a > 0 && b > 0
    ensures x / a / b == x / (a * b)
  {
    var q1, r1 := x / a, x % a;
    var q2, r2 := q1 / b, q1 % b;
    MulLeq(a, r2, b - 1);
    assert a * q1 == a * b * q2 + a * r2;
    DivModUnique(x, a * b, q2, a * r2 + r1);
  }

  /** a << k is a * 2^k. */
  lemma {:induction false} ShlIsMul(a: nat, k: nat)
    ensures Shl(a, k) == a * Pow2(k)
  {
    if k > 0 {
      ShlIsMul(a, k - 1);
      assert a * Pow2(k) == 2 * (a * Pow2(k - 1));
    }
  }

  /** Halving a number shifted left by k > 0, plus a remainder. */
  lemma HalveSum(x: nat, k: nat, b: nat)
    requires k > 0
    ensures (Shl(x, k) + b) / 2 == Shl(x, k - 1) + b / 2
    ensures (Shl(x, k) + b) % 2 == b % 2
  {
    DivModUnique(Shl(x, k) + b, 2, Shl(x, k - 1) + b / 2, b % 2);
  }

  // ---------------------------------------------------------- shift and low

  /** The low k bits fit in k bits. */
  lemma {:induction false} LowBound(a: nat, k: nat)
    ensures Low(a, k) < Pow2(k)
  {
    if k > 0 {
      LowBound(a / 2, k - 1);
    }
  }

  /** Every number splits into its high part and its low k bits. */
  lemma {:induction false} Split(a: nat, k: nat)
    ensures a == Shl(Shr(a, k), k) + Low(a, k)
  {
    if k > 0 {
      Split(a / 2, k - 1);
      ShlStep(Shr(a, k), k);
    }
  }

  lemma ShlStep(a: nat, k: nat)
    requires k > 0
    ensures Shl(a, k) == 2 * Shl(a, k - 1)
  {
  }

  /** Shifting (x << k) + b right by k gives x when b fits below bit k. */
  lemma {:induction false} ShrOfSum(x: nat, k: nat, b: nat)
    requires b < Pow2(k)
    ensures Shr(Shl(x, k) + b, k) == x
  {
    if k > 0 {
      HalveSum(x, k, b);
      ShrOfSum(x, k - 1, b / 2);
    }
  }

  /** The low k bits of (x << k) + b are b when b fits below bit k. */
  lemma {:induction false} LowOfSum(x: nat, k: nat, b: nat)
    requires b < Pow2(k)
    ensures Low(Shl(x, k) + b, k) == b
  {
    if k > 0 {
      HalveSum(x, k, b);
      LowOfSum(x, k - 1, b / 2);
    }
  }

  /** The split of a number into high and low parts is unique. */
  lemma SplitUnique(a: nat, k: nat, x: nat, b: nat)
    requires b < Pow2(k) && a == Shl(x, k) + b
    ensures Shr(a, k) == x && Low(a, k) == b
  {
    ShrOfSum(x, k, b);
    LowOfSum(x, k, b);
  }

  /** Shifts compose. */
  lemma {:induction false} ShrShr(a: nat, i: nat, j: nat)
    ensures Shr(Shr(a, i), j) == Shr(a, i + j)
  {
    if i > 0 {
      ShrShr(a / 2, i - 1, j);
    }
  }

  /** Shifts left compose. */
  lemma {:induction false} ShlShl(a: nat, i: nat, j: nat)
    ensures Shl(Shl(a, i), j) == Shl(a, i + j)
  {
    if j > 0 {
      ShlShl(a, i, j - 1);
    }
  }

  /** Shifting right by k and keeping the low k bits are floor division
      and remainder by 2^k. */
  lemma ShrIsDiv(a: nat, k: nat)
    ensures Shr(a, k) == a / Pow2(k) && Low(a, k) == a % Pow2(k)
  {
    Split(a, k);
    ShlIsMul(Shr(a, k), k);
    LowBound(a, k);
    DivModUnique(a, Pow2(k), Shr(a, k), Low(a, k));
  }

  /** Shifting right by 8 and keeping the low byte are Python's `// 256`
      and `% 256`. */
  lemma ByteSplit(a: nat)
    ensures Shr(a, 8) == a / 256 && Low(a, 8) == a % 256
  {
    Powers();
    ShrIsDiv(a, 8);
  }

  /** A number below 2^k is its own low k bits. */
  lemma LowSmall(a: nat, k: nat)
    requires a < Pow2(k)
    ensures Low(a, k) == a
  {
    ShlZero(k);
    LowOfSum(0, k, a);
  }

  // ------------------------------------------------------------ and and or

  lemma {:induction false} LowZero(k: nat)
    ensures Low(0, k) == 0
  {
    if k > 0 {
      LowZero(k - 1);
    }
  }

  /** a & (2^k - 1) keeps the low k bits. */
  lemma {:induction false} AndLowMask(a: nat, k: nat)
    ensures And(a, Pow2(k) - 1) == Low(a, k)
  {
    if k > 0 && a > 0 {
      var m := Pow2(k) - 1;
      assert m % 2 == 1 && m / 2 == Pow2(k - 1) - 1;
      AndLowMask(a / 2, k - 1);
    } else if k > 0 {
      LowZero(k);
    }
  }

  /** (x << k) | b == (x << k) + b when b fits below bit k: the bits do not
      overlap. */
  lemma {:induction false} OrDisjoint(x: nat, k: nat, b: nat)
    requires b < Pow2(k)
    ensures Or(Shl(x, k), b) == Shl(x, k) + b
  {
    if x == 0 {
      ShlZero(k);
    } else if k > 0 && b > 0 {
      HalveSum(x, k, 0);
      ShlPositive(x, k);
      OrDisjoint(x, k - 1, b / 2);
    }
  }

  lemma {:induction false} ShlZero(k: nat)
    ensures Shl(0, k) == 0
  {
    if k > 0 {
      ShlZero(k - 1);
    }
  }

  lemma {:induction false} ShlPositive(x: nat, k: nat)
    requires x > 0
    ensures Shl(x, k) > 0
  {
    if k > 0 {
      ShlPositive(x, k - 1);
    }
  }

  /** a | b == b | a. */
  lemma {:induction false} OrComm(a: nat, b: nat)
    ensures Or(a, b) == Or(b, a)
    decreases a + b
  {
    if a != 0 && b != 0 {
      OrComm(a / 2, b / 2);
    }
  }

  /** An even operand contributes no low bit. */
  lemma OrEven(c: nat, d: nat)
    ensures Or(2 * c, 2 * d) == 2 * Or(c, d)
  {
  }

  /** (x << k) | (y << k) == (x | y) << k. */
  lemma {:induction false} OrShifted(x: nat, y: nat, k: nat)
    ensures Or(Shl(x, k), Shl(y, k)) == Shl(Or(x, y), k)
  {
    if k > 0 {
      OrEven(Shl(x, k - 1), Shl(y, k - 1));
      OrShifted(x, y, k - 1);
    }
  }

  /** An even mask contributes no low bit. */
  lemma AndEven(a: nat, c: nat)
    ensures And(a, 2 * c) == 2 * And(a / 2, c)
  {
    if a != 0 && c != 0 {
      assert (2 * c) / 2 == c && (2 * c) % 2 == 0;
      assert And(a, 2 * c) == 2 * And(a / 2, (2 * c) / 2);
    }
  }

  /** a & (m << k) == ((a >> k) & m) << k: a mask shifted left selects the
      same bits of a shifted right. */
  lemma {:induction false} AndShifted(a: nat, m: nat, k: nat)
    ensures And(a, Shl(m, k)) == Shl(And(Shr(a, k), m), k)
  {
    if k > 0 {
      AndEven(a, Shl(m, k - 1));
      AndShifted(a / 2, m, k - 1);
    }
  }

  /** Concrete powers used by the codec. */
  lemma Powers()
    ensures Pow2(8) == 0x100
    ensures Pow2(10) == 0x400
    ensures Pow2(16) == 0x1_0000
    ensures Pow2(18) == 0x4_0000
    ensures Pow2(26) == 0x400_0000
    ensures Pow2(29) == 0x2000_0000
  {
    assert Pow2(1) == 2;
    assert Pow2(2) == 4;
    assert Pow2(3) == 8;
    assert Pow2(4) == 16;
    assert Pow2(5) == 32;
    assert Pow2(6) == 64;
    assert Pow2(7) == 128;
    assert Pow2(8) == 256;
    assert Pow2(9) == 512;
    assert Pow2(10) == 1024;
    assert Pow2(11) == 2048;
    assert Pow2(12) == 4096;
    assert Pow2(13) == 8192;
    assert Pow2(14) == 16384;
    assert Pow2(15) == 32768;
    assert Pow2(16) == 65536;
    assert Pow2(17) == 131072;
    assert Pow2(18) == 262144;
    assert Pow2(19) == 524288;
    assert Pow2(20) == 1048576;
    assert Pow2(21) == 2097152;
    assert Pow2(22) == 4194304;
    assert Pow2(23) == 8388608;
    assert Pow2(24) == 16777216;
    assert Pow2(25) == 33554432;
    assert Pow2(26) == 67108864;
    assert Pow2(27) == 134217728;
    assert Pow2(28) == 268435456;
    assert Pow2(29) == 536870912;
  }

  /** a & 0xFF == a % 256. */
  lemma AndByte(a: nat)
    ensures And(a, 0xFF) == a % 256
  {
    Powers();
    AndLowMask(a, 8);
    ByteSplit(a);
  }
}

=== FILE: bootloader.dfy ===
/** The firmware-download state machine: one inbound frame on the ECU's
    response identifier moves the machine at most one step along the
    chain session -> seed -> key -> fingerprint -> erase -> request
    download -> transfer data -> transfer exit, emitting the next request.
    Commands (start, the source-address write and read, the resets, the
    status check) and the two timers (the source-address timeout and the
    consecutive-frame pacing) are separate events. The adapter's
    transmissions come back as the list of frames sent; the signals to the
    UI as a list of reports. */
module Bootloader {
  import opened Common
  import CanIdentifier
  import UdsIdentifiers
  import BaseTranslator
  import ByteCodec
  import Bits
  import DataIdentifiers
  import PidField
  import Sess = Session
  import Sec = SecurityAccess
  import Wr = WriteDataById
  import Rd = ReadDataById
  import Rc = RoutineControl
  import Dl = RequestDownload
  import Td = TransferData
  import Ex = RequestTransferExit
  import Er = EcuReset

  /** `BootloaderState`. TransferDataFc, Verification and Done are declared
      but no operation enters them. */
  datatype State =
    | Error | Ready
    | SetProgrammingSession | RequestSeed | SeedVerification | WriteFingerprint
    | EraseFirmware | RequestDownload | RequestDownloadConsecutive
    | TransferDataFf | TransferDataFc | TransferDataCf | RequestTransferExit
    | EcuUdsReset | EcuSoftwareReset | ReadFingerprint | Verification | Done
    | WriteCanSourceAddress | ReadCanSourceAddress

  /** What a status report says. */
  datatype Note =
    | NoFirmware | NotReady | SessionRequested
    | Busy | BadSourceAddress | SaWriteNotSent | SaWriteRequested(sa: int) | SaReadRequested
    | SaApplyTimeout | SaReadTimeout
    | UdsResetRequested | SoftwareResetRequested | StatusRequested
    | SessionSet | SessionFailed | SeedRequested | SeedReceived | BadSeedResponse
    | KeyRequested | AccessGranted | AccessDenied
    | FingerprintRequested | FingerprintWritten | FingerprintFailed
    | EraseRequested | Erased | EraseFailed
    | DownloadRequested | DownloadAccepted | BlockStarted(size: int) | FlowControlFailed
    | AllSent | ExitRequested | ExitDone | ExitFailed
    | SaChanged(sa: int) | SaChangeRejected | SaReadDone(sa: int) | SaReadRejected
    | ResetDone | ResetFailed | LoaderActive | LoaderInactive

  /** The colour a report is shown in: blue, green or red. */
  datatype Severity = Info | Success | Failure

  function SeverityOf(n: Note): Severity {
    match n
    case SessionRequested | SaWriteRequested(_) | SaReadRequested | UdsResetRequested
      | SoftwareResetRequested | StatusRequested | SeedRequested | KeyRequested
      | FingerprintRequested | EraseRequested | DownloadRequested | BlockStarted(_)
      | ExitRequested => Info
    case SessionSet | SeedReceived | AccessGranted | FingerprintWritten | Erased
      | DownloadAccepted | AllSent | ExitDone | SaChanged(_) | SaReadDone(_)
      | ResetDone | LoaderActive => Success
    case _ => Failure
  }

  /** The signals the machine raises towards the UI. */
  datatype Signal =
    | NewState(note: Note)
    | DataSent(total: int)
    | Finished(ok: bool)
    | SaApplied(sa: int, ok: bool)
    | SaRead(sa: int, ok: bool)

  /** The machine and the services it drives. `saTimer` is whether the
      single-shot source-address timeout is armed; `ids` is the process-wide
      identifier pair. */
  datatype Loader = Loader(
    state: State,
    firmware: Option<seq<Byte>>,
    order: ByteOrder,
    pendingSa: Option<Byte>,
    pendingRx: Option<int>,
    saTimer: bool,
    ids: UdsIdentifiers.Pair,
    session: Sess.SessionService,
    security: Sec.SecurityService,
    writer: Wr.WriteService,
    reader: Rd.ReadService,
    download: Dl.DownloadService,
    transfer: Td.Transfer)

  function Initial(ids: UdsIdentifiers.Pair): Loader {
    Loader(Ready, None, Big, None, None, false, ids, Sess.SessionService(false),
           Sec.Initial, Wr.Initial, Rd.Initial, Dl.Initial, Td.Initial)
  }

  /** The effect of one event: the machine after it, the frames handed to
      the adapter, the signals raised, and whether the handler stopped on
      an IndexError (a response shorter than the bytes it reads) after the
      changes shown. */
  datatype Outcome = Outcome(l: Loader, sent: seq<Request>, signals: seq<Signal>, raised: bool)

  /** A request handed to the adapter, with the service state its bytes
      are built from; `Wire` gives the frame. */
  datatype Request =
    | SessionRequest
    | SeedRequest
    | KeyRequest(security: Sec.SecurityService)
    | FingerprintWrite(writer: Wr.WriteService)
    | EraseRequest
    | DownloadFirst(download: Dl.DownloadService)
    | DownloadSecond(download: Dl.DownloadService)
    | TransferFrame(frame: seq<int>)
    | ExitRequest
    | AddressWrite(writer: Wr.WriteService, sa: Byte)
    | AddressRead(reader: Rd.ReadService)
    | StatusRead(reader: Rd.ReadService)
    | ResetRequest(kind: Er.ResetType)

  function Quiet(l: Loader): Outcome {
    Outcome(l, [], [], false)
  }

  function Raise(l: Loader): Outcome {
    Outcome(l, [], [], true)
  }

  /** The frame of a request sent under the identifier pair `ids`: the
      programming session, the seed request, the key high byte first, the
      fingerprint 0xAA, the erase routine, the two download frames, a
      transfer frame, the exit, the source-address write (one byte) and
      read, the status read of the fingerprint DID and a reset. */
  function Wire(ids: UdsIdentifiers.Pair, q: Request): (s: Sent)
    ensures s.id == CanIdentifier.Identifier(ids.tx)
  {
    var tx := CanIdentifier.Identifier(ids.tx);
    match q
    case SessionRequest => Sent(tx, Sess.Request(Sess.Programming))
    case SeedRequest => Sent(tx, Sec.RequestSeed())
    case KeyRequest(svc) => Sent(tx, Sec.RequestCheckKey(svc))
    case FingerprintWrite(w) => Wr.WriteFingerprint(w, 0xAA, ids)
    case EraseRequest => Sent(tx, Rc.RequestErase())
    case DownloadFirst(d) => Sent(tx, Dl.FirstFrame(d))
    case DownloadSecond(d) => Sent(tx, Dl.ConsecutiveFrame(d))
    case TransferFrame(f) => Sent(tx, f)
    case ExitRequest => Sent(tx, Ex.Request())
    case AddressWrite(w, sa) => Wr.WriteData(w, DataIdentifiers.CanSa, sa, Some(tx), ids).2.value
    case AddressRead(rd) => Sent(tx, Rd.ReadData(rd, DataIdentifiers.CanSa).1)
    case StatusRead(rd) => Sent(tx, Rd.ReadData(rd, DataIdentifiers.Fingerprint).1)
    case ResetRequest(t) => Sent(tx, Er.Request(t))
  }

  /** The address a source-address outcome reports: the pending one, else
      the current response source. */
  function ReportedSa(l: Loader): nat {
    match l.pendingSa
    case Some(sa) => sa
    case None => l.ids.rx.src
  }

  /** Back to Ready with nothing pending. */
  function Cleared(l: Loader): Loader {
    l.(state := Ready, pendingSa := None, pendingRx := None)
  }

  // ------------------------------------------------------- configuration

  /** `set_firmware`: keep the image; the download request declares its
      length (clamped to 80 KiB). */
  function SetFirmware(l: Loader, image: seq<Byte>): (r: Loader)
    ensures r.firmware == Some(image)
    ensures r.download == Dl.SetMemoryLength(l.download, |image|)
    ensures r.(firmware := l.firmware, download := l.download) == l
  {
    l.(firmware := Some(image), download := Dl.SetMemoryLength(l.download, |image|))
  }

  /** `set_transfer_byte_order`: normalise to "big" or "little" and hand
      the normalised name to the three services with multi-byte fields. */
  function SetTransferByteOrder(l: Loader, text: string): (r: Loader)
    ensures r.order == ParseByteOrder(text)
    ensures r.download.order == r.order && r.reader.order == r.order && r.writer.order == r.order
    ensures r.download.memoryLength == l.download.memoryLength
    ensures r.reader.pidRequest == l.reader.pidRequest && r.writer.savedPid == l.writer.savedPid
    ensures r.(order := l.order, download := l.download, reader := l.reader, writer := l.writer) == l
  {
    var o := ParseByteOrder(text);
    var name := OrderName(o);
    ParseOrderName(o);
    l.(order := o,
       download := Dl.SetByteOrder(l.download, name),
       reader := Rd.SetByteOrder(l.reader, name),
       writer := Wr.SetByteOrder(l.writer, name))
  }

  // ------------------------------------------------------------ commands

  /** `start`: only from Ready and only with firmware; hands the image to
      the transfer service and asks for the programming session. */
  function Start(l: Loader): (r: (bool, Outcome))
    ensures r.0 <==> l.state == Ready && l.firmware.Some?
    ensures r.0 ==> r.1.l == l.(state := SetProgrammingSession,
                                transfer := Td.SetFirmware(l.transfer, l.firmware.value))
    ensures r.0 ==> r.1.sent == [SessionRequest]
    ensures !r.0 ==> r.1.l == l && r.1.sent == []
    ensures |r.1.signals| == 1 && r.1.signals[0].NewState?
    ensures (SeverityOf(r.1.signals[0].note) == Info) == r.0
  {
    if l.state == Ready then
      match l.firmware
      case None => (false, Outcome(l, [], [NewState(NoFirmware)], false))
      case Some(image) =>
        var l1 := l.(state := SetProgrammingSession, transfer := Td.SetFirmware(l.transfer, image));
        (true, Outcome(l1, [SessionRequest], [NewState(SessionRequested)], false))
    else
      (false, Outcome(l, [], [NewState(NotReady)], false))
  }

  /** The response identifier while a new source address is pending: the
      current response identifier with its low byte replaced. */
  function PendingRx(rx: nat, sa: Byte): (p: nat)
    ensures p % 0x100 == sa && p / 0x100 == rx / 0x100
  {
    Bits.DivModUnique(rx / 0x100 * 0x100 + sa, 0x100, rx / 0x100, sa);
    rx / 0x100 * 0x100 + sa
  }

  /** `write_can_source_address`: from Ready and for a byte-sized address
      only, write the address DID (size 1) on the current request
      identifier, remember the address and the response identifier it
      implies, and arm the timeout. */
  function WriteSourceAddress(l: Loader, sa: int): (r: (bool, Outcome))
    ensures r.0 <==> l.state == Ready && 0 <= sa <= 0xFF
    ensures !r.0 ==> r.1.l == l && r.1.sent == []
    ensures r.0 ==> r.1.l.state == WriteCanSourceAddress && r.1.l.saTimer
    ensures r.0 ==> r.1.l.pendingSa == Some(sa)
    ensures r.0 ==> r.1.l.pendingRx == Some(PendingRx(CanIdentifier.Identifier(l.ids.rx), sa))
    ensures r.0 ==> r.1.l.writer.savedPid == DataIdentifiers.CanSa.pid
    ensures r.0 ==> r.1.sent == [AddressWrite(l.writer, sa)]
    ensures r.1.l.ids == l.ids
  {
    if l.state != Ready then
      (false, Outcome(l, [], [NewState(Busy)], false))
    else if sa < 0 || sa > 0xFF then
      (false, Outcome(l, [], [NewState(BadSourceAddress)], false))
    else
      var txId := CanIdentifier.Identifier(l.ids.tx);
      var rxId := CanIdentifier.Identifier(l.ids.rx);
      DataIdentifiers.CanSaAlias();
      var w := Wr.WriteData(l.writer, DataIdentifiers.CanSa, sa, Some(txId), l.ids);
      if !w.0 then
        (false, Outcome(l, [], [NewState(SaWriteNotSent)], false))
      else
        var l1 := l.(writer := w.1, pendingSa := Some(sa), pendingRx := Some(PendingRx(rxId, sa)),
                     state := WriteCanSourceAddress, saTimer := true);
        (true, Outcome(l1, [AddressWrite(l.writer, sa)], [NewState(SaWriteRequested(sa))], false))
  }

  /** `read_can_source_address`: from Ready only, read the address DID on
      the current request identifier and arm the timeout. */
  function ReadSourceAddress(l: Loader): (r: (bool, Outcome))
    ensures r.0 <==> l.state == Ready
    ensures !r.0 ==> r.1.l == l && r.1.sent == []
    ensures r.0 ==> r.1.l.state == ReadCanSourceAddress && r.1.l.saTimer
    ensures r.0 ==> r.1.l.reader.pidRequest == DataIdentifiers.CanSa.pid
    ensures r.0 ==> r.1.sent == [AddressRead(l.reader)]
    ensures r.1.l.ids == l.ids && r.1.l.pendingSa == l.pendingSa
  {
    if l.state != Ready then
      (false, Outcome(l, [], [NewState(Busy)], false))
    else
      var rd := Rd.ReadData(l.reader, DataIdentifiers.CanSa);
      var l1 := l.(reader := rd.0, state := ReadCanSourceAddress, saTimer := true);
      (true, Outcome(l1, [AddressRead(l.reader)], [NewState(SaReadRequested)], false))
  }

  /** `_on_source_address_timeout`, when the single-shot timer fires: in
      either source-address state report failure (the pending address, or
      the current response source) and return to Ready with nothing
      pending; in any other state do nothing. */
  function SaTimeout(l: Loader): (r: Outcome)
    ensures r.sent == [] && !r.raised && r.l.ids == l.ids && !r.l.saTimer
    ensures l.state == WriteCanSourceAddress || l.state == ReadCanSourceAddress ==>
      r.l == Cleared(l).(saTimer := false)
    ensures l.state == WriteCanSourceAddress ==>
      r.signals == [NewState(SaApplyTimeout), SaApplied(ReportedSa(l), false)]
    ensures l.state == ReadCanSourceAddress ==>
      r.signals == [NewState(SaReadTimeout), SaRead(l.ids.rx.src, false)]
    ensures l.state != WriteCanSourceAddress && l.state != ReadCanSourceAddress ==>
      r.l == l.(saTimer := false) && r.signals == []
  {
    var l0 := l.(saTimer := false);
    if l.state == WriteCanSourceAddress then
      var sa := ReportedSa(l);
      Outcome(Cleared(l0), [], [NewState(SaApplyTimeout), SaApplied(sa, false)], false)
    else if l.state == ReadCanSourceAddress then
      Outcome(Cleared(l0), [], [NewState(SaReadTimeout), SaRead(l.ids.rx.src, false)], false)
    else
      Quiet(l0)
  }

  /** `ecu_uds_reset`: from any state, ask for the reset into the boot
      loader. */
  function UdsReset(l: Loader): (r: Outcome)
    ensures r.l == l.(state := EcuUdsReset)
    ensures r.sent == [ResetRequest(Er.UdsSoftReset)]
  {
    Outcome(l.(state := EcuUdsReset), [ResetRequest(Er.UdsSoftReset)], [NewState(UdsResetRequested)], false)
  }

  /** `ecu_software_reset`: from any state, ask for the reset into the
      application. */
  function SoftwareReset(l: Loader): (r: Outcome)
    ensures r.l == l.(state := EcuSoftwareReset)
    ensures r.sent == [ResetRequest(Er.SoftReset)]
  {
    Outcome(l.(state := EcuSoftwareReset), [ResetRequest(Er.SoftReset)], [NewState(SoftwareResetRequested)], false)
  }

  /** `check_state`: from any state, read the fingerprint DID. */
  function CheckState(l: Loader): (r: Outcome)
    ensures r.l.state == ReadFingerprint
    ensures r.l.reader.pidRequest == DataIdentifiers.Fingerprint.pid
    ensures r.l == l.(state := ReadFingerprint, reader := r.l.reader)
    ensures r.sent == [StatusRead(l.reader)]
  {
    var rd := Rd.ReadData(l.reader, DataIdentifiers.Fingerprint);
    Outcome(l.(state := ReadFingerprint, reader := rd.0), [StatusRead(l.reader)], [NewState(StatusRequested)], false)
  }

  /** The pacing timer of the transfer service: one consecutive frame
      while pacing, in whatever state the machine is. */
  function PacingTick(l: Loader): (r: Outcome)
    ensures r.l == l.(transfer := r.l.transfer)
    ensures !l.transfer.pacing ==> r == Quiet(l)
    ensures |r.sent| <= 1
  {
    match Td.Tick(l.transfer)
    case Emitted(t, f) => Outcome(l.(transfer := t), [TransferFrame(f)], [DataSent(t.totalSent)], false)
    case Raised(t) => Raise(l.(transfer := t))
    case Silent(t) => Quiet(l.(transfer := t))
  }

  // ------------------------------------------------------ inbound frames

  /** Whether a frame's identifier is the one the machine listens to: the
      response identifier, or, while a new source address is pending, the
      response identifier that address implies. */
  predicate Listens(l: Loader, id: int) {
    id == CanIdentifier.Identifier(l.ids.rx) ||
    (l.state == WriteCanSourceAddress && l.pendingRx == Some(id))
  }

  /** The response bytes a state's handler reads before it can decide;
      a shorter response raises IndexError. In ReadCanSourceAddress an
      accepted response is also read up to its length byte, and in
      RequestSeed an accepted response up to byte 4. */
  function MinLength(s: State): nat {
    match s
    case SetProgrammingSession | RequestDownloadConsecutive | RequestTransferExit => 2
    case RequestSeed | SeedVerification | TransferDataFf | TransferDataCf
      | EcuUdsReset | EcuSoftwareReset => 3
    case WriteFingerprint | WriteCanSourceAddress | ReadCanSourceAddress | ReadFingerprint => 4
    case EraseFirmware => 5
    case RequestDownload => 1
    case _ => 0
  }

  /** The states from which a frame can lead to Error. */
  predicate MayFail(s: State) {
    s == Error || s == TransferDataFf || s == TransferDataCf || s == RequestTransferExit
  }

  /** `on_new_message`: the identifier text is read with `to_int`; frames
      on other identifiers change nothing. */
  function Step(l: Loader, idText: string, data: Frame): (r: Outcome)
    ensures !Listens(l, BaseTranslator.ToInt(idText)) ==> r == Quiet(l)
    ensures l.state == Error ==> r == Quiet(l)
    ensures r.l.state == Error ==>
      MayFail(l.state)
    ensures |r.sent| <= 1
  {
    if !Listens(l, BaseTranslator.ToInt(idText)) then Quiet(l)
    else Dispatch(l, data)
  }

  /** The handler of the current state. */
  function Dispatch(l: Loader, data: Frame): (r: Outcome)
    ensures l.state == Error ==> r == Quiet(l)
    ensures r.l.state == Error ==>
      MayFail(l.state)
    ensures |r.sent| <= 1
  {
    match l.state
    case SetProgrammingSession => OnSession(l, data)
    case RequestSeed => OnSeed(l, data)
    case SeedVerification => OnKey(l, data)
    case WriteFingerprint => OnFingerprint(l, data)
    case EraseFirmware => OnErase(l, data)
    case RequestDownload => OnDownloadFc(l, data)
    case RequestDownloadConsecutive => OnDownloadAnswer(l, data)
    case TransferDataFf => OnTransferFc(l, data)
    case TransferDataCf => OnTransferCf(l, data)
    case RequestTransferExit => OnExit(l, data)
    case WriteCanSourceAddress => OnWriteSa(l, data)
    case ReadCanSourceAddress => OnReadSa(l, data)
    case EcuUdsReset => OnReset(l, data, Er.UdsSoftReset)
    case EcuSoftwareReset => OnReset(l, data, Er.SoftReset)
    case ReadFingerprint => OnStatus(l, data)
    case _ => Quiet(l)
  }

  function OnSession(l: Loader, data: Frame): (r: Outcome)
    requires l.state == SetProgrammingSession
    ensures r.l.state == (if |data| >= 2 && data[1] == 0x50 then RequestSeed else l.state)
    ensures |r.sent| <= 1
  {
    if |data| < 2 then Raise(l)
    else
      var v := Sess.VerifyAnswer(l.session, data);
      var l1 := l.(session := v.1);
      if v.0 then
        Outcome(l1.(state := RequestSeed), [SeedRequest],
                [NewState(SessionSet), NewState(SeedRequested)], false)
      else Outcome(l1, [], [NewState(SessionFailed)], false)
  }

  function OnSeed(l: Loader, data: Frame): (r: Outcome)
    requires l.state == RequestSeed
    ensures r.l.state == (if |data| >= 5 && Sec.SeedAccepted(data) then SeedVerification else l.state)
    ensures |r.sent| <= 1
  {
    if |data| < 3 || (Sec.SeedAccepted(data) && |data| < 5) then Raise(l)
    else
      var v := Sec.VerifySeed(l.security, data);
      var l1 := l.(security := v.1);
      if v.0 then
        Outcome(l1.(state := SeedVerification), [KeyRequest(v.1)],
                [NewState(SeedReceived), NewState(KeyRequested)], false)
      else Outcome(l1, [], [NewState(BadSeedResponse)], false)
  }

  /** After access is granted the fingerprint 0xAA is written. */
  function OnKey(l: Loader, data: Frame): (r: Outcome)
    requires l.state == SeedVerification
    ensures r.l.state == (if |data| >= 3 && data[1] == 0x67 && data[2] == 0x02 then WriteFingerprint else l.state)
    ensures |r.sent| <= 1
  {
    if |data| < 3 then Raise(l)
    else
      var v := Sec.VerifyCheckKey(l.security, data);
      var l1 := l.(security := v.1);
      if v.0 then
        Outcome(l1.(state := WriteFingerprint), [FingerprintWrite(l.writer)],
                [NewState(AccessGranted), NewState(FingerprintRequested)], false)
      else Outcome(l1, [], [NewState(AccessDenied)], false)
  }

  function OnFingerprint(l: Loader, data: Frame): (r: Outcome)
    requires l.state == WriteFingerprint
    ensures r.l.state == (if |data| >= 4 && Wr.VerifyFingerprint(l.writer, data) then EraseFirmware else l.state)
    ensures |r.sent| <= 1
  {
    if |data| < 4 then Raise(l)
    else if Wr.VerifyFingerprint(l.writer, data) then
      Outcome(l.(state := EraseFirmware), [EraseRequest],
              [NewState(FingerprintWritten), NewState(EraseRequested)], false)
    else Outcome(l, [], [NewState(FingerprintFailed)], false)
  }

  function OnErase(l: Loader, data: Frame): (r: Outcome)
    requires l.state == EraseFirmware
    ensures r.l.state == (if |data| >= 5 && Rc.VerifyErase(data) then RequestDownload else l.state)
    ensures |r.sent| <= 1
  {
    if |data| < 5 then Raise(l)
    else if Rc.VerifyErase(data) then
      Outcome(l.(state := RequestDownload), [DownloadFirst(l.download)],
              [NewState(Erased), NewState(DownloadRequested)], false)
    else Outcome(l, [], [NewState(EraseFailed)], false)
  }

  /** The flow control for the two-frame download request; anything else
      is ignored without a report. */
  function OnDownloadFc(l: Loader, data: Frame): (r: Outcome)
    requires l.state == RequestDownload
    ensures r.l.state == (if |data| >= 1 && 0x30 <= data[0] <= 0x3F then RequestDownloadConsecutive else l.state)
    ensures |r.sent| <= 1
  {
    if |data| < 1 then Raise(l)
    else if Dl.VerifyFlowControl(data) then
      Outcome(l.(state := RequestDownloadConsecutive), [DownloadSecond(l.download)], [], false)
    else Quiet(l)
  }

  function OnDownloadAnswer(l: Loader, data: Frame): (r: Outcome)
    requires l.state == RequestDownloadConsecutive
    ensures r.l.state == (if |data| >= 2 && data[1] == 0x74 then TransferDataFf else l.state)
    ensures |r.sent| <= 1
  {
    if |data| < 2 then Raise(l)
    else if Dl.VerifyRequestDownload(data) then NextBlock(l, [NewState(DownloadAccepted)])
    else Quiet(l)
  }

  /** Enter TransferDataFf and send the next block's first frame, after
      the signals `before`. The first frame reports the running total and
      the block's data length. */
  function NextBlock(l: Loader, before: seq<Signal>): (r: Outcome)
    ensures r.l == l.(state := TransferDataFf, transfer := Td.SendFirstFrame(l.transfer).0.t)
    ensures |r.sent| <= 1
    ensures Td.SendFirstFrame(l.transfer).0.Emitted? ==> r.sent == [TransferFrame(Td.SendFirstFrame(l.transfer).0.frame)]
    ensures r.raised <==> Td.SendFirstFrame(l.transfer).0.Raised?
  {
    var l1 := l.(state := TransferDataFf);
    var first := Td.SendFirstFrame(l.transfer);
    match first.0
    case Emitted(t, f) =>
      Outcome(l1.(transfer := t), [TransferFrame(f)], before + [DataSent(t.totalSent), NewState(BlockStarted(first.1))], false)
    case Raised(t) => Outcome(l1.(transfer := t), [], before, true)
    case Silent(t) =>
      Outcome(l1.(transfer := t), [], before + [DataSent(t.totalSent), NewState(BlockStarted(first.1))], false)
  }

  /** The flow control after a first frame: start the consecutive frames,
      or fail for good. */
  function OnTransferFc(l: Loader, data: Frame): (r: Outcome)
    requires l.state == TransferDataFf
    ensures |data| >= 3 ==> r.l.state == (if 0x30 <= data[0] <= 0x3F then TransferDataCf else Error)
    ensures |data| < 3 ==> r == Raise(l)
    ensures r.sent == []
  {
    if |data| < 3 then Raise(l)
    else
      var v := Td.VerifyFlowControl(l.transfer, data);
      if v.0 then Quiet(l.(state := TransferDataCf, transfer := Td.SendConsecutiveFrames(v.1)))
      else Outcome(l.(state := Error), [], [NewState(FlowControlFailed)], false)
  }

  /** After consecutive frames: when everything is sent, ask to exit the
      transfer (the frame itself is not read); when the block is done, a
      matching block acknowledgement starts the next block and anything
      else is ignored; in the middle of a block, a flow control resumes
      the consecutive frames and anything else fails for good. */
  function OnTransferCf(l: Loader, data: Frame): (r: Outcome)
    requires l.state == TransferDataCf
    ensures Td.DataTransferred(l.transfer) ==>
      r.l == l.(state := RequestTransferExit) && r.sent == [ExitRequest]
    ensures !Td.DataTransferred(l.transfer) && |data| < 3 ==> r == Raise(l)
    ensures !Td.DataTransferred(l.transfer) && |data| >= 3 && Td.BlockTransferred(l.transfer) ==>
      if data[1] == 0x76 && data[2] == l.transfer.blockSeq then r.l.state == TransferDataFf
      else r == Quiet(l)
    ensures !Td.DataTransferred(l.transfer) && |data| >= 3 && !Td.BlockTransferred(l.transfer) ==>
      r.sent == [] &&
      r.l.state == (if 0x30 <= data[0] <= 0x3F then TransferDataCf else Error)
    ensures |r.sent| <= 1
  {
    if Td.DataTransferred(l.transfer) then
      Outcome(l.(state := RequestTransferExit), [ExitRequest],
              [NewState(AllSent), NewState(ExitRequested)], false)
    else if |data| < 3 then Raise(l)
    else if Td.BlockTransferred(l.transfer) then
      if Td.VerifyAfterSentBlock(l.transfer, data) then NextBlock(l, [])
      else Quiet(l)
    else
      var v := Td.VerifyFlowControl(l.transfer, data);
      if v.0 then Quiet(l.(transfer := Td.SendConsecutiveFrames(v.1)))
      else Outcome(l.(state := Error), [], [NewState(FlowControlFailed)], false)
  }

  function OnExit(l: Loader, data: Frame): (r: Outcome)
    requires l.state == RequestTransferExit
    ensures |data| >= 2 ==> r.l == l.(state := if data[1] == 0x77 then Ready else Error)
    ensures |data| >= 2 && data[1] == 0x77 ==> Finished(true) in r.signals
    ensures r.sent == []
  {
    if |data| < 2 then Raise(l)
    else if Ex.Verify(data) then
      Outcome(l.(state := Ready), [], [NewState(ExitDone), Finished(true)], false)
    else Outcome(l.(state := Error), [], [NewState(ExitFailed)], false)
  }

  /** The answer to the source-address write. The timer is stopped first;
      the address taken over (only on a positive answer) is the pending
      one, else the current response source. */
  function OnWriteSa(l: Loader, data: Frame): (r: Outcome)
    requires l.state == WriteCanSourceAddress
    ensures !r.l.saTimer && r.sent == []
    ensures |data| < 4 ==> r == Raise(l.(saTimer := false))
    ensures |data| >= 4 ==> r.l.state == Ready && r.l.pendingSa.None? && r.l.pendingRx.None?
    ensures |data| >= 4 ==>
      var sa := ReportedSa(l);
      r.l.ids == (if Wr.VerifyWriteData(l.writer, data) then UdsIdentifiers.SetSrc(l.ids, sa) else l.ids) &&
      SaApplied(sa, Wr.VerifyWriteData(l.writer, data)) in r.signals
  {
    var l1 := l.(saTimer := false);
    var sa := ReportedSa(l);
    if |data| < 4 then Raise(l1)
    else if Wr.VerifyWriteData(l.writer, data) then
      Outcome(Cleared(l1).(ids := UdsIdentifiers.SetSrc(l.ids, sa)), [],
              [NewState(SaChanged(sa)), SaApplied(sa, true)], false)
    else
      Outcome(Cleared(l1), [], [NewState(SaChangeRejected), SaApplied(sa, false)], false)
  }

  /** The value `parse_data_field(data) & 0xFF`. */
  function LowDataByte(data: Frame): (v: Byte)
    requires |data| >= 1 && (data[0] > 3 ==> |data| > data[0])
    ensures data[0] <= 3 ==> v == 0
    ensures data[0] > 3 ==> v == data[4]
  {
    if data[0] <= 3 then 0
    else
      LowByte(data[4..data[0] + 1]);
      ByteCodec.LeValue(data[4..data[0] + 1]) % 0x100
  }

  /** The answer to the source-address read. The timer is stopped first;
      an accepted answer is read up to its length byte. */
  function OnReadSa(l: Loader, data: Frame): (r: Outcome)
    requires l.state == ReadCanSourceAddress
    ensures !r.l.saTimer && r.sent == [] && r.l.ids == l.ids
    ensures !r.raised ==> r.l == Cleared(l).(saTimer := false)
    ensures r.raised ==> r.l == l.(saTimer := false)
    ensures r.raised <==> |data| < 4 || (Rd.VerifyReadData(l.reader, data) && data[0] > 3 && |data| <= data[0])
    ensures !r.raised && Rd.VerifyReadData(l.reader, data) ==>
      SaRead(LowDataByte(data), true) in r.signals
    ensures !r.raised && !Rd.VerifyReadData(l.reader, data) ==>
      SaRead(l.ids.rx.src, false) in r.signals
  {
    var l1 := l.(saTimer := false);
    if |data| < 4 then Raise(l1)
    else if Rd.VerifyReadData(l.reader, data) then
      if data[0] > 3 && |data| <= data[0] then Raise(l1)
      else
        var sa := LowDataByte(data);
        Outcome(Cleared(l1), [], [NewState(SaReadDone(sa)), SaRead(sa, true)], false)
    else
      Outcome(Cleared(l1), [], [NewState(SaReadRejected), SaRead(l.ids.rx.src, false)], false)
  }

  /** The answer to either reset: back to Ready whatever it says. */
  function OnReset(l: Loader, data: Frame, t: Er.ResetType): (r: Outcome)
    requires l.state == EcuUdsReset || l.state == EcuSoftwareReset
    ensures r.sent == []
    ensures |data| < 3 ==> r == Raise(l)
    ensures |data| >= 3 ==> r.l == l.(state := Ready)
    ensures |data| >= 3 ==>
      r.signals == [NewState(if data[1] == 0x51 && data[2] == Er.Code(t) then ResetDone else ResetFailed)]
  {
    if |data| < 3 then Raise(l)
    else if Er.VerifyReset(t, data) then Outcome(l.(state := Ready), [], [NewState(ResetDone)], false)
    else Outcome(l.(state := Ready), [], [NewState(ResetFailed)], false)
  }

  /** The answer to the status check: back to Ready, reporting whether the
      boot loader answered for the fingerprint. */
  function OnStatus(l: Loader, data: Frame): (r: Outcome)
    requires l.state == ReadFingerprint
    ensures r.sent == []
    ensures |data| < 4 ==> r == Raise(l)
    ensures |data| >= 4 ==> r.l == l.(state := Ready)
    ensures |data| >= 4 ==>
      r.signals == [NewState(if Rd.VerifyReadData(l.reader, data) then LoaderActive else LoaderInactive)]
  {
    if |data| < 4 then Raise(l)
    else if Rd.VerifyReadData(l.reader, data) then Outcome(l.(state := Ready), [], [NewState(LoaderActive)], false)
    else Outcome(l.(state := Ready), [], [NewState(LoaderInactive)], false)
  }

  // --------------------------------------------------------------- lemmas

  /** The programming chain: the state each positive answer leads to. */
  function Next(s: State): State {
    match s
    case SetProgrammingSession => RequestSeed
    case RequestSeed => SeedVerification
    case SeedVerification => WriteFingerprint
    case WriteFingerprint => EraseFirmware
    case EraseFirmware => RequestDownload
    case RequestDownload => RequestDownloadConsecutive
    case RequestDownloadConsecutive => TransferDataFf
    case TransferDataFf => TransferDataCf
    case _ => s
  }

  /** The states of the chain that wait for a single positive answer. */
  predicate InChain(s: State) {
    match s
    case SetProgrammingSession | RequestSeed | SeedVerification | WriteFingerprint
      | EraseFirmware | RequestDownload | RequestDownloadConsecutive | TransferDataFf => true
    case _ => false
  }

  /** The answer each chain state waits for, read off the wire: the
      positive response SID (request SID + 0x40) with the echoed
      sub-function, DID or routine, or a flow control frame. */
  predicate Positive(l: Loader, data: Frame)
    requires |data| >= MinLength(l.state)
  {
    match l.state
    case SetProgrammingSession => data[1] == 0x50
    case RequestSeed => data[1] == 0x67 && data[2] == 0x01
    case SeedVerification => data[1] == 0x67 && data[2] == 0x02
    case WriteFingerprint => data[1] == 0x6E && (data[2], data[3]) == PidField.PidToBytes(l.writer.order, 0x1500)
    case EraseFirmware => data[1] == 0x71 && data[2] == 0x01 && data[3] == 0xFF && data[4] == 0x00
    case RequestDownload => 0x30 <= data[0] <= 0x3F
    case RequestDownloadConsecutive => data[1] == 0x74
    case TransferDataFf => 0x30 <= data[0] <= 0x3F
    case _ => false
  }

  /** What a chain state does with a response it can read: one step on
      its positive answer, sending the next request (the transfer states
      send through the transfer service); on any other answer it stays put
      and sends nothing, except that a failed flow control after a first
      frame is an error. */
  predicate ChainMove(l: Loader, data: Frame, r: Outcome)
    requires |data| >= MinLength(l.state)
  {
    (Positive(l, data) ==> r.l.state == Next(l.state)) &&
    (!Positive(l, data) ==>
      r.l.state == (if l.state == TransferDataFf then Error else l.state) && r.sent == []) &&
    (Positive(l, data) && l.state != RequestDownloadConsecutive && l.state != TransferDataFf ==>
      |r.sent| == 1 && !r.raised)
  }

  lemma SessionMoves(l: Loader, data: Frame)
    requires l.state == SetProgrammingSession && |data| >= 2
    ensures ChainMove(l, data, OnSession(l, data))
  {
  }

  lemma SeedMoves(l: Loader, data: Frame)
    requires l.state == RequestSeed && |data| >= 5
    ensures ChainMove(l, data, OnSeed(l, data))
  {
  }

  lemma KeyMoves(l: Loader, data: Frame)
    requires l.state == SeedVerification && |data| >= 3
    ensures ChainMove(l, data, OnKey(l, data))
  {
  }

  lemma FingerprintMoves(l: Loader, data: Frame)
    requires l.state == WriteFingerprint && |data| >= 4
    ensures ChainMove(l, data, OnFingerprint(l, data))
  {
  }

  lemma EraseMoves(l: Loader, data: Frame)
    requires l.state == EraseFirmware && |data| >= 5
    ensures ChainMove(l, data, OnErase(l, data))
  {
  }

  lemma DownloadFcMoves(l: Loader, data: Frame)
    requires l.state == RequestDownload && |data| >= 1
    ensures ChainMove(l, data, OnDownloadFc(l, data))
  {
  }

  lemma DownloadAnswerMoves(l: Loader, data: Frame)
    requires l.state == RequestDownloadConsecutive && |data| >= 2
    ensures ChainMove(l, data, OnDownloadAnswer(l, data))
  {
  }

  lemma TransferFcMoves(l: Loader, data: Frame)
    requires l.state == TransferDataFf && |data| >= 3
    ensures ChainMove(l, data, OnTransferFc(l, data))
  {
  }

  /** Each chain state moves exactly one step on its positive answer. */
  lemma ChainStep(l: Loader, idText: string, data: Frame)
    requires InChain(l.state) && Listens(l, BaseTranslator.ToInt(idText))
    requires |data| >= MinLength(l.state) && (l.state == RequestSeed ==> |data| >= 5)
    ensures ChainMove(l, data, Step(l, idText, data))
  {
    if l.state == SetProgrammingSession { SessionMoves(l, data); }
    else if l.state == RequestSeed { SeedMoves(l, data); }
    else if l.state == SeedVerification { KeyMoves(l, data); }
    else if l.state == WriteFingerprint { FingerprintMoves(l, data); }
    else if l.state == EraseFirmware { EraseMoves(l, data); }
    else if l.state == RequestDownload { DownloadFcMoves(l, data); }
    else if l.state == RequestDownloadConsecutive { DownloadAnswerMoves(l, data); }
    else { TransferFcMoves(l, data); }
  }

  /** Error is left only by the reset and status commands: no frame moves
      the machine out of it. */
  lemma ErrorIsSticky(l: Loader, idText: string, data: Frame)
    requires l.state == Error
    ensures Step(l, idText, data) == Quiet(l)
  {
  }

  /** Nor does any other command or timer. */
  lemma ErrorIgnoresCommands(l: Loader, sa: int, image: seq<Byte>, text: string)
    requires l.state == Error
    ensures !Start(l).0 && Start(l).1.l == l
    ensures !WriteSourceAddress(l, sa).0 && WriteSourceAddress(l, sa).1.l == l
    ensures !ReadSourceAddress(l).0 && ReadSourceAddress(l).1.l == l
    ensures SaTimeout(l).l.state == Error && PacingTick(l).l.state == Error
    ensures SetFirmware(l, image).state == Error && SetTransferByteOrder(l, text).state == Error
  {
  }

  /** The handler stopped on an IndexError before changing state or
      sending anything. */
  predicate Early(l: Loader, r: Outcome) {
    r.raised && r.l.state == l.state && r.sent == []
  }

  lemma OnSessionShort(l: Loader, data: Frame)
    requires l.state == SetProgrammingSession && |data| < MinLength(l.state)
    ensures Early(l, OnSession(l, data))
  {
  }

  lemma OnSeedShort(l: Loader, data: Frame)
    requires l.state == RequestSeed && |data| < MinLength(l.state)
    ensures Early(l, OnSeed(l, data))
  {
  }

  lemma OnKeyShort(l: Loader, data: Frame)
    requires l.state == SeedVerification && |data| < MinLength(l.state)
    ensures Early(l, OnKey(l, data))
  {
  }

  lemma OnFingerprintShort(l: Loader, data: Frame)
    requires l.state == WriteFingerprint && |data| < MinLength(l.state)
    ensures Early(l, OnFingerprint(l, data))
  {
  }

  lemma OnEraseShort(l: Loader, data: Frame)
    requires l.state == EraseFirmware && |data| < MinLength(l.state)
    ensures Early(l, OnErase(l, data))
  {
  }

  lemma OnDownloadFcShort(l: Loader, data: Frame)
    requires l.state == RequestDownload && |data| < MinLength(l.state)
    ensures Early(l, OnDownloadFc(l, data))
  {
  }

  lemma OnDownloadAnswerShort(l: Loader, data: Frame)
    requires l.state == RequestDownloadConsecutive && |data| < MinLength(l.state)
    ensures Early(l, OnDownloadAnswer(l, data))
  {
  }

  lemma OnTransferFcShort(l: Loader, data: Frame)
    requires l.state == TransferDataFf && |data| < MinLength(l.state)
    ensures Early(l, OnTransferFc(l, data))
  {
  }

  lemma OnTransferCfShort(l: Loader, data: Frame)
    requires l.state == TransferDataCf && |data| < MinLength(l.state) && !Td.DataTransferred(l.transfer)
    ensures Early(l, OnTransferCf(l, data))
  {
  }

  lemma OnExitShort(l: Loader, data: Frame)
    requires l.state == RequestTransferExit && |data| < MinLength(l.state)
    ensures Early(l, OnExit(l, data))
  {
  }

  lemma OnWriteSaShort(l: Loader, data: Frame)
    requires l.state == WriteCanSourceAddress && |data| < MinLength(l.state)
    ensures Early(l, OnWriteSa(l, data))
  {
  }

  lemma OnReadSaShort(l: Loader, data: Frame)
    requires l.state == ReadCanSourceAddress && |data| < MinLength(l.state)
    ensures Early(l, OnReadSa(l, data))
  {
  }

  lemma OnResetUdsShort(l: Loader, data: Frame)
    requires l.state == EcuUdsReset && |data| < MinLength(l.state)
    ensures Early(l, OnReset(l, data, Er.UdsSoftReset))
  {
  }

  lemma OnResetSoftShort(l: Loader, data: Frame)
    requires l.state == EcuSoftwareReset && |data| < MinLength(l.state)
    ensures Early(l, OnReset(l, data, Er.SoftReset))
  {
  }

  lemma OnStatusShort(l: Loader, data: Frame)
    requires l.state == ReadFingerprint && |data| < MinLength(l.state)
    ensures Early(l, OnStatus(l, data))
  {
  }

  /** A response too short for the bytes its handler reads raises before
      the state changes and sends nothing. */
  lemma ShortResponseRaises(l: Loader, idText: string, data: Frame)
    requires Listens(l, BaseTranslator.ToInt(idText)) && |data| < MinLength(l.state)
    requires l.state == TransferDataCf ==> !Td.DataTransferred(l.transfer)
    ensures Early(l, Step(l, idText, data))
  {
    DispatchShort(l, data);
  }

  lemma DispatchShort(l: Loader, data: Frame)
    requires |data| < MinLength(l.state)
    requires l.state == TransferDataCf ==> !Td.DataTransferred(l.transfer)
    ensures Early(l, Dispatch(l, data))
  {
    match l.state
    case SetProgrammingSession => OnSessionShort(l, data);
    case RequestSeed => OnSeedShort(l, data);
    case SeedVerification => OnKeyShort(l, data);
    case WriteFingerprint => OnFingerprintShort(l, data);
    case EraseFirmware => OnEraseShort(l, data);
    case RequestDownload => OnDownloadFcShort(l, data);
    case RequestDownloadConsecutive => OnDownloadAnswerShort(l, data);
    case TransferDataFf => OnTransferFcShort(l, data);
    case TransferDataCf => OnTransferCfShort(l, data);
    case RequestTransferExit => OnExitShort(l, data);
    case WriteCanSourceAddress => OnWriteSaShort(l, data);
    case ReadCanSourceAddress => OnReadSaShort(l, data);
    case EcuUdsReset => OnResetUdsShort(l, data);
    case EcuSoftwareReset => OnResetSoftShort(l, data);
    case ReadFingerprint => OnStatusShort(l, data);
  }

  /** The states of a programming run, entered by `start`. */
  predicate Programming(s: State) {
    InChain(s) || s == TransferDataCf || s == RequestTransferExit
  }

  /** What every reachable machine satisfies: a programming run has its
      image in the transfer service, a pending source-address write knows
      the address and the identifier it implies, and the three declared
      but unused states are never entered. */
  predicate Valid(l: Loader) {
    (Programming(l.state) ==> l.transfer.content.Some?) &&
    (l.state == WriteCanSourceAddress ==> l.pendingSa.Some? && l.pendingRx.Some?) &&
    l.state != TransferDataFc && l.state != Verification && l.state != Done
  }

  /** A second `start` with the same image after a finished run: the
      transfer counters are not reset, so the run begins with the whole
      image already counted as sent, the content index at its end and the
      block counter where the last run left it. */
  lemma RestartKeepsCounters(l: Loader, image: seq<Byte>)
    requires l.state == Ready && l.firmware == Some(image)
    requires l.transfer.content == Some(image) && Td.DataTransferred(l.transfer)
    requires l.transfer.planned == |image| + 2 * Td.CeilDiv(|image|, Td.FfMaxDataLength)
    ensures var r := Start(l);
      var u := r.1.l.transfer;
      r.0 && r.1.l.state == SetProgrammingSession &&
      Td.DataTransferred(u) && u.index == l.transfer.index && u.blockSeq == l.transfer.blockSeq &&
      Td.SendFirstFrame(u).1 == -2
  {
    Td.SecondRunStartsSpent(l.transfer, image);
  }

  lemma InitialValid(ids: UdsIdentifiers.Pair)
    ensures Valid(Initial(ids))
  {
  }

  /** The transfer service never drops the image it was given. */
  lemma TransferKeepsImage(t: Td.Transfer, data: Frame)
    requires t.content.Some?
    ensures Td.SendFirstFrame(t).0.t.content == t.content
    ensures !Td.SendFirstFrame(t).0.Silent?
    ensures Td.Tick(t).t.content == t.content
    ensures |data| >= 3 ==> Td.VerifyFlowControl(t, data).1.content == t.content
    ensures Td.SendConsecutiveFrames(t).content == t.content
  {
    Td.ConsecutiveFrameSpec(t);
  }

  lemma OnSessionValid(l: Loader, data: Frame)
    requires Valid(l) && l.state == SetProgrammingSession
    ensures Valid(OnSession(l, data).l)
  {
  }

  lemma OnSeedValid(l: Loader, data: Frame)
    requires Valid(l) && l.state == RequestSeed
    ensures Valid(OnSeed(l, data).l)
  {
  }

  lemma OnKeyValid(l: Loader, data: Frame)
    requires Valid(l) && l.state == SeedVerification
    ensures Valid(OnKey(l, data).l)
  {
  }

  lemma OnFingerprintValid(l: Loader, data: Frame)
    requires Valid(l) && l.state == WriteFingerprint
    ensures Valid(OnFingerprint(l, data).l)
  {
  }

  lemma OnEraseValid(l: Loader, data: Frame)
    requires Valid(l) && l.state == EraseFirmware
    ensures Valid(OnErase(l, data).l)
  {
  }

  lemma OnDownloadFcValid(l: Loader, data: Frame)
    requires Valid(l) && l.state == RequestDownload
    ensures Valid(OnDownloadFc(l, data).l)
  {
  }

  lemma OnDownloadAnswerValid(l: Loader, data: Frame)
    requires Valid(l) && l.state == RequestDownloadConsecutive
    ensures Valid(OnDownloadAnswer(l, data).l)
  {
    TransferKeepsImage(l.transfer, data);
  }

  lemma OnTransferFcValid(l: Loader, data: Frame)
    requires Valid(l) && l.state == TransferDataFf
    ensures Valid(OnTransferFc(l, data).l)
  {
    TransferKeepsImage(l.transfer, data);
  }

  lemma OnTransferCfValid(l: Loader, data: Frame)
    requires Valid(l) && l.state == TransferDataCf
    ensures Valid(OnTransferCf(l, data).l)
  {
    TransferKeepsImage(l.transfer, data);
  }

  lemma OnExitValid(l: Loader, data: Frame)
    requires Valid(l) && l.state == RequestTransferExit
    ensures Valid(OnExit(l, data).l)
  {
  }

  lemma OnWriteSaValid(l: Loader, data: Frame)
    requires Valid(l) && l.state == WriteCanSourceAddress
    ensures Valid(OnWriteSa(l, data).l)
  {
  }

  lemma OnReadSaValid(l: Loader, data: Frame)
    requires Valid(l) && l.state == ReadCanSourceAddress
    ensures Valid(OnReadSa(l, data).l)
  {
  }

  lemma OnResetUdsValid(l: Loader, data: Frame)
    requires Valid(l) && l.state == EcuUdsReset
    ensures Valid(OnReset(l, data, Er.UdsSoftReset).l)
  {
  }

  lemma OnResetSoftValid(l: Loader, data: Frame)
    requires Valid(l) && l.state == EcuSoftwareReset
    ensures Valid(OnReset(l, data, Er.SoftReset).l)
  {
  }

  lemma OnStatusValid(l: Loader, data: Frame)
    requires Valid(l) && l.state == ReadFingerprint
    ensures Valid(OnStatus(l, data).l)
  {
  }

  /** The handler of the current state keeps the machine valid. */
  lemma HandlerKeepsValid(l: Loader, data: Frame)
    requires Valid(l)
    ensures Valid(Dispatch(l, data).l)
  {
    match l.state
    case SetProgrammingSession => OnSessionValid(l, data);
    case RequestSeed => OnSeedValid(l, data);
    case SeedVerification => OnKeyValid(l, data);
    case WriteFingerprint => OnFingerprintValid(l, data);
    case EraseFirmware => OnEraseValid(l, data);
    case RequestDownload => OnDownloadFcValid(l, data);
    case RequestDownloadConsecutive => OnDownloadAnswerValid(l, data);
    case TransferDataFf => OnTransferFcValid(l, data);
    case TransferDataCf => OnTransferCfValid(l, data);
    case RequestTransferExit => OnExitValid(l, data);
    case WriteCanSourceAddress => OnWriteSaValid(l, data);
    case ReadCanSourceAddress => OnReadSaValid(l, data);
    case EcuUdsReset => OnResetUdsValid(l, data);
    case EcuSoftwareReset => OnResetSoftValid(l, data);
    case ReadFingerprint => OnStatusValid(l, data);
    case _ =>
  }

  /** Every frame keeps the machine valid. */
  lemma StepKeepsValid(l: Loader, idText: string, data: Frame)
    requires Valid(l)
    ensures Valid(Step(l, idText, data).l)
  {
    HandlerKeepsValid(l, data);
  }

  /** Every command and timer keeps the machine valid. */
  lemma StartKeepsValid(l: Loader)
    requires Valid(l)
    ensures Valid(Start(l).1.l)
  {
  }

  lemma WriteSaKeepsValid(l: Loader, sa: int)
    requires Valid(l)
    ensures Valid(WriteSourceAddress(l, sa).1.l)
  {
  }

  lemma ReadSaKeepsValid(l: Loader)
    requires Valid(l)
    ensures Valid(ReadSourceAddress(l).1.l)
  {
  }

  lemma SaTimeoutKeepsValid(l: Loader)
    requires Valid(l)
    ensures Valid(SaTimeout(l).l)
  {
  }

  lemma ResetsKeepValid(l: Loader)
    requires Valid(l)
    ensures Valid(UdsReset(l).l) && Valid(SoftwareReset(l).l) && Valid(CheckState(l).l)
  {
  }

  lemma ConfigurationKeepsValid(l: Loader, image: seq<Byte>, text: string)
    requires Valid(l)
    ensures Valid(SetFirmware(l, image)) && Valid(SetTransferByteOrder(l, text))
  {
  }

  lemma PacingKeepsValid(l: Loader)
    requires Valid(l)
    ensures Valid(PacingTick(l).l)
  {
    if l.transfer.content.Some? {
      TransferKeepsImage(l.transfer, []);
    }
  }

  /** In a valid machine every first frame of the run goes out: the
      transfer service always has its image when a block starts. */
  lemma BlocksAlwaysFormed(l: Loader)
    requires Valid(l) && (l.state == RequestDownloadConsecutive || l.state == TransferDataCf)
    ensures !Td.SendFirstFrame(l.transfer).0.Silent?
  {
    TransferKeepsImage(l.transfer, []);
  }

  /** Re-addressing the ECU replaces the low byte of the response
      identifier. */
  lemma SetSrcRx(ids: UdsIdentifiers.Pair, sa: Byte)
    requires ids.rx.pgn < 0x4_0000 && ids.rx.src < 0x100
    ensures CanIdentifier.Identifier(UdsIdentifiers.SetSrc(ids, sa).rx) == PendingRx(CanIdentifier.Identifier(ids.rx), sa)
  {
    var rx := ids.rx;
    var k := rx.prio * 0x4_0000 + rx.pgn;
    var id := CanIdentifier.Identifier(rx);
    assert id == 0x100 * k + rx.src;
    Bits.DivModUnique(id, 0x100, k, rx.src);
    assert UdsIdentifiers.SetSrc(ids, sa).rx == rx.(src := sa);
    Bits.DivModUnique(sa, 0x100, 0, sa);
    assert CanIdentifier.Identifier(rx.(src := sa)) == 0x100 * k + sa;
    assert PendingRx(id, sa) == k * 0x100 + sa;
  }

  /** The answer to a pending source-address write: a positive one
      installs the pending address. */
  lemma WriteSaAnswer(l: Loader, sa: Byte, idText: string, data: Frame)
    requires l.state == WriteCanSourceAddress && l.pendingSa == Some(sa)
    requires Listens(l, BaseTranslator.ToInt(idText))
    requires |data| >= 4 && Wr.VerifyWriteData(l.writer, data)
    ensures var r := Step(l, idText, data);
      r.l.state == Ready && r.l.ids == UdsIdentifiers.SetSrc(l.ids, sa) && SaApplied(sa, true) in r.signals
  {
    assert Step(l, idText, data) == OnWriteSa(l, data);
  }

  /** A positive answer to the source-address write installs the pending
      address as the ECU's address; afterwards the machine listens on the
      identifier that implied. */
  lemma SourceAddressApplied(l: Loader, sa: int, idText: string, data: Frame)
    requires WriteSourceAddress(l, sa).0
    requires l.ids.rx.pgn < 0x4_0000 && l.ids.rx.src < 0x100
    requires var l1 := WriteSourceAddress(l, sa).1.l;
      Listens(l1, BaseTranslator.ToInt(idText)) && |data| >= 4 && Wr.VerifyWriteData(l1.writer, data)
    ensures var r := Step(WriteSourceAddress(l, sa).1.l, idText, data);
      r.l.state == Ready && r.l.ids == UdsIdentifiers.SetSrc(l.ids, sa) &&
      r.l.ids.rx.src == sa && UdsIdentifiers.Linked(r.l.ids) &&
      CanIdentifier.Identifier(r.l.ids.rx) == PendingRx(CanIdentifier.Identifier(l.ids.rx), sa) &&
      SaApplied(sa, true) in r.signals
  {
    WriteSaAnswer(WriteSourceAddress(l, sa).1.l, sa, idText, data);
    SetSrcRx(l.ids, sa);
  }

  /** The byte-order names read back as themselves. */
  lemma ParseOrderName(o: ByteOrder)
    ensures ParseByteOrder(OrderName(o)) == o
    ensures Lower(Strip(OrderName(o))) == OrderName(o)
  {
    var name := OrderName(o);
    assert StripLeft(name) == name;
    assert StripRight(name) == name;
    assert Lower(name) == name;
  }

  /** The low byte of a little-endian value is its first byte. */
  lemma LowByte(s: seq<int>)
    requires |s| > 0 && 0 <= s[0] < 0x100
    ensures ByteCodec.LeValue(s) % 0x100 == s[0]
  {
    Bits.DivModUnique(ByteCodec.LeValue(s), 0x100, ByteCodec.LeValue(s[1..]), s[0]);
  }
}

=== FILE: byte_codec.dfy ===
/** Multi-byte integers as byte lists: the little- and big-endian readings
    the services use for DIDs, addresses, lengths and data fields, and the
    little-endian writer that `write_data` runs over a value. */
module ByteCodec {
  import Bits

  function Pow256(n: nat): (r: nat)
    ensures r >= 1
  {
    if n == 0 then 1 else 256 * Pow256(n - 1)
  }

  /** Every element is a byte. */
  predicate IsBytes(s: seq<int>) {
    forall i :: 0 <= i < |s| ==> 0 <= s[i] < 256
  }

  /** s[0] + 256 * s[1] + 256^2 * s[2] + ... */
  function LeValue(s: seq<int>): int {
    if |s| == 0 then 0 else s[0] + 256 * LeValue(s[1..])
  }

  /** ... + 256 * s[|s| - 2] + s[|s| - 1]. */
  function BeValue(s: seq<int>): int {
    if |s| == 0 then 0 else 256 * BeValue(s[..|s| - 1]) + s[|s| - 1]
  }

  function Reverse<T>(s: seq<T>): (r: seq<T>)
    ensures |r| == |s|
    ensures forall i :: 0 <= i < |s| ==> r[i] == s[|s| - 1 - i]
  {
    if |s| == 0 then [] else Reverse(s[1..]) + [s[0]]
  }

  /** The little-endian writer of `write_data`: n times, emit `value & 0xFF`
      and shift the value right by 8. Python's `&` and `>>` round towards
      minus infinity, which is what `%` and `/` by a positive constant do. */
  function LeBytes(v: int, n: nat): (r: seq<int>)
    ensures |r| == n && IsBytes(r)
    decreases n
  {
    if n == 0 then [] else [v % 256] + LeBytes(v / 256, n - 1)
  }

  /** Two bytes joined as the services write it: `(hi << 8) | lo`. */
  function Join16(hi: int, lo: int): (r: nat)
    requires 0 <= hi < 256 && 0 <= lo < 256
    ensures r == 256 * hi + lo
  {
    Bits.Powers();
    Bits.OrDisjoint(hi, 8, lo);
    Bits.ShlIsMul(hi, 8);
    Bits.Or(Bits.Shl(hi, 8), lo)
  }

  // ---------------------------------------------------------------- lemmas

  /** The remainder by 256 * p is rebuilt from the low byte and the
      remainder of the rest by p. */
  lemma ModSplit(v: int, p: nat)
    requires p >= 1
    ensures v % (256 * p) == v % 256 + 256 * ((v / 256) % p)
  {
    var q := v / 256;
    var lo := v % 256;
    assert v == 256 * q + lo;
    assert q == p * (q / p) + q % p;
    assert 0 <= q % p < p;
    assert 256 * (q % p) <= 256 * (p - 1) by { Bits.MulLeq(256, q % p, p - 1); }
    assert 256 * q == (256 * p) * (q / p) + 256 * (q % p);
    Bits.DivModUnique(v, 256 * p, q / p, lo + 256 * (q % p));
  }

  /** Writing n bytes little-endian keeps the value modulo 256^n. */
  lemma {:induction false} LeBytesValue(v: int, n: nat)
    ensures LeValue(LeBytes(v, n)) == v % Pow256(n)
    decreases n
  {
    if n > 0 {
      var r := LeBytes(v, n);
      assert r[1..] == LeBytes(v / 256, n - 1);
      LeBytesValue(v / 256, n - 1);
      ModSplit(v, Pow256(n - 1));
    }
  }

  /** A byte list fits in 8 bits per byte. */
  lemma {:induction false} LeValueBound(s: seq<int>)
    requires IsBytes(s)
    ensures 0 <= LeValue(s) < Pow256(|s|)
  {
    if |s| > 0 {
      LeValueBound(s[1..]);
      Bits.MulLeq(256, LeValue(s[1..]), Pow256(|s| - 1) - 1);
    }
  }

  /** Appending a byte at the most significant end. */
  lemma {:induction false} LeValueAppend(s: seq<int>, b: int)
    ensures LeValue(s + [b]) == LeValue(s) + b * Pow256(|s|)
  {
    if |s| == 0 {
      assert s + [b] == [b];
      assert [b][1..] == [];
    } else {
      assert (s + [b])[1..] == s[1..] + [b];
      LeValueAppend(s[1..], b);
      assert 256 * (b * Pow256(|s| - 1)) == b * Pow256(|s|);
    }
  }

  /** Reading big-endian is reading the reversed list little-endian. */
  lemma {:induction false} BeIsReversedLe(s: seq<int>)
    ensures BeValue(s) == LeValue(Reverse(s))
  {
    if |s| > 0 {
      var init := s[..|s| - 1];
      BeIsReversedLe(init);
      assert Reverse(s) == [s[|s| - 1]] + Reverse(init) by {
        var a := Reverse(s);
        var b := [s[|s| - 1]] + Reverse(init);
        assert |a| == |b|;
        forall i | 0 <= i < |a| ensures a[i] == b[i] {
          if i > 0 {
            assert b[i] == Reverse(init)[i - 1] == init[|init| - 1 - (i - 1)];
          }
        }
      }
      assert Reverse(s)[1..] == Reverse(init);
    }
  }

  lemma ReverseReverse<T>(s: seq<T>)
    ensures Reverse(Reverse(s)) == s
  {
    var r := Reverse(Reverse(s));
    assert forall i :: 0 <= i < |s| ==> r[i] == s[i];
  }

  /** 2^(8n) == 256^n. */
  lemma {:induction false} Pow2Pow256(n: nat)
    ensures Bits.Pow2(8 * n) == Pow256(n)
  {
    if n > 0 {
      Pow2Pow256(n - 1);
      Bits.Powers();
      Bits.ShlIsMul(Bits.Pow2(8 * (n - 1)), 8);
      Bits.ShlIsMul(1, 8 * n);
      Bits.ShlIsMul(1, 8 * (n - 1));
      Bits.ShlShl(1, 8 * (n - 1), 8);
    }
  }

  /** Two bytes read big-endian. */
  lemma BeValue2(a: int, b: int)
    ensures BeValue([a, b]) == 256 * a + b
    ensures LeValue([a, b]) == a + 256 * b
  {
    assert [a, b][..1] == [a];
    assert [a][..0] == [];
    assert BeValue([a]) == a;
    assert BeValue([a, b]) == 256 * BeValue([a]) + b;
    assert [a, b][1..] == [b];
    assert [b][1..] == [];
    assert LeValue([b]) == b;
    assert LeValue([a, b]) == a + 256 * LeValue([b]);
  }
}

=== FILE: can_identifier.dfy ===
/** The 29-bit J1939 CAN identifier: a 3-bit priority above an 18-bit
    parameter group number (PGN) above an 8-bit source address. In the
    PDU1 format the low byte of the PGN is the destination address. The
    fields are kept unmasked, exactly as the setters store them. */
module CanIdentifier {
  import opened Bits

  datatype CanId = CanId(prio: nat, pgn: nat, src: nat)

  /** Splitting an identifier into its three fields. Only the bits above
      bit 28 end up in the priority; ParseBitwise shows this is the
      source's shift-and-mask reading. */
  function Parse(id: nat): (r: CanId)
    ensures r.pgn < 0x4_0000 && r.src < 0x100
    ensures r.prio * 0x400_0000 + r.pgn * 0x100 + r.src == id
  {
    var a := id / 0x100;
    assert id == 0x100 * a + id % 0x100;
    assert a == 0x4_0000 * (a / 0x4_0000) + a % 0x4_0000;
    DivDiv(id, 0x100, 0x4_0000);
    CanId(id / 0x400_0000, a % 0x4_0000, id % 0x100)
  }

  /** The source's reading: prio = id >> 26, pgn = (id >> 8) & 0x3FFFF,
      src = id & 0xFF. */
  lemma ParseBitwise(id: nat)
    ensures Parse(id) == CanId(Shr(id, 26), And(Shr(id, 8), 0x3FFFF), And(id, 0xFF))
  {
    Powers();
    ShrIsDiv(id, 26);
    ShrIsDiv(id, 8);
    ShrIsDiv(Shr(id, 8), 18);
    AndLowMask(Shr(id, 8), 18);
    AndByte(id);
  }

  /** Joining the fields: (prio << 26) | (pgn << 8) | (src & 0xFF). */
  function Identifier(c: CanId): (r: nat)
    ensures c.pgn < 0x4_0000 ==> r == c.prio * 0x400_0000 + c.pgn * 0x100 + c.src % 0x100
  {
    JoinValue(c.prio, c.pgn, c.src);
    Or(Or(Shl(c.prio, 26), Shl(c.pgn, 8)), And(c.src, 0xFF))
  }

  /** The destination address: the low byte of the PGN. */
  function Dst(c: CanId): (d: nat)
    ensures d == c.pgn % 0x100 && d < 0x100
  {
    AndByte(c.pgn);
    And(c.pgn, 0xFF)
  }

  /** Setting the destination: pgn = (pgn & 0x3FF00) | (d & 0xFF). The
      PDU format byte and the two page bits stay, anything above bit 17
      is cleared, and the low byte becomes d. */
  function SetDst(c: CanId, d: nat): (r: CanId)
    ensures r.prio == c.prio && r.src == c.src
    ensures r.pgn == ((c.pgn / 0x100) % 0x400) * 0x100 + d % 0x100
    ensures Dst(r) == d % 0x100
    ensures r.pgn < 0x4_0000
  {
    SetDstArith(c.pgn, d);
    c.(pgn := Or(And(c.pgn, 0x3FF00), And(d, 0xFF)))
  }

  lemma SetDstArith(pgn: nat, d: nat)
    ensures Or(And(pgn, 0x3FF00), And(d, 0xFF)) == ((pgn / 0x100) % 0x400) * 0x100 + d % 0x100
    ensures Or(And(pgn, 0x3FF00), And(d, 0xFF)) % 0x100 == d % 0x100
    ensures Or(And(pgn, 0x3FF00), And(d, 0xFF)) < 0x4_0000
  {
    Powers();
    ShlIsMul(0x3FF, 8);
    assert Shl(0x3FF, 8) == 0x3FF00;
    AndShifted(pgn, 0x3FF, 8);
    AndLowMask(Shr(pgn, 8), 10);
    var hi := Low(Shr(pgn, 8), 10);
    ShrIsDiv(pgn, 8);
    ShrIsDiv(Shr(pgn, 8), 10);
    AndByte(d);
    OrDisjoint(hi, 8, d % 0x100);
    ShlIsMul(hi, 8);
    DivModUnique(hi * 0x100 + d % 0x100, 0x100, hi, d % 0x100);
  }

  // ---------------------------------------------------------------- lemmas

  /** The joined fields as a number, for a PGN that fits its 18 bits. */
  lemma JoinValue(prio: nat, pgn: nat, src: nat)
    ensures pgn < 0x4_0000 ==>
      Or(Or(Shl(prio, 26), Shl(pgn, 8)), And(src, 0xFF)) == prio * 0x400_0000 + pgn * 0x100 + src % 0x100
  {
    if pgn < 0x4_0000 {
      var high := Shl(prio, 18) + pgn;
      var lo := src % 0x100;
      assert Or(Shl(prio, 26), Shl(pgn, 8)) == Shl(high, 8) by {
        Powers();
        ShlShl(prio, 18, 8);
        OrShifted(Shl(prio, 18), pgn, 8);
        OrDisjoint(prio, 18, pgn);
      }
      assert Or(Shl(high, 8), And(src, 0xFF)) == Shl(high, 8) + lo by {
        Powers();
        AndByte(src);
        OrDisjoint(high, 8, lo);
      }
      assert high == prio * 0x4_0000 + pgn by {
        Powers();
        ShlIsMul(prio, 18);
      }
      assert Shl(high, 8) == high * 0x100 by {
        Powers();
        ShlIsMul(high, 8);
      }
    }
  }

  /** An identifier built from fields that fit is below 2^29. */
  lemma IdentifierBound(c: CanId)
    requires c.prio < 8 && c.pgn < 0x4_0000
    ensures Identifier(c) < 0x2000_0000
  {
  }

  /** Parsing then joining gives every identifier back, whatever its width. */
  lemma ParseIdentifier(id: nat)
    ensures Identifier(Parse(id)) == id
  {
    var c := Parse(id);
    assert c.src % 0x100 == c.src;
    assert Identifier(c) == c.prio * 0x400_0000 + c.pgn * 0x100 + c.src;
  }

  /** The destination byte of a parsed identifier is bits 8..15. */
  lemma DstOfParse(id: nat)
    ensures Dst(Parse(id)) == (id / 0x100) % 0x100
  {
    var a := id / 0x100;
    var k, r := a / 0x100, a % 0x100;
    assert a == 0x100 * k + r;
    var p, g := a / 0x4_0000, a % 0x4_0000;
    assert a == 0x4_0000 * p + g;
    assert g == 0x100 * (k - 0x400 * p) + r;
    DivModUnique(g, 0x100, k - 0x400 * p, r);
  }

  /** Joining then parsing gives the fields back when the PGN fits its 18
      bits and the source fits its byte; the priority may be any size. */
  lemma IdentifierParse(c: CanId)
    requires c.pgn < 0x4_0000 && c.src < 0x100
    ensures Parse(Identifier(c)) == c
  {
    var id := Identifier(c);
    DivModUnique(id, 0x400_0000, c.prio, c.pgn * 0x100 + c.src);
    DivModUnique(id, 0x100, c.prio * 0x4_0000 + c.pgn, c.src);
    DivModUnique(id / 0x100, 0x4_0000, c.prio, c.pgn);
  }

  /** A PGN wider than 18 bits is not masked when the identifier is built:
      bit 18 of the PGN lands in the priority. */
  lemma PgnBleedsIntoPriority()
    ensures Identifier(CanId(0, 0x4_0000, 0)) == 0x400_0000
    ensures Parse(Identifier(CanId(0, 0x4_0000, 0))) == CanId(1, 0, 0)
  {
    Powers();
    ShlZero(26);
    ShlIsMul(0x4_0000, 8);
    AndByte(0);
  }

  /** The source address is masked to a byte when the identifier is built. */
  lemma SourceMasked()
    ensures Identifier(CanId(0, 0, 0x100)) == 0
  {
  }
}

=== FILE: can_traffic.dfy ===
/** The CAN traffic journal of the user interface: direction names, the
    ISO-TP summary of a diagnostic frame, the bounded journal and its
    filtered view, and the bookkeeping that guesses which node on the bus
    is a UDS device and which tester address it answers. */
module CanTraffic {
  import opened Common
  import opened IsoTp
  import CanIdentifier
  import UdsIdentifiers
  import Bits

  // ---------------------------------------------------------------- direction

  /** `_normalize_can_direction`: anything starting with T is a
      transmission, anything starting with R a reception; otherwise the
      upper-cased text itself, or "-" when there is none. */
  function NormalizeDirection(direction: string): (r: string)
    ensures |r| > 0
  {
    var raw := Upper(Strip(direction));
    if |raw| > 0 && raw[0] == 'T' then "TX"
    else if |raw| > 0 && raw[0] == 'R' then "RX"
    else if raw == "" then "-"
    else raw
  }

  /** The three outcomes of normalisation, stated on the stripped text. */
  lemma DirectionCases(direction: string)
    ensures var raw := Upper(Strip(direction));
      var r := NormalizeDirection(direction);
      (r == "TX" <==> |raw| > 0 && raw[0] == 'T') &&
      (r == "RX" <==> |raw| > 0 && raw[0] == 'R') &&
      (r == "-" <==> raw == "" || raw == "-")
  {
  }

  lemma UpperKeepsSpace(c: char)
    ensures IsSpace(UpperChar(c)) <==> IsSpace(c)
    ensures UpperChar(UpperChar(c)) == UpperChar(c)
  {
  }

  /** Upper-casing twice is upper-casing once. */
  lemma UpperIdempotent(s: string)
    ensures Upper(Upper(s)) == Upper(s)
  {
    forall i | 0 <= i < |s| ensures Upper(Upper(s))[i] == Upper(s)[i] {
      UpperKeepsSpace(s[i]);
    }
  }

  /** Upper-casing keeps a stripped text stripped. */
  lemma UpperStripped(s: string)
    requires |s| > 0 && !IsSpace(s[0]) && !IsSpace(s[|s| - 1])
    ensures Strip(Upper(s)) == Upper(s)
  {
    UpperKeepsSpace(s[0]);
    UpperKeepsSpace(s[|s| - 1]);
    StripNoop(Upper(s));
  }

  /** Every normalised direction reads back as itself. */
  lemma NormalizedFixed(direction: string)
    ensures var r := NormalizeDirection(direction);
      Upper(Strip(r)) == r && (r[0] == 'T' ==> r == "TX") && (r[0] == 'R' ==> r == "RX")
  {
    var s := Strip(direction);
    var raw := Upper(s);
    if |raw| > 0 && raw[0] != 'T' && raw[0] != 'R' {
      UpperStripped(s);
      UpperIdempotent(s);
    } else {
      NameFixed(NormalizeDirection(direction));
    }
  }

  lemma NameFixed(r: string)
    requires r == "TX" || r == "RX" || r == "-"
    ensures Upper(Strip(r)) == r
  {
    if r == "TX" {
      FixedText("TX");
    } else if r == "RX" {
      FixedText("RX");
    } else {
      FixedText("-");
    }
  }

  /** A stripped text without lower-case letters reads back as itself. */
  lemma FixedText(s: string)
    requires |s| > 0 && !IsSpace(s[0]) && !IsSpace(s[|s| - 1])
    requires forall i :: 0 <= i < |s| ==> UpperChar(s[i]) == s[i]
    ensures Upper(Strip(s)) == s
  {
    StripNoop(s);
    assert Upper(s) == s;
  }

  /** A normalised direction is its own normal form. */
  lemma NormalizeIdempotent(direction: string)
    ensures NormalizeDirection(NormalizeDirection(direction)) == NormalizeDirection(direction)
  {
    NormalizedFixed(direction);
  }

  // ---------------------------------------------------------------- ISO-TP

  datatype FlowLabel = ClearToSend | Wait | Overflow | UnknownFlow

  /** What `_parse_isotp_summary` reports about a frame, before it is put
      into words. */
  datatype Summary =
    | NoPayload
    | SingleNegative(nrc: Byte, rejected: Byte)
    | Single(length: nat, sid: Option<Byte>)
    | First(length: nat, sid: Option<Byte>)
    | Consecutive(sn: nat)
    | Flow(status: FlowLabel, blockSize: Byte, stMin: Byte)
    | OtherPci(pci: nat)

  function FlowLabelOf(status: nat): (l: FlowLabel) {
    if status == 0 then ClearToSend
    else if status == 1 then Wait
    else if status == 2 then Overflow
    else UnknownFlow
  }

  /** `_parse_isotp_summary`: dispatch on the high nibble of the PCI byte.
      Missing bytes of a first frame or a flow control read as zero. */
  function Summarize(p: Frame): (r: Summary)
    ensures r.NoPayload? <==> |p| == 0
    ensures |p| > 0 ==> (r.Single? || r.SingleNegative? <==> FrameType(p[0]) == SingleFrameType)
    ensures |p| > 0 ==> (r.First? <==> FrameType(p[0]) == FirstFrameType)
    ensures |p| > 0 ==> (r.Consecutive? <==> FrameType(p[0]) == ConsecutiveFrameType)
    ensures |p| > 0 ==> (r.Flow? <==> FrameType(p[0]) == FlowControlType)
  {
    if |p| == 0 then NoPayload
    else
      var pci := p[0] / 16;
      var low: nat := p[0] % 16;
      if pci == 0 then
        if |p| > 1 then
          if p[1] == 0x7F && |p| > 3 then SingleNegative(p[3], p[2])
          else Single(low, Some(p[1]))
        else Single(low, None)
      else if pci == 1 then
        var total := low * 256 + (if |p| > 1 then p[1] else 0);
        First(total, if |p| > 2 then Some(p[2]) else None)
      else if pci == 2 then Consecutive(low)
      else if pci == 3 then
        Flow(FlowLabelOf(low), if |p| > 1 then p[1] else 0, if |p| > 2 then p[2] else 0)
      else OtherPci(pci)
  }

  /** The 12-bit length of a first frame, `((b0 & 0xF) << 8) | b1`, as the
      bit operations read it. */
  lemma FirstLengthBitwise(b0: Byte, b1: Byte)
    ensures Bits.Or(Bits.Shl(Bits.And(b0, 0x0F), 8), b1) == (b0 % 16) * 256 + b1
  {
    Bits.Powers();
    Bits.AndLowMask(b0, 4);
    Bits.ShrIsDiv(b0, 4);
    Bits.OrDisjoint(b0 % 16, 8, b1);
    Bits.ShlIsMul(b0 % 16, 8);
  }

  /** A single frame built by the services is summarised with its own
      length and service byte, or as the negative response it carries. */
  lemma SummarizeSingleFrame(payload: seq<Byte>, pad: Byte)
    requires 1 <= |payload| <= 7
    ensures var f := SingleFrame(payload, pad);
      forall i :: 0 <= i < |f| ==> 0 <= f[i] < 256
    ensures var f := SingleFrame(payload, pad);
      var g := seq(|f|, i requires 0 <= i < |f| => f[i] as Byte);
      Summarize(g) == (if payload[0] == 0x7F then SingleNegative(g[3], g[2])
                       else Single(|payload|, Some(payload[0])))
  {
    var f := SingleFrame(payload, pad);
    forall i | 0 <= i < |f| ensures 0 <= f[i] < 256 {
      if 1 <= i <= f[0] {
        assert f[i] == SfPayload(f)[i - 1];
      }
    }
    assert f[1] == SfPayload(f)[0];
  }

  /** A first frame's 12-bit length and service byte are read back. */
  lemma FirstFrameLength(length: nat, sid: Byte, rest: seq<Byte>)
    requires length < 0x1000
    ensures Summarize([0x10 + length / 256, length % 256, sid] + rest) == First(length, Some(sid))
  {
  }

  /** A consecutive frame reports its sequence number. */
  lemma ConsecutiveNumber(sn: nat, rest: seq<Byte>)
    requires sn < 16
    ensures Summarize([0x20 + sn] + rest) == Consecutive(sn)
  {
  }

  /** A flow control frame reports its status, block size and separation
      time. */
  lemma FlowControlFields(status: nat, bs: Byte, st: Byte, rest: seq<Byte>)
    requires status < 16
    ensures var r := Summarize([0x30 + status, bs, st] + rest);
      r.Flow? && r.blockSize == bs && r.stMin == st &&
      (r.status == UnknownFlow <==> status > 2)
  {
  }

  // ---------------------------------------------------------------- journal

  /** A journal row: the column name to its text. */
  type Row = map<string, string>

  const HardLimit: nat := 5000
  const KeepTail: nat := 1500

  /** The row put in front of a trimmed journal; `now` is the wall-clock
      time of the trim. */
  function MarkerRow(now: string): (r: Row)
    ensures "dir" in r && r["dir"] == "SYS"
  {
    map["time" := now, "dir" := "SYS", "frameId" := "-", "pgn" := "-", "src" := "-",
        "dst" := "-", "j1939" := "-", "dlc" := "-", "uds" := "Автоочистка журнала",
        "data" := "Оставлены последние 1500 записей"]
  }

  /** `_append_can_traffic_entry`: append; once the journal exceeds 5000
      rows keep the last 1500 behind a marker row. */
  function AppendRow(logs: seq<Row>, row: Row, now: string): (r: seq<Row>)
    ensures |r| > 0 && r[|r| - 1] == row
  {
    var all := logs + [row];
    if |all| > HardLimit then [MarkerRow(now)] + LastN(all, KeepTail) else all
  }

  /** The journal never grows past 5000 rows, and a trim leaves exactly
      the marker and the 1500 most recent rows. */
  lemma JournalBounded(logs: seq<Row>, row: Row, now: string)
    requires |logs| <= HardLimit
    ensures var r := AppendRow(logs, row, now);
      |r| <= HardLimit &&
      (|logs| < HardLimit ==> r == logs + [row]) &&
      (|logs| == HardLimit ==> |r| == KeepTail + 1 && r[0] == MarkerRow(now))
  {
  }

  /** Only the oldest rows are lost: the most recent min(1500, n) rows of
      the grown journal end the new journal, in order. */
  lemma JournalKeepsRecent(logs: seq<Row>, row: Row, now: string, k: nat)
    requires k <= KeepTail && k <= |logs| + 1
    ensures var r := AppendRow(logs, row, now);
      var all := logs + [row];
      k <= |r| && r[|r| - k..] == all[|all| - k..]
  {
    var all := logs + [row];
    var r := AppendRow(logs, row, now);
    if |all| > HardLimit {
      var tail := all[|all| - KeepTail..];
      assert r == [MarkerRow(now)] + tail;
      assert r[|r| - k..] == tail[KeepTail - k..];
    }
  }

  // ---------------------------------------------------------------- filters

  const FilterFields: seq<string> := ["time", "dir", "frameId", "pgn", "src", "dst", "j1939", "dlc", "uds", "data"]

  /** `dict.get(key, "")`. */
  function Get(m: map<string, string>, key: string): string {
    if key in m then m[key] else ""
  }

  /** The filter of each field, stripped and lower-cased. */
  function NormalizeFilters(fields: seq<string>, values: map<string, string>): (r: seq<(string, string)>)
    ensures |r| == |fields|
    ensures forall i :: 0 <= i < |fields| ==> r[i].0 == fields[i] && r[i].1 == Lower(Strip(Get(values, fields[i])))
  {
    if |fields| == 0 then []
    else [(fields[0], Lower(Strip(Get(values, fields[0]))))] + NormalizeFilters(fields[1..], values)
  }

  predicate HasFilters(nf: seq<(string, string)>) {
    exists i :: 0 <= i < |nf| && nf[i].1 != ""
  }

  /** The inner loop: an empty filter is skipped, the first filter that is
      not a substring of its field rejects the row. */
  function RowMatches(row: Row, nf: seq<(string, string)>): bool {
    if |nf| == 0 then true
    else if nf[0].1 == "" then RowMatches(row, nf[1..])
    else if !Contains(Lower(Get(row, nf[0].0)), nf[0].1) then false
    else RowMatches(row, nf[1..])
  }

  function FilterRows(logs: seq<Row>, nf: seq<(string, string)>): (r: seq<Row>)
    ensures |r| <= |logs|
  {
    if |logs| == 0 then []
    else (if RowMatches(logs[0], nf) then [logs[0]] else []) + FilterRows(logs[1..], nf)
  }

  /** `_rebuild_can_traffic_view`: a copy of the journal when no filter is
      set, the matching rows otherwise. */
  function RebuildView(logs: seq<Row>, values: map<string, string>): (r: seq<Row>)
    ensures |r| <= |logs|
  {
    var nf := NormalizeFilters(FilterFields, values);
    if !HasFilters(nf) then logs else FilterRows(logs, nf)
  }

  /** What a row has to satisfy: every non-empty filter occurs in the
      lower-cased field. */
  predicate Passes(row: Row, nf: seq<(string, string)>) {
    forall i :: 0 <= i < |nf| && nf[i].1 != "" ==> Contains(Lower(Get(row, nf[i].0)), nf[i].1)
  }

  lemma {:induction false} RowMatchesPasses(row: Row, nf: seq<(string, string)>)
    ensures RowMatches(row, nf) <==> Passes(row, nf)
  {
    if |nf| > 0 {
      RowMatchesPasses(row, nf[1..]);
      assert forall i :: 1 <= i < |nf| ==> nf[i] == nf[1..][i - 1];
      if Passes(row, nf[1..]) && (nf[0].1 == "" || Contains(Lower(Get(row, nf[0].0)), nf[0].1)) {
        forall i | 0 <= i < |nf| && nf[i].1 != "" ensures Contains(Lower(Get(row, nf[i].0)), nf[i].1) {
          if i > 0 {
            assert nf[1..][i - 1] == nf[i];
          }
        }
      }
    }
  }

  lemma {:induction false} FilterRowsMembers(logs: seq<Row>, nf: seq<(string, string)>, row: Row)
    ensures row in FilterRows(logs, nf) <==> row in logs && RowMatches(row, nf)
  {
    if |logs| > 0 {
      FilterRowsMembers(logs[1..], nf, row);
      assert logs == [logs[0]] + logs[1..];
    }
  }

  /** A row is in the view exactly when it is in the journal and passes
      every non-empty filter. */
  lemma ViewMembers(logs: seq<Row>, values: map<string, string>, row: Row)
    ensures var nf := NormalizeFilters(FilterFields, values);
      row in RebuildView(logs, values) <==> row in logs && Passes(row, nf)
  {
    var nf := NormalizeFilters(FilterFields, values);
    RowMatchesPasses(row, nf);
    FilterRowsMembers(logs, nf, row);
  }

  /** Without filters the loop would keep every row too: the copy is only
      a shortcut. */
  lemma {:induction false} NoFilterKeepsAll(logs: seq<Row>, nf: seq<(string, string)>)
    requires !HasFilters(nf)
    ensures FilterRows(logs, nf) == logs
  {
    if |logs| > 0 {
      RowMatchesPasses(logs[0], nf);
      NoFilterKeepsAll(logs[1..], nf);
      assert logs == [logs[0]] + logs[1..];
    }
  }

  // ---------------------------------------------------------------- diagnostics

  /** `_is_uds_diagnostic_pgn`: bits 8..15 of the PGN are 0xDA, the PDU
      format of diagnostic messages. */
  function IsDiagnosticPgn(pgn: nat): bool {
    (pgn / 256) % 256 == 0xDA
  }

  /** The test on bytes is the source's shift-and-mask test. */
  lemma DiagnosticBitwise(pgn: nat)
    ensures IsDiagnosticPgn(pgn) <==> Bits.And(Bits.Shr(pgn, 8), 0xFF) == 0xDA
  {
    Bits.ByteSplit(pgn);
    Bits.AndByte(Bits.Shr(pgn, 8));
  }

  /** Re-addressing a request keeps bits 8..15 of its PGN, so it stays
      diagnostic exactly when it was. */
  lemma SetDstKeepsDiagnostic(c: CanIdentifier.CanId, d: nat)
    ensures IsDiagnosticPgn(CanIdentifier.SetDst(c, d).pgn) <==> IsDiagnosticPgn(c.pgn % 0x4_0000)
  {
    var p := c.pgn;
    var x := p / 0x100;
    var h := x % 0x400;
    var q := CanIdentifier.SetDst(c, d).pgn;
    assert q == h * 0x100 + d % 0x100;
    Bits.DivModUnique(q, 0x100, h, d % 0x100);
    assert p == 0x4_0000 * (x / 0x400) + (h * 0x100 + p % 0x100);
    Bits.DivModUnique(p, 0x4_0000, x / 0x400, h * 0x100 + p % 0x100);
    Bits.DivModUnique(p % 0x4_0000, 0x100, h, p % 0x100);
    Bits.DivModUnique(x, 0x100, 4 * (x / 0x400) + h / 0x100, h % 0x100);
  }

  // ---------------------------------------------------------------- votes

  /** Tester votes in dictionary order: each tester address once, with the
      number of diagnostic frames sent to it. */
  type Votes = seq<(Byte, nat)>

  predicate Distinct(v: Votes) {
    forall i, j :: 0 <= i < j < |v| ==> v[i].0 != v[j].0
  }

  /** `votes.get(sa, 0)`. */
  function Count(v: Votes, sa: Byte): (n: nat)
    ensures n > 0 ==> exists i :: 0 <= i < |v| && v[i].0 == sa
  {
    if |v| == 0 then 0 else if v[0].0 == sa then v[0].1 else Count(v[1..], sa)
  }

  /** `votes[sa] = votes.get(sa, 0) + 1`: an existing entry keeps its
      place, a new one goes last. */
  function Vote(v: Votes, sa: Byte): (r: Votes)
    ensures |r| == |v| || |r| == |v| + 1
  {
    if |v| == 0 then [(sa, 1)]
    else if v[0].0 == sa then [(sa, v[0].1 + 1)] + v[1..]
    else [v[0]] + Vote(v[1..], sa)
  }

  lemma {:induction false} VoteCounts(v: Votes, sa: Byte, other: Byte)
    requires Distinct(v)
    ensures Distinct(Vote(v, sa))
    ensures Count(Vote(v, sa), sa) == Count(v, sa) + 1
    ensures other != sa ==> Count(Vote(v, sa), other) == Count(v, other)
  {
    if |v| > 0 && v[0].0 != sa {
      VoteCounts(v[1..], sa, other);
      VoteKeys(v[1..], sa);
      var r := Vote(v, sa);
      forall i, j | 0 <= i < j < |r| ensures r[i].0 != r[j].0 {
        if i == 0 {
          if r[j].0 == sa {
          } else {
            assert r[j].0 in KeysOf(v[1..]);
            var k :| 0 <= k < |v[1..]| && v[1..][k].0 == r[j].0;
            assert v[k + 1].0 == r[j].0;
          }
        } else {
          assert r[i] == Vote(v[1..], sa)[i - 1] && r[j] == Vote(v[1..], sa)[j - 1];
        }
      }
    }
  }

  function KeysOf(v: Votes): set<Byte> {
    set i | 0 <= i < |v| :: v[i].0
  }

  lemma {:induction false} VoteKeys(v: Votes, sa: Byte)
    ensures forall i :: 0 <= i < |Vote(v, sa)| ==> Vote(v, sa)[i].0 == sa || Vote(v, sa)[i].0 in KeysOf(v)
  {
    if |v| > 0 && v[0].0 != sa {
      VoteKeys(v[1..], sa);
      var r := Vote(v, sa);
      forall i | 0 <= i < |r| ensures r[i].0 == sa || r[i].0 in KeysOf(v) {
        if i > 0 && r[i].0 != sa {
          assert r[i] == Vote(v[1..], sa)[i - 1];
          var k :| 0 <= k < |v[1..]| && v[1..][k].0 == r[i].0;
          assert v[k + 1].0 == r[i].0;
        }
      }
    }
  }

  /** Python's `max` with a key: the first entry with the largest count. */
  function BestIndex(v: Votes): (i: nat)
    requires |v| > 0
    ensures i < |v|
    ensures forall j :: 0 <= j < |v| ==> v[j].1 <= v[i].1
    ensures forall j :: 0 <= j < i ==> v[j].1 < v[i].1
  {
    if |v| == 1 then 0
    else
      var b := BestIndex(v[..|v| - 1]);
      assert forall j :: 0 <= j < |v| - 1 ==> v[..|v| - 1][j] == v[j];
      if v[|v| - 1].1 > v[b].1 then |v| - 1 else b
  }

  /** `_choose_tester_sa_for_node`: the default tester without votes,
      otherwise the most voted tester and its count. */
  function ChooseTester(v: Votes, defaultSa: int): (r: (Byte, nat))
    ensures |v| == 0 ==> r == (defaultSa % 256, 0)
    ensures |v| > 0 ==> exists i :: 0 <= i < |v| && v[i] == r
    ensures forall j :: 0 <= j < |v| ==> v[j].1 <= r.1
  {
    if |v| == 0 then (defaultSa % 256, 0)
    else
      var i := BestIndex(v);
      (v[i].0 % 256, v[i].1)
  }

  /** A tie goes to the tester that was voted for first. */
  lemma ChooseFirstOfTie(v: Votes, defaultSa: int, i: nat)
    requires Distinct(v) && i < |v|
    requires forall j :: 0 <= j < |v| ==> v[j].1 <= v[i].1
    ensures ChooseTester(v, defaultSa).0 == v[i].0 <==> forall j :: 0 <= j < i ==> v[j].1 < v[i].1
  {
    var b := BestIndex(v);
    if forall j :: 0 <= j < i ==> v[j].1 < v[i].1 {
      assert b == i;
    } else {
      assert b < i;
    }
  }

  // ---------------------------------------------------------------- observed nodes

  datatype NodeStats = NodeStats(total: nat, uds: nat, last: nat, votes: Votes)

  /** The node table keyed by device address, the stable candidate order,
      the candidate list shown, the selected index (-1 for none) and the
      frame counter. */
  datatype Observed = Observed(stats: map<Byte, NodeStats>, order: seq<Byte>, values: seq<Byte>,
                               index: int, frameSeq: nat)

  /** `_reset_observed_uds_candidate`. */
  const Reset: Observed := Observed(map[], [], [], -1, 0)

  predicate NoDup(s: seq<Byte>) {
    forall i, j :: 0 <= i < j < |s| ==> s[i] != s[j]
  }

  function Elems(s: seq<Byte>): set<Byte> {
    set x | x in s
  }

  /** One pass of the rebuild: keep each known address once, in order,
      skipping those already seen. */
  function KeepKnown(order: seq<Byte>, keys: set<Byte>, seen: set<Byte>): (r: seq<Byte>)
    ensures |r| <= |order|
  {
    if |order| == 0 then []
    else if order[0] in seen || order[0] !in keys then KeepKnown(order[1..], keys, seen)
    else [order[0]] + KeepKnown(order[1..], keys, seen + {order[0]})
  }

  /** The pass lists every known, unseen address of the order exactly
      once. */
  lemma {:induction false} KeepKnownSpec(order: seq<Byte>, keys: set<Byte>, seen: set<Byte>)
    ensures NoDup(KeepKnown(order, keys, seen))
    ensures forall x :: x in KeepKnown(order, keys, seen) <==> x in order && x in keys && x !in seen
  {
    if |order| > 0 {
      assert order == [order[0]] + order[1..];
      if order[0] in seen || order[0] !in keys {
        KeepKnownSpec(order[1..], keys, seen);
      } else {
        KeepKnownSpec(order[1..], keys, seen + {order[0]});
        var rest := KeepKnown(order[1..], keys, seen + {order[0]});
        var r := [order[0]] + rest;
        forall i, j | 0 <= i < j < |r| ensures r[i] != r[j] {
          assert r[j] == rest[j - 1];
          if i > 0 {
            assert r[i] == rest[i - 1];
          }
        }
      }
    }
  }

  /** A list without repetitions whose addresses are all known and unseen
      passes unchanged. */
  lemma {:induction false} KeepKnownIdentity(order: seq<Byte>, keys: set<Byte>, seen: set<Byte>)
    requires NoDup(order)
    requires forall i :: 0 <= i < |order| ==> order[i] in keys && order[i] !in seen
    ensures KeepKnown(order, keys, seen) == order
  {
    if |order| > 0 {
      forall i | 0 <= i < |order[1..]| ensures order[1..][i] in keys && order[1..][i] !in seen + {order[0]} {
        assert order[1..][i] == order[i + 1];
      }
      KeepKnownIdentity(order[1..], keys, seen + {order[0]});
      assert order == [order[0]] + order[1..];
    }
  }

  /** `sorted(keys)` for byte keys, from `from` upwards. */
  function Ascending(keys: set<Byte>, from: nat): (r: seq<Byte>)
    requires from <= 256
    ensures |r| <= 256 - from
    decreases 256 - from
  {
    if from == 256 then []
    else (if from in keys then [from] else []) + Ascending(keys, from + 1)
  }

  predicate Increasing(s: seq<Byte>) {
    forall i, j :: 0 <= i < j < |s| ==> s[i] < s[j]
  }

  predicate AtLeast(s: seq<Byte>, m: int) {
    forall i :: 0 <= i < |s| ==> m <= s[i]
  }

  /** Ascending lists addresses from `from` on, in increasing order. */
  lemma {:induction false} AscendingSorted(keys: set<Byte>, from: nat)
    requires from <= 256
    ensures Increasing(Ascending(keys, from)) && AtLeast(Ascending(keys, from), from)
    decreases 256 - from
  {
    if from < 256 {
      AscendingSorted(keys, from + 1);
      var rest := Ascending(keys, from + 1);
      if from in keys {
        ConsIncreasing(from, rest);
        assert Ascending(keys, from) == [from] + rest;
      } else {
        assert Ascending(keys, from) == rest;
      }
    }
  }

  /** An address below every element of an increasing list can lead it. */
  lemma ConsIncreasing(x: Byte, rest: seq<Byte>)
    requires Increasing(rest) && AtLeast(rest, x + 1)
    ensures Increasing([x] + rest) && AtLeast([x] + rest, x)
  {
    var r := [x] + rest;
    forall i, j | 0 <= i < j < |r| ensures r[i] < r[j] {
      assert r[j] == rest[j - 1];
      if i > 0 {
        assert r[i] == rest[i - 1];
      }
    }
  }

  /** Ascending lists exactly the keys from `from` on. */
  lemma {:induction false} AscendingMembers(keys: set<Byte>, from: nat)
    requires from <= 256
    ensures var r := Ascending(keys, from);
      forall x :: x in r <==> x in keys && x >= from
    decreases 256 - from
  {
    if from < 256 {
      AscendingMembers(keys, from + 1);
      var rest := Ascending(keys, from + 1);
      var r := Ascending(keys, from);
      if from in keys {
        assert r == [from] + rest;
        forall x ensures x in r <==> x in keys && x >= from {
          assert x in r <==> x == from || x in rest;
        }
      } else {
        assert r == rest;
      }
    }
  }

  /** The stable order: the old order restricted to known addresses, then
      the new addresses in ascending order. */
  function StableOrder(order: seq<Byte>, keys: set<Byte>): (r: seq<Byte>)
    ensures |KeepKnown(order, keys, {})| <= |r|
  {
    var p := KeepKnown(order, keys, {});
    p + KeepKnown(Ascending(keys, 0), keys, Elems(p))
  }

  /** Every address of the set, once each. */
  ghost predicate ListsOnce(r: seq<Byte>, keys: set<Byte>) {
    NoDup(r) && forall x :: x in r <==> x in keys
  }

  /** The stable order lists every known address exactly once. */
  lemma StableOrderSpec(order: seq<Byte>, keys: set<Byte>)
    ensures ListsOnce(StableOrder(order, keys), keys)
  {
    var p := KeepKnown(order, keys, {});
    KeepKnownSpec(order, keys, {});
    var a := Ascending(keys, 0);
    AscendingMembers(keys, 0);
    var q := KeepKnown(a, keys, Elems(p));
    KeepKnownSpec(a, keys, Elems(p));
    JoinNoDup(p, q);
    var r := p + q;
    assert r == StableOrder(order, keys);
    forall x ensures x in r <==> x in keys {
      if x in keys && x !in p {
        assert x in a && x !in Elems(p);
      }
    }
  }

  /** Two duplicate-free lists with no address in common join into a
      duplicate-free list. */
  lemma JoinNoDup(p: seq<Byte>, q: seq<Byte>)
    requires NoDup(p) && NoDup(q) && forall x :: x in q ==> x !in p
    ensures NoDup(p + q)
  {
    var r := p + q;
    forall i, j | 0 <= i < j < |r| ensures r[i] != r[j] {
      if j < |p| {
        assert r[i] == p[i] && r[j] == p[j];
      } else if i >= |p| {
        assert r[i] == q[i - |p|] && r[j] == q[j - |p|];
      } else {
        assert r[i] == p[i] && r[i] in p;
        assert r[j] == q[j - |p|] && r[j] in q;
      }
    }
  }

  /** When the old order lists only known addresses, once each, the
      stable order starts with it. */
  lemma StablePrefix(order: seq<Byte>, keys: set<Byte>)
    requires NoDup(order) && forall i :: 0 <= i < |order| ==> order[i] in keys
    ensures |order| <= |StableOrder(order, keys)| && StableOrder(order, keys)[..|order|] == order
  {
    KeepKnownIdentity(order, keys, {});
  }

  /** The new addresses follow the kept ones in ascending order. */
  lemma NewAddressesAscend(order: seq<Byte>, keys: set<Byte>)
    ensures var p := KeepKnown(order, keys, {});
      var r := StableOrder(order, keys);
      r[..|p|] == p && Increasing(r[|p|..])
  {
    var p := KeepKnown(order, keys, {});
    var a := Ascending(keys, 0);
    AscendingSorted(keys, 0);
    var q := KeepKnown(a, keys, Elems(p));
    KeepKnownAscending(a, keys, Elems(p));
    var r := StableOrder(order, keys);
    assert r == p + q;
    assert r[|p|..] == q;
  }

  lemma {:induction false} KeepKnownAscending(a: seq<Byte>, keys: set<Byte>, seen: set<Byte>)
    requires Increasing(a)
    ensures Increasing(KeepKnown(a, keys, seen))
  {
    if |a| > 0 {
      assert Increasing(a[1..]) by {
        forall i, j | 0 <= i < j < |a[1..]| ensures a[1..][i] < a[1..][j] {
          assert a[1..][i] == a[i + 1] && a[1..][j] == a[j + 1];
        }
      }
      if a[0] in seen || a[0] !in keys {
        KeepKnownAscending(a[1..], keys, seen);
        assert KeepKnown(a, keys, seen) == KeepKnown(a[1..], keys, seen);
      } else {
        var seen' := seen + {a[0]};
        KeepKnownAscending(a[1..], keys, seen');
        KeepKnownSpec(a[1..], keys, seen');
        var rest := KeepKnown(a[1..], keys, seen');
        var q := [a[0]] + rest;
        assert q == KeepKnown(a, keys, seen);
        forall i, j | 0 <= i < j < |q| ensures q[i] < q[j] {
          assert q[j] == rest[j - 1] && q[j] in a[1..];
          var k :| 0 <= k < |a[1..]| && a[1..][k] == q[j];
          assert a[k + 1] == q[j];
          if i > 0 {
            assert q[i] == rest[i - 1];
          }
        }
      }
    }
  }

  /** The first position of x. */
  function IndexOf(s: seq<Byte>, x: Byte): (i: nat)
    requires x in s
    ensures i < |s| && s[i] == x
    ensures forall j :: 0 <= j < i ==> s[j] != x
  {
    if s[0] == x then 0 else 1 + IndexOf(s[1..], x)
  }

  /** The selection after a rebuild: the previously selected address if it
      is still listed, else the old index if still valid, else the first
      entry; -1 for an empty list. */
  function SelectIndex(values: seq<Byte>, prevValues: seq<Byte>, prevIndex: int): (r: int)
    ensures -1 <= r < |values|
    ensures r == -1 <==> |values| == 0
    ensures 0 <= prevIndex < |prevValues| && prevValues[prevIndex] in values ==> values[r] == prevValues[prevIndex]
  {
    var selected := if 0 <= prevIndex < |prevValues| then Some(prevValues[prevIndex]) else None;
    if |values| == 0 then -1
    else if selected.Some? && selected.value in values then IndexOf(values, selected.value)
    else if 0 <= prevIndex < |values| then prevIndex
    else 0
  }

  /** `_rebuild_observed_candidate_list` without the labels: the table is
      untouched, the order and the list become the stable order. */
  function Rebuild(o: Observed): (r: Observed)
    ensures r.stats == o.stats && r.frameSeq == o.frameSeq
  {
    var stable := StableOrder(o.order, o.stats.Keys);
    o.(order := stable, values := stable, index := SelectIndex(stable, o.values, o.index))
  }

  /** The counting part of `_update_observed_uds_candidate` for a frame of
      `device` addressed to `tester`: a new device gets a fresh entry and
      joins the order, every frame counts, a diagnostic frame also counts
      as UDS and votes for its destination, and the frame number is
      stamped. */
  function Tally(o: Observed, device: Byte, tester: Byte, diag: bool): (r: Observed)
    ensures r.stats.Keys == o.stats.Keys + {device}
  {
    var known := device in o.stats;
    var st := if known then o.stats[device] else NodeStats(0, 0, 0, []);
    var order := if known || device in o.order then o.order else o.order + [device];
    var counted := st.(total := st.total + 1);
    var voted := if diag then counted.(uds := counted.uds + 1, votes := Vote(counted.votes, tester)) else counted;
    var n := o.frameSeq + 1;
    Observed(o.stats[device := voted.(last := n)], order, o.values, o.index, n)
  }

  /** `_update_observed_uds_candidate` for a received identifier, with
      `testerSa` the request source of the session. Frames from the tester
      itself are ignored. The table is keyed by bytes, so its size-256
      trim never applies (ObservedTableSmall). */
  function Update(o: Observed, id: CanIdentifier.CanId, testerSa: Byte): (r: Observed)
    ensures id.src % 256 == testerSa ==> r == o
  {
    var device := id.src % 256;
    if device == testerSa then o
    else Rebuild(Tally(o, device, CanIdentifier.Dst(id), IsDiagnosticPgn(id.pgn % 0x4_0000)))
  }

  /** The counters a frame changes: every frame of another node counts,
      diagnostic ones also count as UDS and vote for their destination;
      no other node changes. */
  lemma UpdateCounts(o: Observed, id: CanIdentifier.CanId, testerSa: Byte, other: Byte)
    requires id.src % 256 != testerSa
    requires id.src % 256 in o.stats ==> Distinct(o.stats[id.src % 256].votes)
    ensures var r := Update(o, id, testerSa);
      var device := id.src % 256;
      var old0 := if device in o.stats then o.stats[device] else NodeStats(0, 0, 0, []);
      var diag := IsDiagnosticPgn(id.pgn % 0x4_0000);
      var tester := CanIdentifier.Dst(id);
      device in r.stats && r.stats[device].total == old0.total + 1 &&
      r.stats[device].uds == old0.uds + (if diag then 1 else 0) &&
      Count(r.stats[device].votes, tester) == Count(old0.votes, tester) + (if diag then 1 else 0) &&
      (other != tester ==> Count(r.stats[device].votes, other) == Count(old0.votes, other)) &&
      Distinct(r.stats[device].votes) &&
      r.stats[device].last == r.frameSeq == o.frameSeq + 1 &&
      (other != device ==> (other in r.stats <==> other in o.stats) &&
                           (other in o.stats ==> r.stats[other] == o.stats[other]))
  {
    var device := id.src % 256;
    var old0 := if device in o.stats then o.stats[device] else NodeStats(0, 0, 0, []);
    VoteCounts(old0.votes, CanIdentifier.Dst(id), other);
    var t := Tally(o, device, CanIdentifier.Dst(id), IsDiagnosticPgn(id.pgn % 0x4_0000));
    assert Update(o, id, testerSa).stats == t.stats;
  }

  /** The candidate list is the table's addresses, each once, with a valid
      selection whenever it is not empty. */
  ghost predicate Consistent(o: Observed) {
    o.order == o.values && ListsOnce(o.values, o.stats.Keys) &&
    (if |o.values| == 0 then o.index == -1 else 0 <= o.index < |o.values|)
  }

  lemma ResetConsistent()
    ensures Consistent(Reset)
  {
  }

  /** Before a rebuild: the order lists known addresses once each and
      starts with the shown list, whose selection is valid. */
  ghost predicate Rebuildable(o: Observed) {
    NoDup(o.order) && (forall i :: 0 <= i < |o.order| ==> o.order[i] in o.stats) &&
    |o.values| <= |o.order| && o.values == o.order[..|o.values|] &&
    (|o.values| > 0 ==> 0 <= o.index < |o.values|)
  }

  /** A rebuild lists exactly the table's addresses, keeps the order it
      starts from, and keeps the selection. */
  lemma RebuildKeeps(o: Observed)
    requires Rebuildable(o)
    ensures var r := Rebuild(o);
      Consistent(r) && |o.values| <= |r.values| && r.values[..|o.values|] == o.values &&
      (|o.values| > 0 ==> r.values[r.index] == o.values[o.index])
  {
    StableOrderSpec(o.order, o.stats.Keys);
    StablePrefix(o.order, o.stats.Keys);
    var r := Rebuild(o);
    assert r.values[..|o.values|] == r.values[..|o.order|][..|o.values|];
    if |o.values| > 0 {
      assert o.values[o.index] == o.order[o.index] == r.values[o.index];
    }
  }

  /** Counting a frame of another device keeps a consistent table ready
      for the rebuild. */
  lemma TallyRebuildable(o: Observed, device: Byte, tester: Byte, diag: bool)
    requires Consistent(o)
    ensures var t := Tally(o, device, tester, diag);
      Rebuildable(t) && t.values == o.values && t.index == o.index
  {
    var t := Tally(o, device, tester, diag);
    if device !in o.stats {
      assert device !in o.values;
      assert t.order == o.values + [device];
      forall i, j | 0 <= i < j < |t.order| ensures t.order[i] != t.order[j] {
        if j == |o.values| {
          assert t.order[i] == o.values[i];
        }
      }
      assert t.order[..|t.values|] == o.values;
    }
  }

  /** Every frame keeps the list consistent, never moves a listed address
      (new addresses only go to the end) and keeps the selected address
      selected. */
  lemma UpdateStable(o: Observed, id: CanIdentifier.CanId, testerSa: Byte)
    requires Consistent(o)
    ensures var r := Update(o, id, testerSa);
      Consistent(r) && |o.values| <= |r.values| && r.values[..|o.values|] == o.values &&
      (|o.values| > 0 ==> r.values[r.index] == o.values[o.index])
  {
    var device := id.src % 256;
    if device != testerSa {
      var diag := IsDiagnosticPgn(id.pgn % 0x4_0000);
      TallyRebuildable(o, device, CanIdentifier.Dst(id), diag);
      RebuildKeeps(Tally(o, device, CanIdentifier.Dst(id), diag));
    }
  }

  /** At most 256 byte addresses exist, so the node table never exceeds
      the 256 entries at which the source would trim it. */
  lemma ObservedTableSmall(stats: map<Byte, NodeStats>)
    ensures |stats.Keys| <= 256
  {
    BytesAtMost(stats.Keys, 256);
  }

  lemma {:induction false} BytesAtMost(s: set<Byte>, n: nat)
    requires n <= 256 && forall x :: x in s ==> x < n
    ensures |s| <= n
  {
    if n > 0 {
      BytesAtMost(s - {n - 1}, n - 1);
    }
  }
}

=== FILE: collector.dfy ===
/** The data collector page (`AppControllerCollectorMixin`): it polls
    every ECU seen on the bus in turn for its raw fuel level and raw
    temperature, keeps one record per node, keeps a trend of recent
    samples, and recognises the columns of a trend CSV file. Clocks,
    timers, the CSV writer and the view models are not modelled: the
    monotonic clock is a parameter and a node's staleness is given as a
    set. */
module Collector {
  import opened Common
  import opened CanIdentifier
  import UdsIdentifiers
  import DataIdentifiers
  import ByteCodec
  import PidField
  import ReadDataById
  import CanTraffic
  import Bits

  // ------------------------------------------------------------ CSV header

  /** The three columns a trend file is read for. */
  datatype Role = TimeColumn | TemperatureColumn | FuelColumn

  /** The two key words (Russian and English) that name a column. */
  function Keywords(role: Role): (string, string) {
    match role
    case TimeColumn => ("время", "time")
    case TemperatureColumn => ("температ", "temp")
    case FuelColumn => ("топлив", "fuel")
  }

  /** The roles a header cell names: trimmed and case-folded, a
      non-empty cell names each role one of whose key words it contains. */
  function RoleSet(raw: string): (r: set<Role>) {
    var name := Lower(Strip(raw));
    if |name| == 0 then {}
    else
      (if Contains(name, Keywords(TimeColumn).0) || Contains(name, Keywords(TimeColumn).1)
       then {TimeColumn} else {}) +
      (if Contains(name, Keywords(TemperatureColumn).0) || Contains(name, Keywords(TemperatureColumn).1)
       then {TemperatureColumn} else {}) +
      (if Contains(name, Keywords(FuelColumn).0) || Contains(name, Keywords(FuelColumn).1)
       then {FuelColumn} else {})
  }

  /** The roles each column of a header names. */
  function Tags(header: seq<string>): (t: seq<set<Role>>)
    ensures |t| == |header| && forall j :: 0 <= j < |header| ==> t[j] == RoleSet(header[j])
  {
    seq(|header|, j requires 0 <= j < |header| => RoleSet(header[j]))
  }

  /** Column numbers, -1 for a column not found. */
  datatype Columns = Columns(time: int, temperature: int, fuel: int)

  /** k is the first of the first n columns, other than columns a and b
      (taken by other roles), that names `role`; or -1 when there is none. */
  ghost predicate FirstFree(tags: seq<set<Role>>, n: nat, k: int, role: Role, a: int, b: int)
    requires n <= |tags|
  {
    if k == -1 then
      forall j :: 0 <= j < n && j != a && j != b ==> role !in tags[j]
    else
      0 <= k < n && k != a && k != b && role in tags[k] &&
      forall j :: 0 <= j < k && j != a && j != b ==> role !in tags[j]
  }

  /** The keyword pass of `_resolve_collector_csv_indexes`, over the
      roles each column names: each column goes to the first role still
      unassigned that it names, trying time, then temperature, then fuel.
      So the time column is the first column naming time, the temperature
      column the first other column naming temperature, and the fuel
      column the first column naming fuel that neither of them took. */
  method ScanHeader(tags: seq<set<Role>>) returns (c: Columns)
    ensures FirstFree(tags, |tags|, c.time, TimeColumn, -1, -1)
    ensures FirstFree(tags, |tags|, c.temperature, TemperatureColumn, c.time, -1)
    ensures FirstFree(tags, |tags|, c.fuel, FuelColumn, c.time, c.temperature)
  {
    c := Columns(-1, -1, -1);
    var i := 0;
    while i < |tags|
      invariant 0 <= i <= |tags|
      invariant FirstFree(tags, i, c.time, TimeColumn, -1, -1)
      invariant FirstFree(tags, i, c.temperature, TemperatureColumn, c.time, -1)
      invariant FirstFree(tags, i, c.fuel, FuelColumn, c.time, c.temperature)
      invariant c.time < i && c.temperature < i && c.fuel < i
    {
      var prev := c;
      if c.time < 0 && TimeColumn in tags[i] {
        c := c.(time := i);
      } else if c.temperature < 0 && TemperatureColumn in tags[i] {
        c := c.(temperature := i);
      } else if c.fuel < 0 && FuelColumn in tags[i] {
        c := c.(fuel := i);
      }
      FreeStep(tags, i, prev.time, c.time, TimeColumn, -1, -1, -1, -1);
      FreeStep(tags, i, prev.temperature, c.temperature, TemperatureColumn, prev.time, -1, c.time, -1);
      FreeStep(tags, i, prev.fuel, c.fuel, FuelColumn, prev.time, prev.temperature, c.time, c.temperature);
      i := i + 1;
    }
  }

  /** One column of the scan for one role: the role keeps its column, or
      takes column i when it had none, i is free and names it; and a role
      an earlier role took column i from does not see i. */
  lemma FreeStep(tags: seq<set<Role>>, i: nat, k: int, k': int, role: Role,
                 a: int, b: int, a': int, b': int)
    requires i < |tags| && FirstFree(tags, i, k, role, a, b)
    requires k < i && a < i && b < i
    requires (a' == a || (a == -1 && a' == i)) && (b' == b || (b == -1 && b' == i))
    requires k' == k || (k == -1 && k' == i)
    requires k' == i ==> i != a' && i != b' && role in tags[i]
    requires k' == -1 ==> i == a' || i == b' || role !in tags[i]
    requires k != -1 ==> k != a' && k != b'
    ensures FirstFree(tags, i + 1, k', role, a', b')
  {
  }

  /** A column number that is either -1 or a column of an n-column row. */
  predicate InRange(k: int, n: nat) {
    k == -1 || 0 <= k < n
  }

  /** The fallback of `_resolve_collector_csv_indexes` when temperature or
      fuel was not found by name: with four or more columns the layout
      time, -, temperature, fuel is assumed; with three, -, temperature,
      fuel. Columns found by name are never moved. */
  function Fallback(n: nat, c: Columns): (r: Columns)
    ensures c.time >= 0 ==> r.time == c.time
    ensures c.temperature >= 0 ==> r.temperature == c.temperature
    ensures c.fuel >= 0 ==> r.fuel == c.fuel
    ensures (c.temperature >= 0 && c.fuel >= 0) || n < 3 ==> r == c
    ensures n >= 3 ==> r.temperature >= 0 && r.fuel >= 0
    ensures InRange(c.time, n) && InRange(c.temperature, n) && InRange(c.fuel, n) ==>
              InRange(r.time, n) && InRange(r.temperature, n) && InRange(r.fuel, n)
  {
    if c.temperature >= 0 && c.fuel >= 0 then c
    else if n >= 4 then
      Columns(if c.time < 0 then 0 else c.time,
              if c.temperature < 0 then 2 else c.temperature,
              if c.fuel < 0 then 3 else c.fuel)
    else if n >= 3 then
      c.(temperature := if c.temperature < 0 then 1 else c.temperature,
         fuel := if c.fuel < 0 then 2 else c.fuel)
    else c
  }

  /** `_resolve_collector_csv_indexes`: the keyword pass, then the
      fallback. Every answer is -1 or a column of the header; by name, no
      column is given two roles. */
  method ResolveColumns(header: seq<string>) returns (c: Columns)
    ensures InRange(c.time, |header|) && InRange(c.temperature, |header|) && InRange(c.fuel, |header|)
    ensures |header| >= 3 ==> c.temperature >= 0 && c.fuel >= 0
  {
    var named := ScanHeader(Tags(header));
    ScanInRange(Tags(header), named);
    c := Fallback(|header|, named);
  }

  /** The keyword pass answers -1 or a real column, and never the same
      column for two roles. */
  lemma ScanInRange(tags: seq<set<Role>>, c: Columns)
    requires FirstFree(tags, |tags|, c.time, TimeColumn, -1, -1)
    requires FirstFree(tags, |tags|, c.temperature, TemperatureColumn, c.time, -1)
    requires FirstFree(tags, |tags|, c.fuel, FuelColumn, c.time, c.temperature)
    ensures InRange(c.time, |tags|) && InRange(c.temperature, |tags|) && InRange(c.fuel, |tags|)
    ensures c.temperature >= 0 ==> c.temperature != c.time
    ensures c.fuel >= 0 ==> c.fuel != c.time && c.fuel != c.temperature
  {
  }

  /** The fallback can give two roles one column: a header whose fourth
      column alone is named for temperature reads fuel from that column
      too. */
  lemma FallbackSharesColumn()
    ensures Fallback(4, Columns(-1, 3, -1)) == Columns(0, 3, 3)
  {
  }

  // ------------------------------------------------------------ nodes

  /** `_extract_collector_node_sa`: the node of a frame is its source,
      unless the source is the tester (the response identifier's
      destination), in which case it is the frame's destination. */
  function NodeSa(id: CanId, ids: UdsIdentifiers.Pair): (sa: Byte)
    ensures sa == id.src % 256 || sa == Dst(id)
    ensures id.src % 256 != Dst(ids.rx) ==> sa == id.src % 256
    ensures id.src % 256 == Dst(ids.rx) ==> sa == Dst(id)
    ensures sa == Dst(ids.rx) <==> id.src % 256 == Dst(ids.rx) && Dst(id) == Dst(ids.rx)
  {
    if id.src % 256 == Dst(ids.rx) then Dst(id) else id.src % 256
  }

  /** One node's record. The temperature is kept in the tenths of a
      degree the ECU sends (the page divides by ten). */
  datatype Node = Node(period: int, fuelLevel: int, temperatureTenths: int,
                       fuelCount: nat, temperatureCount: nat,
                       lastSeen: string, lastSeenAt: nat)

  /** A trend point. */
  datatype Sample = Sample(fuel: int, temperatureTenths: int, node: Byte, time: string)

  /** The collector's state: the node records, the polling order, the
      round-robin position, both trends, the two timer intervals (in ms)
      and the read service used for polling. */
  datatype State = State(nodes: map<Byte, Node>, order: seq<Byte>,
                         pollIndex: int, phase: int,
                         trend: seq<Sample>, trendByNode: map<Byte, seq<Sample>>,
                         pollInterval: nat, cyclePause: nat,
                         read: ReadDataById.ReadService)

  /** The bookkeeping the page keeps: the polling order lists every node
      once, and only nodes have a trend of their own. */
  predicate Tracked(s: State) {
    s.nodes.Keys == CanTraffic.Elems(s.order) && CanTraffic.NoDup(s.order) &&
    s.trendByNode.Keys <= s.nodes.Keys
  }

  /** The freshly seen node of `_ensure_collector_node`. */
  function NewNode(now: nat): Node {
    Node(0, 0, 0, 0, 0, "-", now)
  }

  /** `_ensure_collector_node`: a node not yet known gets a zeroed
      record and joins the end of the polling order, unless it is
      already there. */
  function EnsureNode(s: State, sa: Byte, now: nat): (r: State)
    ensures r.nodes.Keys == s.nodes.Keys + {sa}
    ensures forall k :: k in s.nodes ==> r.nodes[k] == s.nodes[k]
    ensures sa !in s.nodes ==> r.nodes[sa] == NewNode(now)
    ensures r.order == s.order || (sa !in s.order && r.order == s.order + [sa])
    ensures r.(nodes := s.nodes, order := s.order) == s
  {
    if sa in s.nodes then s
    else s.(nodes := s.nodes[sa := NewNode(now)],
            order := if sa in s.order then s.order else s.order + [sa])
  }

  /** Ensuring a node keeps the bookkeeping and puts it in the order. */
  lemma EnsureKeepsTracked(s: State, sa: Byte, now: nat)
    requires Tracked(s)
    ensures Tracked(EnsureNode(s, sa, now)) && sa in EnsureNode(s, sa, now).order
  {
    var r := EnsureNode(s, sa, now);
    if sa !in s.nodes {
      assert r.order == s.order + [sa];
      assert CanTraffic.Elems(r.order) == CanTraffic.Elems(s.order) + {sa};
    }
  }

  // ------------------------------------------------------------ pruning

  /** The nodes of `order` that have a record and are not stale, in order. */
  function Live(order: seq<Byte>, nodes: map<Byte, Node>, stale: set<Byte>): (r: seq<Byte>)
    ensures |r| <= |order|
  {
    if |order| == 0 then []
    else (if order[0] in nodes && order[0] !in stale then [order[0]] else [])
         + Live(order[1..], nodes, stale)
  }

  /** The nodes of `order` that have a record and are stale. */
  function Gone(order: seq<Byte>, nodes: map<Byte, Node>, stale: set<Byte>): (r: set<Byte>)
    ensures r <= stale && r <= nodes.Keys
  {
    set k | k in order && k in nodes && k in stale
  }

  /** What Live keeps: exactly the live recorded nodes of the order. */
  lemma {:induction false} LiveMembers(order: seq<Byte>, nodes: map<Byte, Node>, stale: set<Byte>)
    ensures forall k :: k in Live(order, nodes, stale) <==> k in order && k in nodes && k !in stale
  {
    if |order| > 0 {
      LiveMembers(order[1..], nodes, stale);
      assert forall k :: k in order <==> k == order[0] || k in order[1..];
    }
  }

  /** The tail of a list without duplicates has none, and lacks the head. */
  lemma TailNoDup(s: seq<Byte>)
    requires |s| > 0 && CanTraffic.NoDup(s)
    ensures CanTraffic.NoDup(s[1..]) && s[0] !in s[1..]
  {
    forall i | 0 <= i < |s| - 1 ensures s[1..][i] == s[i + 1] { }
  }

  /** Live repeats no node when the order repeats none. */
  lemma {:induction false} LiveNoDup(order: seq<Byte>, nodes: map<Byte, Node>, stale: set<Byte>)
    requires CanTraffic.NoDup(order)
    ensures CanTraffic.NoDup(Live(order, nodes, stale))
  {
    if |order| > 0 {
      TailNoDup(order);
      LiveNoDup(order[1..], nodes, stale);
      var rest := Live(order[1..], nodes, stale);
      if order[0] in nodes && order[0] !in stale {
        LiveMembers(order[1..], nodes, stale);
        var r := [order[0]] + rest;
        assert Live(order, nodes, stale) == r;
        forall i, j | 0 <= i < j < |r| ensures r[i] != r[j] {
          assert r[j] == rest[j - 1];
          if i > 0 {
            assert r[i] == rest[i - 1];
          }
        }
      }
    }
  }

  /** `_prune_collector_inactive_nodes`, with the nodes the clock finds
      stale given as `stale`: when some recorded node of the order is
      stale, those nodes lose their record and their trend, the order
      keeps the others, and the round-robin position is wrapped into the
      shorter order (or reset with the phase when none is left). */
  function Prune(s: State, stale: set<Byte>): (r: State)
    ensures |s.order| == 0 || Gone(s.order, s.nodes, stale) == {} ==> r == s
  {
    if |s.order| == 0 then s
    else
      var removed := Gone(s.order, s.nodes, stale);
      if removed == {} then s
      else
        var kept := Live(s.order, s.nodes, stale);
        var order := Live(kept, s.nodes - removed, {});
        var p := s.(nodes := s.nodes - removed, trendByNode := s.trendByNode - removed, order := order);
        if |order| == 0 then p.(pollIndex := 0, phase := 0)
        else p.(pollIndex := s.pollIndex % |order|)
  }

  /** Pruning keeps the bookkeeping, drops the record of every stale
      node and touches no other record; when it removes something, the
      round-robin position becomes an index of the shorter order, or 0
      with phase 0 when no node is left. */
  lemma PruneSpec(s: State, stale: set<Byte>)
    requires Tracked(s)
    ensures var r := Prune(s, stale);
      Tracked(r) &&
      r.nodes.Keys == s.nodes.Keys - stale &&
      (forall k :: k in r.nodes ==> r.nodes[k] == s.nodes[k]) &&
      (r != s ==> (|r.order| == 0 ==> r.pollIndex == 0 && r.phase == 0) &&
                  (|r.order| > 0 ==> 0 <= r.pollIndex < |r.order|))
  {
    var removed := Gone(s.order, s.nodes, stale);
    assert removed == s.nodes.Keys * stale by {
      forall k | k in s.nodes.Keys * stale ensures k in removed {
        assert k in CanTraffic.Elems(s.order);
      }
    }
    if |s.order| > 0 && removed != {} {
      var kept := Live(s.order, s.nodes, stale);
      var order := Live(kept, s.nodes - removed, {});
      LiveMembers(s.order, s.nodes, stale);
      LiveMembers(kept, s.nodes - removed, {});
      LiveNoDup(s.order, s.nodes, stale);
      LiveNoDup(kept, s.nodes - removed, {});
      assert CanTraffic.Elems(order) == s.nodes.Keys - stale by {
        forall k | k in s.nodes.Keys - stale ensures k in CanTraffic.Elems(order) {
          assert k in CanTraffic.Elems(s.order);
        }
      }
    } else {
      assert s.nodes.Keys - stale == s.nodes.Keys by {
        forall k | k in s.nodes.Keys ensures k !in stale {
          assert k !in removed;
        }
      }
    }
  }

  // ------------------------------------------------------------ trend

  /** `_collector_trend_max_points` and `_collector_trend_history_limit`. */
  const TrendPoints: nat := 180
  const HistoryLimit: int := 600

  /** `_append_collector_trend_sample`: the sample joins the common trend,
      cut to its last 180 points, and the node's own trend, cut to its
      last 600. */
  function AppendTrend(s: State, sa: Byte, sample: Sample): (r: State)
    ensures 0 < |r.trend| <= TrendPoints && r.trend[|r.trend| - 1] == sample
    ensures sa in r.trendByNode && 0 < |r.trendByNode[sa]| <= HistoryLimit
    ensures r.trendByNode[sa][|r.trendByNode[sa]| - 1] == sample
    ensures r.trendByNode.Keys == s.trendByNode.Keys + {sa}
    ensures forall k :: k in s.trendByNode && k != sa ==> r.trendByNode[k] == s.trendByNode[k]
    ensures r.(trend := s.trend, trendByNode := s.trendByNode) == s
  {
    var points := LastN(s.trend + [sample], TrendPoints);
    var mine := (if sa in s.trendByNode then s.trendByNode[sa] else []) + [sample];
    var mine' := if HistoryLimit > 0 && |mine| > HistoryLimit then LastN(mine, HistoryLimit) else mine;
    s.(trend := points, trendByNode := s.trendByNode[sa := mine'])
  }

  /** The common trend is the most recent points: up to 180 of the
      previous ones, in order, then the new sample. */
  lemma TrendKeepsRecent(s: State, sa: Byte, sample: Sample, k: nat)
    requires k < TrendPoints && k <= |s.trend|
    ensures var t := AppendTrend(s, sa, sample).trend;
      |t| > k && t[|t| - 1 - k..] == s.trend[|s.trend| - k..] + [sample]
  {
    var all := s.trend + [sample];
    var t := AppendTrend(s, sa, sample).trend;
    assert t == all[|all| - |t|..];
    assert t[|t| - 1 - k..] == all[|all| - 1 - k..];
    assert all[|all| - 1 - k..] == s.trend[|s.trend| - k..] + [sample];
  }

  // ------------------------------------------------------------ frames

  /** The positive response service identifier of ReadDataByIdentifier. */
  const SuccessSid: Byte := 0x62

  /** The catalogue entries the collector uses: `curr_fuel_tank`,
      `raw_fuel_level` and `raw_temperature`. */
  const CurrFuelTank := DataIdentifiers.CurrFuelTank
  const RawFuelLevel := DataIdentifiers.RawFuelLevel
  const RawTemperature := DataIdentifiers.RawTemperature

  /** `parse_data_field` on a frame that may be shorter than its length
      byte claims: the little-endian record value, 0 for a length of three
      or less, and None where the Python loop indexes past the end and
      raises IndexError. */
  function DataValue(payload: Frame): (r: Option<nat>)
    requires |payload| >= 1
    ensures payload[0] <= 3 ==> r == Some(0)
    ensures r.None? <==> payload[0] > 3 && |payload| <= payload[0]
    ensures r.Some? && payload[0] > 3 ==>
      r.value == ByteCodec.LeValue(payload[4..payload[0] + 1]) &&
      r.value < ByteCodec.Pow256(payload[0] - 3)
  {
    if payload[0] <= 3 then Some(0)
    else if |payload| <= payload[0] then None
    else
      var v := ByteCodec.LeValue(payload[4..payload[0] + 1]);
      ByteCodec.LeValueBound(payload[4..payload[0] + 1]);
      Some(v)
  }

  /** A frame the collector takes a reading from: on the response PGN,
      at least four bytes, a positive ReadDataByIdentifier response. */
  predicate IsReading(id: CanId, payload: Frame, ids: UdsIdentifiers.Pair) {
    id.pgn % 0x4_0000 == ids.rx.pgn % 0x4_0000 && |payload| >= 4 && payload[1] == SuccessSid
  }

  /** `_handle_collector_frame`: a frame whose node is not the tester
      marks the node as seen (`time` cut to eight characters); a reading
      of `curr_fuel_tank` sets the node's period, one of `raw_fuel_level`
      or `raw_temperature` sets the value, counts it and adds a trend
      sample. A payload too short for its record stops after the node
      was marked, as the IndexError does. */
  function HandleFrame(s: State, time: string, id: CanId, payload: Frame,
                       ids: UdsIdentifiers.Pair, now: nat): (r: State)
    ensures NodeSa(id, ids) == Dst(ids.rx) ==> r == s
    ensures NodeSa(id, ids) != Dst(ids.rx) ==>
      r.nodes.Keys == s.nodes.Keys + {NodeSa(id, ids)} &&
      r.nodes[NodeSa(id, ids)].lastSeenAt == now
    ensures forall k :: k in s.nodes && k != NodeSa(id, ids) ==> r.nodes[k] == s.nodes[k]
    ensures r.order == EnsureNode(s, NodeSa(id, ids), now).order || r == s
  {
    var sa := NodeSa(id, ids);
    if sa == Dst(ids.rx) then s
    else
      var e := EnsureNode(s, sa, now);
      var node := e.nodes[sa].(lastSeenAt := now, lastSeen := if |time| >= 8 then time[..8] else time);
      var t := e.(nodes := e.nodes[sa := node]);
      if !IsReading(id, payload, ids) then t
      else
        var did := PidField.ParsePidField(t.read.order, payload);
        match DataValue(payload)
        case None => t
        case Some(value) =>
          if did == CurrFuelTank.pid then
            t.(nodes := t.nodes[sa := node.(period := value)])
          else if did == RawFuelLevel.pid then
            var n := node.(period := t.pollInterval, fuelLevel := value, fuelCount := node.fuelCount + 1);
            AppendTrend(t.(nodes := t.nodes[sa := n]), sa, Sample(n.fuelLevel, n.temperatureTenths, sa, n.lastSeen))
          else if did == RawTemperature.pid then
            var n := node.(period := t.pollInterval, temperatureTenths := value,
                           temperatureCount := node.temperatureCount + 1);
            AppendTrend(t.(nodes := t.nodes[sa := n]), sa, Sample(n.fuelLevel, n.temperatureTenths, sa, n.lastSeen))
          else t
  }

  /** A fuel-level reading from a node: its level becomes the record
      value, its fuel count goes up by one, its temperature count stays,
      and the trend ends with a sample of the node. */
  lemma FuelReadingCounted(s: State, time: string, id: CanId, payload: Frame,
                           ids: UdsIdentifiers.Pair, now: nat)
    requires NodeSa(id, ids) != Dst(ids.rx) && IsReading(id, payload, ids)
    requires PidField.ParsePidField(s.read.order, payload) == RawFuelLevel.pid
    requires DataValue(payload).Some?
    ensures var sa := NodeSa(id, ids);
      var r := HandleFrame(s, time, id, payload, ids, now);
      var before := if sa in s.nodes then s.nodes[sa] else NewNode(now);
      r.nodes[sa].fuelLevel == DataValue(payload).value &&
      r.nodes[sa].fuelCount == before.fuelCount + 1 &&
      r.nodes[sa].temperatureCount == before.temperatureCount &&
      r.trend[|r.trend| - 1].node == sa &&
      r.trend[|r.trend| - 1].fuel == DataValue(payload).value
  {
    assert RawFuelLevel.pid == 0x18 && CurrFuelTank.pid == 0x14;
  }

  /** A temperature reading from a node: its temperature becomes the
      record value, its temperature count goes up by one and its fuel
      count stays. */
  lemma TemperatureReadingCounted(s: State, time: string, id: CanId, payload: Frame,
                                  ids: UdsIdentifiers.Pair, now: nat)
    requires NodeSa(id, ids) != Dst(ids.rx) && IsReading(id, payload, ids)
    requires PidField.ParsePidField(s.read.order, payload) == RawTemperature.pid
    requires DataValue(payload).Some?
    ensures var sa := NodeSa(id, ids);
      var r := HandleFrame(s, time, id, payload, ids, now);
      var before := if sa in s.nodes then s.nodes[sa] else NewNode(now);
      r.nodes[sa].temperatureTenths == DataValue(payload).value &&
      r.nodes[sa].temperatureCount == before.temperatureCount + 1 &&
      r.nodes[sa].fuelCount == before.fuelCount &&
      r.trend[|r.trend| - 1].node == sa
  {
    assert RawTemperature.pid == 0x19 && RawFuelLevel.pid == 0x18 && CurrFuelTank.pid == 0x14;
  }

  /** A frame that is not a reading only marks its node as seen: no
      value, count or trend changes. */
  lemma NonReadingKeepsValues(s: State, time: string, id: CanId, payload: Frame,
                              ids: UdsIdentifiers.Pair, now: nat)
    requires !IsReading(id, payload, ids)
    ensures var r := HandleFrame(s, time, id, payload, ids, now);
      r.trend == s.trend && r.trendByNode == s.trendByNode &&
      forall k :: k in s.nodes ==>
        r.nodes[k] == s.nodes[k].(lastSeen := r.nodes[k].lastSeen, lastSeenAt := r.nodes[k].lastSeenAt)
  {
  }

  /** Handling a frame keeps the bookkeeping. */
  lemma HandleKeepsTracked(s: State, time: string, id: CanId, payload: Frame,
                           ids: UdsIdentifiers.Pair, now: nat)
    requires Tracked(s)
    ensures Tracked(HandleFrame(s, time, id, payload, ids, now))
  {
    var sa := NodeSa(id, ids);
    if sa != Dst(ids.rx) {
      EnsureKeepsTracked(s, sa, now);
    }
  }

  // ------------------------------------------------------------ polling

  /** `_collector_poll_vars`: the fuel level in phase 0, the temperature
      in phase 1. */
  const PollVars: seq<DataIdentifiers.UdsVar> := [RawFuelLevel, RawTemperature]

  /** One poll: the identifier it goes out on, the frame, and the next
      timer interval. */
  datatype Poll = Poll(target: CanId, data: seq<int>, interval: nat)

  /** `_on_collector_poll_tick`: while connected and not busy with a
      source-address change, prune, then poll the next node. */
  function PollTick(s: State, connected: bool, busy: bool, ids: UdsIdentifiers.Pair,
                    stale: set<Byte>): (r: (State, Option<Poll>))
    ensures !connected || busy ==> r == (s, None)
    ensures r.1.None? <==> !connected || busy || |Prune(s, stale).order| == 0
  {
    if !connected || busy then (s, None)
    else PollNext(Prune(s, stale), ids)
  }

  /** The polling half of the tick: ask the node at the round-robin
      position for the variable of the phase, on a copy of the request
      identifier addressed to the node. Phase 0 moves to phase 1 after
      the poll interval; phase 1 moves to the next node, wrapping at the
      end of the order, after the cycle pause. */
  function PollNext(p: State, ids: UdsIdentifiers.Pair): (r: (State, Option<Poll>))
    ensures r.1.None? <==> |p.order| == 0
    ensures r.1.None? ==> r.0 == p
    ensures r.1.Some? ==>
      r.0.(pollIndex := p.pollIndex, phase := p.phase, read := p.read) == p &&
      0 <= r.0.pollIndex < |p.order| && 0 <= r.0.phase <= 1
    ensures r.1.Some? ==>
      var sa := p.order[p.pollIndex % |p.order|];
      r.1.value.target.prio == ids.tx.prio && r.1.value.target.src == ids.tx.src &&
      Dst(r.1.value.target) == sa
  {
    if |p.order| == 0 then (p, None)
    else
      var i := p.pollIndex % |p.order|;
      var sa := p.order[i];
      var phase := if p.phase <= 0 then 0 else 1;
      if phase == 0 then
        var q := PollAt(p.read, ids, sa, 0, p.pollInterval);
        (p.(pollIndex := i, phase := 1, read := q.0), Some(q.1))
      else
        var q := PollAt(p.read, ids, sa, 1, p.cyclePause);
        (p.(pollIndex := (i + 1) % |p.order|, phase := 0, read := q.0), Some(q.1))
  }

  /** The request of one poll: the variable of the phase, asked of node
      `sa` on a copy of the request identifier with `sa` as destination,
      then the timer interval that follows it. */
  function PollAt(read: ReadDataById.ReadService, ids: UdsIdentifiers.Pair, sa: Byte,
                  phase: nat, interval: nat): (r: (ReadDataById.ReadService, Poll))
    requires phase < |PollVars|
    ensures r.0.pidRequest == PollVars[phase].pid && r.0.order == read.order
    ensures r.1.target.prio == ids.tx.prio && r.1.target.src == ids.tx.src && Dst(r.1.target) == sa
    ensures r.1.interval == interval
  {
    var sent := ReadDataById.ReadData(read, PollVars[phase]);
    assert sa % 0x100 == sa;
    (sent.0, Poll(SetDst(ids.tx, sa), sent.1, interval))
  }

  /** Pruning with no stale node changes nothing. */
  lemma PruneNothingStale(s: State, stale: set<Byte>)
    requires forall k :: k in s.order ==> k !in stale
    ensures Prune(s, stale) == s
  {
    assert Gone(s.order, s.nodes, stale) == {};
  }

  /** Phase 0 asks the node at the position for its fuel level and
      stays on it in phase 1, after the poll interval. */
  lemma PollPhaseZero(p: State, ids: UdsIdentifiers.Pair)
    requires |p.order| > 0 && p.phase <= 0
    ensures var r := PollNext(p, ids);
      var i := p.pollIndex % |p.order|;
      r.1.Some? && Dst(r.1.value.target) == p.order[i] &&
      r.0.read.pidRequest == RawFuelLevel.pid && r.1.value.interval == p.pollInterval &&
      r.0.order == p.order && r.0.pollIndex == i && r.0.phase == 1 &&
      r.0.cyclePause == p.cyclePause
  {
  }

  /** Phase 1 asks the same node for its temperature and moves to the
      next node of the order, wrapping at the end, after the cycle pause. */
  lemma PollPhaseOne(p: State, ids: UdsIdentifiers.Pair)
    requires |p.order| > 0 && p.phase == 1
    ensures var r := PollNext(p, ids);
      var i := p.pollIndex % |p.order|;
      r.1.Some? && Dst(r.1.value.target) == p.order[i] &&
      r.0.read.pidRequest == RawTemperature.pid && r.1.value.interval == p.cyclePause &&
      r.0.order == p.order && r.0.pollIndex == (i + 1) % |p.order| && r.0.phase == 0
  {
  }

  /** The round robin: with no node going stale, a node in phase 0 is
      asked for its fuel level, then for its temperature, and then the
      position moves to the next node of the order, wrapping at the end. */
  lemma PollCycle(s: State, ids: UdsIdentifiers.Pair, stale: set<Byte>)
    requires |s.order| > 0 && s.phase <= 0
    requires forall k :: k in s.order ==> k !in stale
    ensures var first := PollTick(s, true, false, ids, stale);
      var second := PollTick(first.0, true, false, ids, stale);
      var sa := s.order[s.pollIndex % |s.order|];
      first.1.Some? && second.1.Some? &&
      Dst(first.1.value.target) == sa && Dst(second.1.value.target) == sa &&
      first.0.read.pidRequest == RawFuelLevel.pid &&
      second.0.read.pidRequest == RawTemperature.pid &&
      first.1.value.interval == s.pollInterval && second.1.value.interval == s.cyclePause &&
      second.0.pollIndex == (s.pollIndex % |s.order| + 1) % |s.order| && second.0.phase == 0
  {
    TickNothingStale(s, ids, stale);
    PollPhaseZero(s, ids);
    var first := PollNext(s, ids);
    var i := s.pollIndex % |s.order|;
    TickNothingStale(first.0, ids, stale);
    PollPhaseOne(first.0, ids);
    Bits.DivModUnique(i, |s.order|, 0, i);
  }

  /** With no node going stale, a tick while connected and idle is a
      poll of the current order. */
  lemma TickNothingStale(s: State, ids: UdsIdentifiers.Pair, stale: set<Byte>)
    requires forall k :: k in s.order ==> k !in stale
    ensures PollTick(s, true, false, ids, stale) == PollNext(s, ids)
  {
    PruneNothingStale(s, stale);
  }

  /** Polling keeps the bookkeeping. */
  lemma PollKeepsTracked(s: State, connected: bool, busy: bool, ids: UdsIdentifiers.Pair,
                         stale: set<Byte>)
    requires Tracked(s)
    ensures Tracked(PollTick(s, connected, busy, ids, stale).0)
  {
    PruneSpec(s, stale);
  }
}

=== FILE: common.dfy ===
/** Shared vocabulary of the model: bytes and frames, optional values, the
    configurable byte order, and the few string helpers (strip, case mapping,
    substring search) the source takes from Python's str type. */
module Common {

  /** An optional value; None stands for Python's None or for a raised error. */
  datatype Option<+T> = None | Some(value: T) {
    function GetOr(default: T): T {
      match this
      case Some(v) => v
      case None => default
    }
  }

  /** One byte of a received CAN payload. */
  type Byte = b: int | 0 <= b < 256

  /** A received payload, as delivered by the CAN adapter (any length). */
  type Frame = seq<Byte>

  /** The 0xFF byte used to pad every request to eight bytes. */
  const Pad: int := 0xFF

  /** `n` copies of the padding byte. */
  function Padding(n: nat): (r: seq<int>)
    ensures |r| == n
    ensures forall i :: 0 <= i < n ==> r[i] == Pad
  {
    if n == 0 then [] else [Pad] + Padding(n - 1)
  }

  /** Byte order of multi-byte DID, address and length fields. */
  datatype ByteOrder = Big | Little

  /** The text the services store for a byte order ("big" or "little"). */
  function OrderName(o: ByteOrder): string {
    match o
    case Big => "big"
    case Little => "little"
  }

  /** `set_byte_order`: the text is stripped and lower-cased; "little"
      selects little-endian and anything else, "big" included, big-endian. */
  function ParseByteOrder(text: string): (r: ByteOrder)
    ensures r == Little <==> Lower(Strip(text)) == OrderName(Little)
    ensures Lower(Strip(text)) == OrderName(Big) ==> r == Big
  {
    if Lower(Strip(text)) == "little" then Little else Big
  }

  /** A frame handed to the CAN adapter: identifier and the eight data
      bytes (the adapter is always asked for DLC 8). Transmitted bytes are
      unbounded integers because one counter is never reduced to a byte. */
  datatype Sent = Sent(id: int, data: seq<int>)

  // ---------------------------------------------------------------- strings

  /** Python's whitespace for str.strip(), restricted to the ASCII range:
      tab, line feed, vertical tab, form feed, carriage return, the four
      information separators 0x1C..0x1F, and space. */
  predicate IsSpace(c: char) {
    ('\t' <= c <= '\r') || ('\U{001C}' <= c <= '\U{001F}') || c == ' '
  }

  function StripLeft(s: string): (r: string)
    ensures |r| <= |s| && r == s[|s| - |r|..]
    ensures |r| > 0 ==> !IsSpace(r[0])
    ensures forall i :: 0 <= i < |s| - |r| ==> IsSpace(s[i])
  {
    if |s| > 0 && IsSpace(s[0]) then StripLeft(s[1..]) else s
  }

  function StripRight(s: string): (r: string)
    ensures |r| <= |s| && r == s[..|r|]
    ensures |r| > 0 ==> !IsSpace(r[|r| - 1])
    ensures forall i :: |r| <= i < |s| ==> IsSpace(s[i])
  {
    if |s| > 0 && IsSpace(s[|s| - 1]) then StripRight(s[..|s| - 1]) else s
  }

  /** str.strip(): drop leading and trailing whitespace. */
  function Strip(s: string): (r: string)
    ensures |r| <= |s|
    ensures |r| > 0 ==> !IsSpace(r[0]) && !IsSpace(r[|r| - 1])
  {
    StripRight(StripLeft(s))
  }

  /** Text with no whitespace at either end is its own strip. */
  lemma StripNoop(s: string)
    requires |s| > 0 && !IsSpace(s[0]) && !IsSpace(s[|s| - 1])
    ensures Strip(s) == s
  {
  }

  /** Lower-case mapping of one character: ASCII letters and the basic
      Cyrillic alphabet (the only letters the source's keywords use). */
  function LowerChar(c: char): char {
    if 'A' <= c <= 'Z' then (c as int + 32) as char
    else if 'А' <= c <= 'Я' then (c as int + 32) as char
    else if c == 'Ё' then 'ё'
    else c
  }

  function UpperChar(c: char): char {
    if 'a' <= c <= 'z' then (c as int - 32) as char
    else if 'а' <= c <= 'я' then (c as int - 32) as char
    else if c == 'ё' then 'Ё'
    else c
  }

  /** str.lower() (and str.casefold() for the letters above). */
  function Lower(s: string): (r: string)
    ensures |r| == |s|
    ensures forall i :: 0 <= i < |s| ==> r[i] == LowerChar(s[i])
  {
    if |s| == 0 then [] else [LowerChar(s[0])] + Lower(s[1..])
  }

  /** str.upper() for the letters above. */
  function Upper(s: string): (r: string)
    ensures |r| == |s|
    ensures forall i :: 0 <= i < |s| ==> r[i] == UpperChar(s[i])
  {
    if |s| == 0 then [] else [UpperChar(s[0])] + Upper(s[1..])
  }

  predicate StartsWith(s: string, p: string) {
    |p| <= |s| && s[..|p|] == p
  }

  /** Python's `p in s` for strings: p occurs somewhere in s. */
  predicate Contains(s: string, p: string)
    decreases |s|
  {
    StartsWith(s, p) || (|s| > 0 && Contains(s[1..], p))
  }

  /** p occurs in s starting at position i. */
  predicate OccursAt(s: string, p: string, i: int) {
    0 <= i <= |s| - |p| && s[i..i + |p|] == p
  }

  /** The substring characterisation of Contains. */
  lemma {:induction false} ContainsIffOccurs(s: string, p: string)
    ensures Contains(s, p) <==> exists i :: OccursAt(s, p, i)
    decreases |s|
  {
    if StartsWith(s, p) {
      assert OccursAt(s, p, 0);
    } else if |s| > 0 {
      ContainsIffOccurs(s[1..], p);
      if Contains(s[1..], p) {
        var i :| OccursAt(s[1..], p, i);
        assert s[i + 1..i + 1 + |p|] == s[1..][i..i + |p|];
        assert OccursAt(s, p, i + 1);
      }
      if exists i :: OccursAt(s, p, i) {
        var i :| OccursAt(s, p, i);
        assert i != 0;
        assert s[1..][i - 1..i - 1 + |p|] == s[i..i + |p|];
        assert OccursAt(s[1..], p, i - 1);
      }
    }
  }

  /** Python's `s[i]` on a list or bytes object: a negative index counts
      from the end, anything outside raises IndexError (None here). */
  function PyAt<T>(s: seq<T>, i: int): (r: Option<T>)
    ensures 0 <= i < |s| ==> r == Some(s[i])
    ensures -|s| <= i < 0 ==> r == Some(s[|s| + i])
    ensures (i >= |s| || i < -|s|) <==> r.None?
  {
    if 0 <= i < |s| then Some(s[i])
    else if -|s| <= i < 0 then Some(s[|s| + i])
    else None
  }

  /** Python's `s[-n:]`: the last n elements (all of s when it is shorter). */
  function LastN<T>(s: seq<T>, n: nat): (r: seq<T>)
    ensures |r| == if |s| < n then |s| else n
    ensures r == s[|s| - |r|..]
  {
    if |s| <= n then s else s[|s| - n..]
  }
}

=== FILE: data_identifiers.dfy ===
/** The catalogue of data identifiers (DIDs) the tool reads and writes:
    each entry has a 16-bit identifier, a size in bytes and a description
    shown in the UI. The catalogue is a dictionary in insertion order; the
    index accessors walk its values in that order. */
module DataIdentifiers {
  import opened Common

  datatype UdsVar = UdsVar(pid: nat, size: nat, description: string)

  /** The catalogue, in declaration order. */
  const Catalog: seq<(string, UdsVar)> := [
    ("can_baud_rate", UdsVar(0x0010, 1, "Скорость CAN шины")),
    ("can_sa", CanSa),
    ("empty_fuel_tank", UdsVar(0x0012, 2, "Пустой бак")),
    ("full_fuel_tank", UdsVar(0x0013, 2, "Полный бак")),
    ("curr_fuel_tank", CurrFuelTank),
    ("fingerprint", Fingerprint),
    ("type_session", UdsVar(0x0016, 1, "Тип сессии")),
    ("k_fuel_level", UdsVar(0x0017, 2, "Коэффициент фильтра")),
    ("raw_fuel_level", RawFuelLevel),
    ("raw_temperature", RawTemperature),
    ("vmecusndid", UdsVar(0xF188, 18, "Номер ПО ЭБУ изготовителя ТС")),
    ("vmecusvndid", UdsVar(0xF189, 32, "Номер версии ПО ЭБУ изготовителя ТС")),
    ("ssiddid", UdsVar(0xF18A, 32, "Название поставщика системы и информация об адресе")),
    ("ecumddid", UdsVar(0xF18B, 16, "Дата изготовления ЭБУ")),
    ("ecusndid", UdsVar(0xF18C, 253, "Серийный номер ЭБУ")),
    ("vindid", UdsVar(0xF190, 17, "VIN-номер")),
    ("vmecuhndid", UdsVar(0xF191, 32, "Номер аппаратного обеспечения, определенного ЭБУ изготовителя ТС")),
    ("ssecuhwndid", UdsVar(0xF192, 32, "Номер аппаратного обеспечения, определенного ЭБУ поставщика системы")),
    ("ssecuhwvndid", UdsVar(0xF193, 16, "Номер версии аппаратного обеспечения")),
    ("ssecuswndid", UdsVar(0xF194, 128, "Номер программного обеспечения")),
    ("ssecuswvndid", UdsVar(0xF195, 128, "Версия программного обеспечения")),
    ("erotandid", UdsVar(0xF196, 64, "Норма выхлопных газов или номер официального утверждения типа")),
    ("snoetdid", UdsVar(0xF197, 64, "Наименование системы или тип двигателя")),
    ("rscotsndid", UdsVar(0xF198, 32, "Код ремонтной мастерской или серийный номер тестера")),
    ("pddid", UdsVar(0xF199, 16, "Дата последнего перепрограммирования устройства")),
    ("eiddid", UdsVar(0xF19D, 16, "Дата установки ЭБУ в транспортное средство")),
    ("vmecuscndid", UdsVar(0xF1A0, 18, "Номер конфигурации программного обеспечения ЭБУ изготовителя ТС")),
    ("vmecuscvndid", UdsVar(0xF1A1, 32, "Номер версии конфигурации ПО ЭБУ изготовителя ТС")),
    ("idoptvms", UdsVar(0xF1A2, 256, "Опции идентификации определенного устройства/ТС производителем ТС")),
    ("idoptsss", UdsVar(0xF1F0, 256, "Опции идентификации определенного устройства/ТС поставщиком системы"))
  ]

  /** `vars.values()`, in order. */
  function Vars(): (r: seq<UdsVar>)
    ensures |r| == |Catalog|
    ensures forall i :: 0 <= i < |r| ==> r[i] == Catalog[i].1
  {
    seq(|Catalog|, i requires 0 <= i < |Catalog| => Catalog[i].1)
  }

  /** `vars.get(name)`: the entry stored under the name, or None. */
  function Lookup(name: string): (r: Option<UdsVar>)
    ensures r.Some? ==> exists i :: FirstMatch(Catalog, name, i) && Catalog[i].1 == r.value
    ensures r.None? ==> forall i :: 0 <= i < |Catalog| ==> Catalog[i].0 != name
  {
    Find(Catalog, name)
  }

  /** Entry i carries the name and no earlier entry does. */
  predicate FirstMatch(entries: seq<(string, UdsVar)>, name: string, i: int) {
    0 <= i < |entries| && entries[i].0 == name &&
    forall j :: 0 <= j < i ==> entries[j].0 != name
  }

  function Find(entries: seq<(string, UdsVar)>, name: string): (r: Option<UdsVar>)
    ensures r.Some? ==> exists i :: FirstMatch(entries, name, i) && entries[i].1 == r.value
    ensures r.None? ==> forall i :: 0 <= i < |entries| ==> entries[i].0 != name
  {
    if |entries| == 0 then None
    else if entries[0].0 == name then
      assert FirstMatch(entries, name, 0);
      Some(entries[0].1)
    else
      var r := Find(entries[1..], name);
      if r.Some? then
        var i :| FirstMatch(entries[1..], name, i) && entries[1..][i].1 == r.value;
        assert FirstMatch(entries, name, i + 1);
        r
      else
        r
  }

  /** The two named entries the bootloader writes. */
  const CanSa: UdsVar := UdsVar(0x0011, 1, "Адрес источника данных")
  const Fingerprint: UdsVar := UdsVar(0x1500, 2, "Отпечаток пальцев")
  const CurrFuelTank: UdsVar := UdsVar(0x0014, 2, "Текущий уровень")
  const RawFuelLevel: UdsVar := UdsVar(0x0018, 2, "Сырые данные уровня топлива")
  const RawTemperature: UdsVar := UdsVar(0x0019, 2, "Сырые данные текущей температуры")

  /** The first entry carrying the name is the one found. */
  lemma {:induction false} FindFirst(entries: seq<(string, UdsVar)>, name: string, i: int)
    requires FirstMatch(entries, name, i)
    ensures Find(entries, name) == Some(entries[i].1)
  {
    if i > 0 {
      assert entries[0].0 != name;
      assert FirstMatch(entries[1..], name, i - 1);
      FindFirst(entries[1..], name, i - 1);
    }
  }

  lemma CanSaAlias()
    ensures Lookup("can_sa") == Some(CanSa) && CanSa.pid == 0x0011 && CanSa.size == 1
  {
    var name := "can_sa";
    assert Catalog[0].0 != name;
    assert Catalog[1] == (name, CanSa);
    FindFirst(Catalog, name, 1);
    assert Lookup(name) == Find(Catalog, name);
  }

  lemma FingerprintAlias()
    ensures Lookup("fingerprint") == Some(Fingerprint) && Fingerprint.pid == 0x1500 && Fingerprint.size == 2
  {
    var name := "fingerprint";
    assert Catalog[0].0 != name;
    assert Catalog[1].0 != name;
    assert Catalog[2].0 != name;
    assert Catalog[3].0 != name;
    assert Catalog[4].0 != name;
    assert forall j :: 0 <= j < 5 ==> Catalog[j].0 != name;
    assert Catalog[5] == (name, Fingerprint);
    FindFirst(Catalog, name, 5);
    assert Lookup(name) == Find(Catalog, name);
  }

  // ------------------------------------------------------- index accessors

  /** The result of a Python call that either returns or raises. */
  datatype Outcome<T> = Returned(value: T) | Raised

  /** `get_var` as written: the guard rejects index > len and index < 0,
      so index == len reaches the list subscript and raises IndexError. */
  function GetVarAsWritten(index: int): (r: Outcome<Option<UdsVar>>)
    ensures r.Raised? <==> index == |Catalog|
  {
    if index > |Catalog| || index < 0 then Returned(None)
    else if index < |Catalog| then Returned(Some(Vars()[index]))
    else Raised
  }

  /** `get_pid` as written, with the same guard. */
  function GetPidAsWritten(index: int): (r: Outcome<Option<nat>>)
    ensures r.Raised? <==> index == |Catalog|
  {
    match GetVarAsWritten(index)
    case Raised => Raised
    case Returned(v) => Returned(if v.Some? then Some(v.value.pid) else None)
  }

  /** The guard's evident intent: every index outside the catalogue gives
      None. */
  function GetVar(index: int): (r: Option<UdsVar>)
    ensures r.Some? <==> 0 <= index < |Catalog|
    ensures r.Some? ==> r.value == Catalog[index].1
  {
    if 0 <= index < |Catalog| then Some(Vars()[index]) else None
  }

  function GetPid(index: int): (r: Option<nat>)
    ensures r.Some? <==> 0 <= index < |Catalog|
    ensures r.Some? ==> r.value == Catalog[index].1.pid
  {
    if 0 <= index < |Catalog| then Some(Vars()[index].pid) else None
  }

  /** The off-by-one: the index one past the last entry raises. */
  lemma GetVarOffByOne()
    ensures GetVarAsWritten(30) == Raised
    ensures GetPidAsWritten(30) == Raised
    ensures GetVar(30) == None && GetPid(30) == None
  {
  }

  /** Everywhere else the code as written and the corrected accessors agree. */
  lemma GetVarAgrees(index: int)
    requires index != |Catalog|
    ensures GetVarAsWritten(index) == Returned(GetVar(index))
    ensures GetPidAsWritten(index) == Returned(GetPid(index))
  {
  }

  /** `descriptions()`: one text per entry, in catalogue order. */
  function Descriptions(): (r: seq<string>)
    ensures |r| == |Catalog|
    ensures forall i :: 0 <= i < |r| ==> r[i] == Catalog[i].1.description
  {
    seq(|Catalog|, i requires 0 <= i < |Catalog| => Vars()[i].description)
  }
}

=== FILE: ecu_reset.dfy ===
/** ECUReset (service 0x11, section 9.3 of ISO 14229-1): a plain software
    reset (type 3) or the supplier-specific UDS software reset (type 0x60)
    that returns the ECU to its bootloader. */
module EcuReset {
  import opened Common
  import opened IsoTp

  const Sid: int := 0x11

  datatype ResetType = NoReset | HardReset | KeyOffOnReset | SoftReset | UdsSoftReset

  /** The reset type byte; 0x60 is in the system-supplier range 0x60..0x7E. */
  function Code(t: ResetType): (c: int)
    ensures 0 <= c <= 0x7E
    ensures t == UdsSoftReset <==> 0x60 <= c <= 0x7E
  {
    match t
    case NoReset => 0x00
    case HardReset => 0x01
    case KeyOffOnReset => 0x02
    case SoftReset => 0x03
    case UdsSoftReset => 0x60
  }

  /** The single frame [0x11, type], 0xFF padded. */
  function Request(t: ResetType): (f: seq<int>)
    ensures IsSingleFrame(f) && PaddedWith(f, Pad) && SfPayload(f) == [Sid, Code(t)]
  {
    var f := [0x02, Sid, Code(t), 0xFF, 0xFF, 0xFF, 0xFF, 0xFF];
    assert f[1..f[0] + 1] == [Sid, Code(t)];
    f
  }

  /** `ecu_uds_reset`. */
  function UdsResetRequest(): (f: seq<int>)
    ensures f == Request(UdsSoftReset) && SfPayload(f) == [0x11, 0x60]
  {
    [0x02, Sid, 0x60, 0xFF, 0xFF, 0xFF, 0xFF, 0xFF]
  }

  /** `ecu_software_reset`. */
  function SoftwareResetRequest(): (f: seq<int>)
    ensures f == Request(SoftReset) && SfPayload(f) == [0x11, 0x03]
  {
    [0x02, Sid, 0x03, 0xFF, 0xFF, 0xFF, 0xFF, 0xFF]
  }

  /** The common shape of both verifiers: a positive response (0x51)
      naming the reset type. Byte 0 is read and ignored. */
  function VerifyReset(t: ResetType, data: Frame): (ok: bool)
    requires |data| >= 3
    ensures ok <==> (data[1] == Sid + 0x40 && data[2] == Code(t))
  {
    data[1] == 0x51 && data[2] == Code(t)
  }

  /** `verify_ecu_uds_reset`. */
  function VerifyUdsReset(data: Frame): (ok: bool)
    requires |data| >= 3
    ensures ok <==> (data[1] == 0x51 && data[2] == 0x60)
  {
    VerifyReset(UdsSoftReset, data)
  }

  /** `verify_ecu_software_reset`. */
  function VerifySoftwareReset(data: Frame): (ok: bool)
    requires |data| >= 3
    ensures ok <==> (data[1] == 0x51 && data[2] == 0x03)
  {
    VerifyReset(SoftReset, data)
  }

  // ---------------------------------------------------------------- lemmas

  /** Distinct reset types have distinct codes, so no response confirms two
      kinds of reset. */
  lemma CodeInjective(a: ResetType, b: ResetType)
    ensures Code(a) == Code(b) <==> a == b
  {
  }

  lemma VerifiersExclusive(data: Frame)
    requires |data| >= 3
    ensures !(VerifyUdsReset(data) && VerifySoftwareReset(data))
  {
  }

  /** The positive response that echoes a request's type byte confirms it. */
  lemma ResetEchoAccepted(t: ResetType, data: Frame)
    requires |data| >= 3 && data[1] == 0x51 && data[2] == Request(t)[2]
    ensures VerifyReset(t, data)
  {
  }
}

=== FILE: isotp.dfy ===
/** The ISO-TP framing of section 9.6 of ISO 15765-2 as the tool uses it:
    an eight-byte frame whose first byte carries the protocol control
    information (PCI). The high nibble is the frame type: 0 single frame,
    1 first frame, 2 consecutive frame, 3 flow control. */
module IsoTp {
  import opened Common

  /** The frame type in the high nibble of the PCI byte: `b >> 4 & 0x0F`. */
  function FrameType(b: int): (t: int)
    ensures 0 <= t < 16
    ensures 0 <= b < 256 ==> t == b / 16
  {
    (b / 16) % 16
  }

  const SingleFrameType: int := 0
  const FirstFrameType: int := 1
  const ConsecutiveFrameType: int := 2
  const FlowControlType: int := 3

  /** An eight-byte single frame: the PCI byte is the payload length. */
  predicate IsSingleFrame(f: seq<int>) {
    |f| == 8 && 1 <= f[0] <= 7
  }

  /** The payload a receiver reads from a single frame. */
  function SfPayload(f: seq<int>): seq<int>
    requires IsSingleFrame(f)
  {
    f[1..f[0] + 1]
  }

  /** Every byte after the payload is b. */
  predicate PaddedWith(f: seq<int>, b: int)
    requires IsSingleFrame(f)
  {
    forall i :: f[0] + 1 <= i < 8 ==> f[i] == b
  }

  /** A single frame carrying the payload, filled with the pad byte. */
  function SingleFrame(payload: seq<int>, pad: int): (f: seq<int>)
    requires 1 <= |payload| <= 7
    ensures IsSingleFrame(f) && SfPayload(f) == payload && PaddedWith(f, pad)
  {
    var f := [|payload|] + payload + Fill(pad, 7 - |payload|);
    assert f[1..f[0] + 1] == payload;
    f
  }

  function Fill(b: int, n: nat): (r: seq<int>)
    ensures |r| == n && forall i :: 0 <= i < n ==> r[i] == b
  {
    if n == 0 then [] else [b] + Fill(b, n - 1)
  }

  /** The PCI byte of a frame is decoded as the frame's length and nothing
      else: two single frames with the same payload and pad are equal. */
  lemma SingleFrameUnique(f: seq<int>, g: seq<int>, b: int)
    requires IsSingleFrame(f) && IsSingleFrame(g) && PaddedWith(f, b) && PaddedWith(g, b)
    requires SfPayload(f) == SfPayload(g)
    ensures f == g
  {
    assert f[0] == |SfPayload(f)| == g[0];
    forall i | 0 <= i < 8 ensures f[i] == g[i] {
      if 1 <= i <= f[0] {
        assert f[i] == SfPayload(f)[i - 1];
        assert g[i] == SfPayload(g)[i - 1];
      }
    }
  }
}

=== FILE: numerals.dfy ===
/** Python's `int(text, base)` for bases 2, 10 and 16, and its inverses
    `bin`, `hex` and `str` on integers. Underscore separators and
    non-ASCII digits are outside this model. */
module Numerals {
  import opened Common
  import Bits

  /** The value of a digit character in any base up to 16, either case. */
  function DigitValue(c: char): (r: Option<nat>)
    ensures r.Some? ==> r.value < 16
  {
    if '0' <= c <= '9' then Some(c as int - '0' as int)
    else if 'a' <= c <= 'f' then Some(c as int - 'a' as int + 10)
    else if 'A' <= c <= 'F' then Some(c as int - 'A' as int + 10)
    else None
  }

  /** The lower-case digit Python prints for d. */
  function DigitChar(d: nat): (c: char)
    requires d < 16
    ensures DigitValue(c) == Some(d)
    ensures !IsSpace(c) && c != '-' && c != '+'
  {
    if d < 10 then ('0' as int + d) as char else ('a' as int + d - 10) as char
  }

  predicate IsDigit(c: char, base: nat) {
    DigitValue(c).Some? && DigitValue(c).value < base
  }

  /** A digit is neither whitespace nor a sign. */
  lemma DigitNotSpace(c: char, base: nat)
    requires IsDigit(c, base)
    ensures !IsSpace(c) && c != '-' && c != '+'
  {
  }

  predicate AllDigits(s: string, base: nat) {
    forall i :: 0 <= i < |s| ==> IsDigit(s[i], base)
  }

  /** The number a digit string denotes, most significant digit first. */
  function DigitsValue(s: string, base: nat): nat
    requires AllDigits(s, base)
  {
    if |s| == 0 then 0
    else DigitsValue(s[..|s| - 1], base) * base + DigitValue(s[|s| - 1]).value
  }

  /** A non-empty run of digits of the base, or nothing. */
  function ParseDigits(s: string, base: nat): (r: Option<nat>)
    ensures r.Some? <==> |s| > 0 && AllDigits(s, base)
  {
    if |s| > 0 && AllDigits(s, base) then Some(DigitsValue(s, base)) else None
  }

  /** The shortest digit string of n in the base (no leading zero). */
  function FormatDigits(n: nat, base: nat): (r: string)
    requires 2 <= base <= 16
    ensures |r| > 0 && AllDigits(r, base)
    ensures |r| > 1 ==> r[0] != '0'
    ensures forall i :: 0 <= i < |r| ==> !IsSpace(r[i]) && r[i] != '-' && r[i] != '+'
    decreases n
  {
    if n < base then [DigitChar(n)]
    else
      DivFacts(n, base);
      FormatDigits(n / base, base) + [DigitChar(n % base)]
  }

  /** Quotient and remainder by a base of at least 2. */
  lemma DivFacts(n: nat, base: nat)
    requires 2 <= base <= n
    ensures 1 <= n / base < n && 0 <= n % base < base
    ensures n == (n / base) * base + n % base
  {
    var q, r := n / base, n % base;
    assert n == base * q + r && 0 <= r < base;
    Bits.MulLeq(q, 2, base);
  }

  /** Printing then reading a natural number gives it back. */
  lemma {:induction false} FormatParse(n: nat, base: nat)
    requires 2 <= base <= 16
    ensures ParseDigits(FormatDigits(n, base), base) == Some(n)
    decreases n
  {
    var r := FormatDigits(n, base);
    if n >= base {
      DivFacts(n, base);
      var hi := FormatDigits(n / base, base);
      assert r == hi + [DigitChar(n % base)];
      assert r[..|r| - 1] == hi;
      assert DigitValue(r[|r| - 1]) == Some(n % base);
      FormatParse(n / base, base);
      assert DigitsValue(r, base) == DigitsValue(hi, base) * base + n % base;
    } else {
      assert r == [DigitChar(n)];
      assert r[..0] == [];
      assert DigitsValue(r, base) == DigitsValue([], base) * base + n;
    }
  }

  // ------------------------------------------------- fixed-width hexadecimal

  /** The upper-case digit the `X` format prints for d. */
  function UpperDigitChar(d: nat): (c: char)
    requires d < 16
    ensures DigitValue(c) == Some(d)
  {
    if d < 10 then ('0' as int + d) as char else ('A' as int + d - 10) as char
  }

  function Pow16(w: nat): (p: nat)
    ensures p >= 1
  {
    if w == 0 then 1 else 16 * Pow16(w - 1)
  }

  lemma Pow16Values()
    ensures Pow16(2) == 0x100 && Pow16(4) == 0x1_0000
  {
    assert Pow16(1) == 16;
    assert Pow16(3) == 0x1000;
  }

  /** The format `{n:0wX}` for n below 16^w: exactly w upper-case
      hexadecimal digits, zero-padded on the left. */
  function PaddedHex(n: nat, w: nat): (r: string)
    requires n < Pow16(w)
    ensures |r| == w && AllDigits(r, 16)
  {
    if w == 0 then []
    else
      assert n / 16 < Pow16(w - 1);
      var d := UpperDigitChar(n % 16);
      assert IsDigit(d, 16);
      PaddedHex(n / 16, w - 1) + [d]
  }

  /** The padded digits denote the number. */
  lemma {:induction false} PaddedHexValue(n: nat, w: nat)
    requires n < Pow16(w)
    ensures DigitsValue(PaddedHex(n, w), 16) == n
  {
    if w > 0 {
      var r := PaddedHex(n, w);
      assert r[..w - 1] == PaddedHex(n / 16, w - 1);
      PaddedHexValue(n / 16, w - 1);
      assert n == 16 * (n / 16) + n % 16;
    }
  }

  // ------------------------------------------------------------ int(text)

  /** Python's base prefix accepted by int(text, base): "0x"/"0X" for 16
      and "0b"/"0B" for 2; base 10 has none. */
  predicate HasPrefix(u: string, base: nat) {
    |u| >= 2 && u[0] == '0' &&
    ((base == 16 && (u[1] == 'x' || u[1] == 'X')) || (base == 2 && (u[1] == 'b' || u[1] == 'B')))
  }

  predicate ValidBase(base: nat) {
    base == 2 || base == 10 || base == 16
  }

  /** int(text, base): surrounding whitespace, an optional sign, the
      optional prefix of the base, then at least one digit of the base.
      None stands for the ValueError Python raises otherwise. */
  function PyInt(text: string, base: nat): (r: Option<int>)
    requires ValidBase(base)
  {
    ParseSigned(Strip(text), base)
  }

  /** int() on text with no surrounding whitespace. */
  function ParseSigned(t: string, base: nat): (r: Option<int>)
    requires ValidBase(base)
  {
    var neg := |t| > 0 && t[0] == '-';
    var u := if |t| > 0 && (t[0] == '-' || t[0] == '+') then t[1..] else t;
    var digits := if HasPrefix(u, base) then u[2..] else u;
    match ParseDigits(digits, base)
    case None => None
    case Some(n) =>
      var m: int := n;
      var value := if neg then -m else m;
      Some(value)
  }

  /** An unsigned run of digits without a base prefix reads as its value. */
  lemma ParseSignedDigits(d: string, base: nat)
    requires ValidBase(base) && |d| > 0 && AllDigits(d, base)
    requires d[0] != '-' && d[0] != '+' && !HasPrefix(d, base)
    ensures ParseSigned(d, base) == Some(DigitsValue(d, base) as int)
  {
  }

  /** Text that starts and ends with a non-space character is read as is. */
  lemma PyIntUnstripped(t: string, base: nat)
    requires ValidBase(base)
    requires |t| > 0 && !IsSpace(t[0]) && !IsSpace(t[|t| - 1])
    ensures PyInt(t, base) == ParseSigned(t, base)
  {
    StripNoop(t);
  }

  /** The prefix `bin` and `hex` print; `str` prints none. */
  function PrefixOf(base: nat): string {
    if base == 2 then "0b" else if base == 16 then "0x" else ""
  }

  /** bin(v), hex(v) and str(v): a minus sign for negative values, then
      the prefix, then the digits of |v| in lower case. */
  function PyFormat(base: nat, v: int): (r: string)
    requires ValidBase(base)
    ensures |r| > 0
  {
    var body := Unsigned(base, if v < 0 then -v else v);
    if v < 0 then "-" + body else body
  }

  /** The unsigned text `bin`, `hex` or `str` print for m. */
  function Unsigned(base: nat, m: nat): (r: string)
    requires ValidBase(base)
    ensures |r| > 0 && !IsSpace(r[0]) && !IsSpace(r[|r| - 1]) && r[0] != '-' && r[0] != '+'
  {
    var d := FormatDigits(m, base);
    var r := PrefixOf(base) + d;
    assert r[|r| - 1] == d[|d| - 1];
    assert base == 10 ==> r[0] == d[0];
    r
  }

  /** Reading what `bin`, `hex` or `str` print for a natural number. */
  lemma ParseUnsigned(base: nat, m: nat)
    requires ValidBase(base)
    ensures ParseSigned(Unsigned(base, m), base) == Some(m)
  {
    var d := FormatDigits(m, base);
    var body := Unsigned(base, m);
    FormatParse(m, base);
    if base == 10 {
      assert body == d;
      assert !HasPrefix(body, base);
    } else {
      assert HasPrefix(body, base);
      assert body[2..] == d;
    }
  }

  /** After the prefix of base 2 or 16 only digits of the base may
      follow. */
  lemma ParsePrefixed(base: nat, d: string)
    requires base == 2 || base == 16
    ensures ParseSigned(PrefixOf(base) + d, base) == ParseDigits(d, base)
  {
    var t := PrefixOf(base) + d;
    assert t[0] == '0' && t[1] == PrefixOf(base)[1];
    assert HasPrefix(t, base) && t[2..] == d;
  }

  /** A minus sign in front negates what the rest reads as. */
  lemma ParseNegated(base: nat, body: string)
    requires ValidBase(base) && |body| > 0 && body[0] != '-' && body[0] != '+'
    ensures ParseSigned("-" + body, base) == match ParseSigned(body, base)
      case Some(n) => Some(0 - n) case None => None
  {
    var t := "-" + body;
    assert t[0] == '-' && t[1..] == body;
  }

  /** Printing then reading an integer in the same base gives it back,
      for every sign: int(hex(v), 16) == v, int(bin(v), 2) == v and
      int(str(v)) == v. */
  lemma PyFormatParse(base: nat, v: int)
    requires ValidBase(base)
    ensures PyInt(PyFormat(base, v), base) == Some(v)
  {
    var m := if v < 0 then -v else v;
    var s := PyFormat(base, v);
    assert s == if v < 0 then "-" + Unsigned(base, m) else Unsigned(base, m);
    assert s[|s| - 1] == Unsigned(base, m)[|Unsigned(base, m)| - 1];
    PyIntUnstripped(s, base);
    ParseUnsigned(base, m);
    if v < 0 {
      ParseNegated(base, Unsigned(base, m));
    }
  }
}

=== FILE: pid_field.dfy ===
/** The two-byte data identifier (DID, called PID in the tool) inside
    ReadDataByIdentifier and WriteDataByIdentifier frames, bytes 2 and 3,
    in the configured byte order. */
module PidField {
  import opened Common
  import ByteCodec
  import Bits

  /** `_pid_to_bytes`: the low byte `pid & 0xFF` and the high byte
      `(pid >> 8) & 0xFF`, high first for big-endian, low first for
      little-endian. */
  function PidToBytes(order: ByteOrder, pid: nat): (b: (int, int))
    ensures 0 <= b.0 < 256 && 0 <= b.1 < 256
    ensures order == Little ==> [b.0, b.1] == ByteCodec.LeBytes(pid, 2)
    ensures order == Big ==> [b.0, b.1] == ByteCodec.Reverse(ByteCodec.LeBytes(pid, 2))
  {
    var lo, hi := pid % 256, (pid / 256) % 256;
    if order == Little then (lo, hi) else (hi, lo)
  }

  /** `_parse_pid_field`: bytes 2 and 3 joined in the configured order. */
  function ParsePidField(order: ByteOrder, data: Frame): (pid: nat)
    requires |data| >= 4
    ensures pid < 0x1_0000
    ensures order == Big ==> pid == ByteCodec.BeValue(data[2..4])
    ensures order == Little ==> pid == ByteCodec.LeValue(data[2..4])
  {
    ByteCodec.BeValue2(data[2], data[3]);
    assert data[2..4] == [data[2], data[3]];
    if order == Little then ByteCodec.Join16(data[3], data[2]) else ByteCodec.Join16(data[2], data[3])
  }

  /** A response that echoes the two DID bytes of a request in the same
      order reads back as the DID, reduced to 16 bits. */
  lemma PidRoundTrip(order: ByteOrder, pid: nat, data: Frame)
    requires |data| >= 4
    requires (data[2], data[3]) == PidToBytes(order, pid)
    ensures ParsePidField(order, data) == pid % 0x1_0000
  {
    ByteCodec.ModSplit(pid, 256);
  }

  /** Reading is one-to-one on the DID bytes: two responses read as the
      same DID exactly when bytes 2 and 3 agree. */
  lemma ParsePidInjective(order: ByteOrder, a: Frame, b: Frame)
    requires |a| >= 4 && |b| >= 4
    ensures ParsePidField(order, a) == ParsePidField(order, b) <==> a[2] == b[2] && a[3] == b[3]
  {
    if ParsePidField(order, a) == ParsePidField(order, b) {
      var x, y := ParsePidField(order, a), ParsePidField(order, b);
      if order == Little {
        Bits.DivModUnique(x, 256, a[3], a[2]);
        Bits.DivModUnique(y, 256, b[3], b[2]);
      } else {
        Bits.DivModUnique(x, 256, a[2], a[3]);
        Bits.DivModUnique(y, 256, b[2], b[3]);
      }
    }
  }

  /** A response carries a given DID exactly when the DID fits 16 bits and
      bytes 2 and 3 are the bytes a request for it carries. */
  lemma PidMatches(order: ByteOrder, pid: nat, data: Frame)
    requires |data| >= 4
    ensures ParsePidField(order, data) == pid <==>
      pid < 0x1_0000 && (data[2], data[3]) == PidToBytes(order, pid)
  {
    var b := PidToBytes(order, pid);
    if ParsePidField(order, data) == pid {
      var echo: Frame := [0, 0, b.0, b.1];
      PidRoundTrip(order, pid, echo);
      Bits.DivModUnique(pid, 0x1_0000, 0, pid);
      ParsePidInjective(order, data, echo);
    }
    if pid < 0x1_0000 && (data[2], data[3]) == b {
      PidRoundTrip(order, pid, data);
      Bits.DivModUnique(pid, 0x1_0000, 0, pid);
    }
  }
}

=== FILE: read_data_by_id.dfy ===
/** ReadDataByIdentifier (service 0x22, section 10.2 of ISO 14229-1):
    request a DID, match the positive response against the DID requested
    last, and read the data record that follows the DID, low byte first. */
module ReadDataById {
  import opened Common
  import opened IsoTp
  import opened PidField
  import ByteCodec
  import Bits
  import DataIdentifiers

  const Sid: int := 0x22

  /** The positive response identifier, `success_sid`. */
  const SuccessSid: int := Sid + 0x40

  /** The DID requested last, and the DID byte order. */
  datatype ReadService = ReadService(pidRequest: nat, order: ByteOrder)

  const Initial: ReadService := ReadService(0, Big)

  /** `set_byte_order`. */
  function SetByteOrder(svc: ReadService, text: string): (r: ReadService)
    ensures r.pidRequest == svc.pidRequest
    ensures r.order == Little <==> Lower(Strip(text)) == "little"
  {
    svc.(order := ParseByteOrder(text))
  }

  /** `read_data` and `read_data_by_identifier` (which differ only in the
      CAN identifier they send on): store the DID and send the three-byte
      single frame [0x22, DID], padded with 0xFF. */
  function ReadData(svc: ReadService, v: DataIdentifiers.UdsVar): (r: (ReadService, seq<int>))
    ensures r.0 == svc.(pidRequest := v.pid)
    ensures IsSingleFrame(r.1) && PaddedWith(r.1, Pad)
    ensures var b := PidToBytes(svc.order, v.pid); SfPayload(r.1) == [Sid, b.0, b.1]
  {
    var b := PidToBytes(svc.order, v.pid);
    var f := [0x03, Sid, b.0, b.1, 0xFF, 0xFF, 0xFF, 0xFF];
    assert f[1..f[0] + 1] == [Sid, b.0, b.1];
    (svc.(pidRequest := v.pid), f)
  }

  /** `verify_answer_read_data`: a positive response (0x62) naming the DID
      requested last; a DID wider than 16 bits is never found. */
  function VerifyReadData(svc: ReadService, data: Frame): (ok: bool)
    requires |data| >= 4
    ensures ok <==> (data[1] == SuccessSid && svc.pidRequest < 0x1_0000 &&
                     (data[2], data[3]) == PidToBytes(svc.order, svc.pidRequest))
  {
    PidMatches(svc.order, svc.pidRequest, data);
    data[1] == SuccessSid && ParsePidField(svc.order, data) == svc.pidRequest
  }

  /** `parse_data_field`: the single-frame length byte minus the three
      bytes of SID and DID gives the record length; the record starts at
      byte 4 and is joined low byte first, `result |= data[4 + i] << 8i`.
      A length of three or less reads as 0. */
  method ParseDataField(data: Frame) returns (result: nat)
    requires |data| >= 1 && (data[0] > 3 ==> |data| > data[0])
    ensures data[0] <= 3 ==> result == 0
    ensures data[0] > 3 ==> result == ByteCodec.LeValue(data[4..data[0] + 1])
    ensures data[0] > 3 ==> result < ByteCodec.Pow256(data[0] - 3)
  {
    var dataLength: int := data[0];
    if dataLength <= 3 {
      return 0;
    }
    dataLength := dataLength - 3;
    result := 0;
    var shift: nat := 0;
    var i: nat := 0;
    while i < dataLength
      invariant 0 <= i <= dataLength
      invariant shift == 8 * i
      invariant result == ByteCodec.LeValue(data[4..4 + i])
      invariant result < ByteCodec.Pow256(i)
    {
      var index := 4 + i;
      AppendByte(data[4..4 + i], data[index], result, shift);
      assert data[4..4 + i + 1] == data[4..4 + i] + [data[index]];
      result := Bits.Or(result, Bits.Shl(data[index], shift));
      shift := shift + 8;
      i := i + 1;
    }
  }

  /** One step of the record loop: or-ing the next byte in above the bytes
      read so far appends it at the most significant end. */
  lemma AppendByte(s: seq<int>, b: Byte, acc: nat, shift: nat)
    requires shift == 8 * |s| && acc == ByteCodec.LeValue(s) && acc < ByteCodec.Pow256(|s|)
    ensures Bits.Or(acc, Bits.Shl(b, shift)) == ByteCodec.LeValue(s + [b])
    ensures ByteCodec.LeValue(s + [b]) < ByteCodec.Pow256(|s| + 1)
  {
    ByteCodec.Pow2Pow256(|s|);
    Bits.OrComm(acc, Bits.Shl(b, shift));
    Bits.OrDisjoint(b, shift, acc);
    Bits.ShlIsMul(b, shift);
    ByteCodec.LeValueAppend(s, b);
    Bits.MulLeq(ByteCodec.Pow256(|s|), b, 255);
  }

  // ---------------------------------------------------------------- lemmas

  /** A request and the response that echoes its DID bytes match exactly
      when the DID fits 16 bits. */
  lemma ReadEchoAccepted(svc: ReadService, v: DataIdentifiers.UdsVar, data: Frame)
    requires |data| >= 4 && data[1] == 0x62
    requires data[2..4] == ReadData(svc, v).1[2..4]
    ensures VerifyReadData(ReadData(svc, v).0, data) <==> v.pid < 0x1_0000
  {
    var f := ReadData(svc, v).1;
    assert data[2] == f[2] && data[3] == f[3];
  }
}

=== FILE: request_download.dfy ===
/** RequestDownload (service 0x34, section 14.2 of ISO 14229-1): announce
    the memory area the firmware goes to. The eleven-byte request is longer
    than a single frame, so it goes out as an ISO-TP first frame, waits for
    flow control, then one consecutive frame. Address and length are four
    bytes each (format 0x44) in the configured byte order. */
module RequestDownload {
  import opened Common
  import opened IsoTp
  import ByteCodec
  import Bits

  const Sid: int := 0x34
  /** The ISO-TP message length: SID, format, address-and-length format,
      four address bytes, four length bytes. */
  const DataLength: int := 0x0B
  const DataFormatId: int := 0x00
  const AddrAndLenId: int := 0x44
  /** The application starts 30 KiB into flash at 0x08000000. */
  const MemoryAddr: int := 0x0800_0000 + 1024 * 30
  const MaxMemoryLength: int := 1024 * 80

  const U32: nat := 0x1_0000_0000

  datatype DownloadService = DownloadService(memoryLength: int, order: ByteOrder)

  const Initial: DownloadService := DownloadService(0, Big)

  /** `set_memory_length`: lengths above 80 KiB are cut to 80 KiB. */
  function SetMemoryLength(svc: DownloadService, n: int): (r: DownloadService)
    ensures r.order == svc.order
    ensures r.memoryLength <= MaxMemoryLength
    ensures n <= MaxMemoryLength ==> r.memoryLength == n
    ensures n > MaxMemoryLength ==> r.memoryLength == MaxMemoryLength
  {
    if n > MaxMemoryLength then svc.(memoryLength := MaxMemoryLength)
    else svc.(memoryLength := n)
  }

  /** `set_byte_order`. */
  function SetByteOrder(svc: DownloadService, text: string): (r: DownloadService)
    ensures r.memoryLength == svc.memoryLength
    ensures r.order == Little <==> Lower(Strip(text)) == "little"
  {
    svc.(order := ParseByteOrder(text))
  }

  /** `_u32_to_bytes`: the value reduced to 32 bits (`& 0xFFFFFFFF`, which
      for a negative value is the two's-complement word), then its four
      bytes, least significant first for little-endian, most significant
      first otherwise. */
  function U32ToBytes(order: ByteOrder, v: int): (r: seq<int>)
    ensures |r| == 4 && ByteCodec.IsBytes(r)
    ensures order == Little ==> r == ByteCodec.LeBytes(v % U32, 4)
    ensures order == Big ==> r == ByteCodec.Reverse(ByteCodec.LeBytes(v % U32, 4))
  {
    var w := v % U32;
    LeBytes4(w);
    var le := [w % 256, (w / 0x100) % 256, (w / 0x1_0000) % 256, (w / 0x100_0000) % 256];
    if order == Little then le else [le[3], le[2], le[1], le[0]]
  }

  /** The four bytes of a word, written with one division each. */
  lemma LeBytes4(w: int)
    ensures ByteCodec.LeBytes(w, 4) ==
      [w % 256, (w / 0x100) % 256, (w / 0x1_0000) % 256, (w / 0x100_0000) % 256]
  {
    Bits.DivDiv(w, 0x100, 0x100);
    Bits.DivDiv(w / 0x100, 0x100, 0x100);
    Bits.DivDiv(w, 0x100, 0x1_0000);
    Bits.DivDiv(w / 0x1_0000, 0x100, 0x1);
    assert ByteCodec.LeBytes(w, 4) == [w % 256] + ByteCodec.LeBytes(w / 0x100, 3);
    assert ByteCodec.LeBytes(w / 0x100, 3) == [(w / 0x100) % 256] + ByteCodec.LeBytes(w / 0x100 / 0x100, 2);
    assert ByteCodec.LeBytes(w / 0x100 / 0x100, 2) ==
      [(w / 0x1_0000) % 256] + ByteCodec.LeBytes(w / 0x1_0000 / 0x100, 1);
  }

  /** The four bytes read back, in the same order, as the value modulo 2^32. */
  lemma U32RoundTrip(order: ByteOrder, v: int)
    ensures order == Little ==> ByteCodec.LeValue(U32ToBytes(order, v)) == v % U32
    ensures order == Big ==> ByteCodec.BeValue(U32ToBytes(order, v)) == v % U32
  {
    var le := ByteCodec.LeBytes(v % U32, 4);
    ByteCodec.LeBytesValue(v % U32, 4);
    assert ByteCodec.Pow256(4) == U32;
    Bits.DivModUnique(v % U32, U32, 0, v % U32);
    if order == Big {
      ByteCodec.BeIsReversedLe(ByteCodec.Reverse(le));
      ByteCodec.ReverseReverse(le);
    }
  }

  /** `verify_flow_control`: the frame type nibble of byte 0 is 3. */
  function VerifyFlowControl(data: Frame): (ok: bool)
    requires |data| >= 1
    ensures ok <==> 0x30 <= data[0] <= 0x3F
  {
    FrameType(data[0]) == FlowControlType
  }

  /** `request_download_first`: a first frame announcing eleven bytes and
      carrying the first six: SID, format, 0x44 and three address bytes. */
  function FirstFrame(svc: DownloadService): (f: seq<int>)
    ensures |f| == 8 && FrameType(f[0]) == FirstFrameType
    ensures 256 * (f[0] % 16) + f[1] == DataLength
    ensures f[2..] == [Sid, DataFormatId, AddrAndLenId] + U32ToBytes(svc.order, MemoryAddr)[..3]
  {
    LeadingFrame(U32ToBytes(svc.order, MemoryAddr))
  }

  /** The first frame for address bytes a. */
  function LeadingFrame(a: seq<int>): (f: seq<int>)
    requires |a| == 4
    ensures |f| == 8 && FrameType(f[0]) == FirstFrameType
    ensures 256 * (f[0] % 16) + f[1] == DataLength
    ensures f[2..] == [Sid, DataFormatId, AddrAndLenId] + a[..3]
  {
    [0x10, DataLength, Sid, DataFormatId, AddrAndLenId, a[0], a[1], a[2]]
  }

  /** `request_download_consecutive`: consecutive frame 1 with the last
      address byte and the four length bytes, then two pad bytes. */
  function ConsecutiveFrame(svc: DownloadService): (f: seq<int>)
    ensures |f| == 8 && FrameType(f[0]) == ConsecutiveFrameType && f[0] % 16 == 1
    ensures f[1..6] == U32ToBytes(svc.order, MemoryAddr)[3..] + U32ToBytes(svc.order, svc.memoryLength)
    ensures f[2..6] == U32ToBytes(svc.order, svc.memoryLength)
    ensures f[6..] == [Pad, Pad]
  {
    SecondFrame(U32ToBytes(svc.order, MemoryAddr), U32ToBytes(svc.order, svc.memoryLength))
  }

  /** Consecutive frame 1 for address bytes a and length bytes l. */
  function SecondFrame(a: seq<int>, l: seq<int>): (f: seq<int>)
    requires |a| == 4 && |l| == 4
    ensures |f| == 8 && FrameType(f[0]) == ConsecutiveFrameType && f[0] % 16 == 1
    ensures f[1..6] == a[3..] + l && f[2..6] == l
    ensures f[6..] == [Pad, Pad]
  {
    var f := [0x21, a[3], l[0], l[1], l[2], l[3], 0xFF, 0xFF];
    assert f[1..6] == [a[3]] + l;
    assert a[3..] == [a[3]];
    f
  }

  /** `verify_request_download`: byte 1 is the positive response 0x74. */
  function VerifyRequestDownload(data: Frame): (ok: bool)
    requires |data| >= 2
    ensures ok <==> data[1] == Sid + 0x40
  {
    data[1] == 0x74
  }

  // ---------------------------------------------------------------- lemmas

  /** The two frames reassemble into the announced eleven-byte request:
      SID, format, 0x44, address, length. */
  lemma RequestReassembles(svc: DownloadService)
    ensures var msg := FirstFrame(svc)[2..] + ConsecutiveFrame(svc)[1..6];
      |msg| == DataLength &&
      msg == [Sid, DataFormatId, AddrAndLenId] + U32ToBytes(svc.order, MemoryAddr) +
             U32ToBytes(svc.order, svc.memoryLength)
  {
    Reassemble(U32ToBytes(svc.order, MemoryAddr), U32ToBytes(svc.order, svc.memoryLength));
  }

  lemma Reassemble(a: seq<int>, l: seq<int>)
    requires |a| == 4 && |l| == 4
    ensures LeadingFrame(a)[2..] + SecondFrame(a, l)[1..6] ==
      [Sid, DataFormatId, AddrAndLenId] + a + l
  {
    assert a == a[..3] + a[3..];
  }

  /** The address goes out as 08 00 78 00 big-endian and 00 78 00 08
      little-endian. */
  lemma AddressBytes()
    ensures U32ToBytes(Big, MemoryAddr) == [0x08, 0x00, 0x78, 0x00]
    ensures U32ToBytes(Little, MemoryAddr) == [0x00, 0x78, 0x00, 0x08]
  {
    var w := 0x0800_7800;
    assert MemoryAddr == w;
    Bits.DivModUnique(w, U32, 0, w);
    Bits.DivModUnique(w, 0x100, 0x08_0078, 0);
    Bits.DivModUnique(w, 0x1_0000, 0x0800, 0x7800);
    Bits.DivModUnique(w, 0x100_0000, 0x08, 0x7800);
    assert (w / 0x100) % 256 == 0x78 && (w / 0x1_0000) % 256 == 0 && (w / 0x100_0000) % 256 == 0x08;
  }

  /** A length set through `set_memory_length` from a file size travels
      exactly: the receiver reading the four length bytes in the same
      order gets it back. */
  lemma LengthRoundTrip(svc: DownloadService, n: nat)
    ensures var s := SetMemoryLength(svc, n);
      var len := ConsecutiveFrame(s)[2..6];
      (svc.order == Little ==> ByteCodec.LeValue(len) == s.memoryLength) &&
      (svc.order == Big ==> ByteCodec.BeValue(len) == s.memoryLength)
  {
    var s := SetMemoryLength(svc, n);
    var m := s.memoryLength;
    assert m % U32 == m by {
      Bits.DivModUnique(m, U32, 0, m);
    }
    U32RoundTrip(s.order, m);
  }
}

=== FILE: request_transfer_exit.dfy ===
/** RequestTransferExit (service 0x37, section 14.5 of ISO 14229-1): close
    the download. */
module RequestTransferExit {
  import opened Common
  import opened IsoTp

  const Sid: int := 0x37

  /** `request_transfer_exit`: the single frame [0x37], 0xFF padded. */
  function Request(): (f: seq<int>)
    ensures IsSingleFrame(f) && PaddedWith(f, Pad) && SfPayload(f) == [Sid]
  {
    var f := [0x01, Sid, 0xFF, 0xFF, 0xFF, 0xFF, 0xFF, 0xFF];
    assert f[1..f[0] + 1] == [Sid];
    f
  }

  /** `verify_answer_request_transfer_exit`: byte 1 is the positive
      response 0x77; byte 0 is read and ignored. */
  function Verify(data: Frame): (ok: bool)
    requires |data| >= 2
    ensures ok <==> data[1] == Sid + 0x40
  {
    data[1] == 0x77
  }

  /** Only byte 1 decides: responses that agree there get the same answer. */
  lemma VerifyReadsOnlySid(a: Frame, b: Frame)
    requires |a| >= 2 && |b| >= 2 && a[1] == b[1]
    ensures Verify(a) == Verify(b)
  {
  }

  /** The response check and the request agree: a response is accepted
      exactly when it carries the positive SID of the exit request. */
  lemma ExitEchoAccepted(data: Frame)
    requires |data| >= 2
    ensures Verify(data) <==> data[1] == SfPayload(Request())[0] + 0x40
  {
  }
}

=== FILE: routine_control.dfy ===
/** RoutineControl (service 0x31, section 13.2 of ISO 14229-1): start
    (sub-function 1) the erase-memory routine 0x00FF. The routine
    identifier travels low byte first. */
module RoutineControl {
  import opened Common
  import opened IsoTp
  import ByteCodec

  const Sid: int := 0x31
  const StartRoutine: int := 0x01
  const EraseMemory: int := 0x00FF

  /** `request_erase_firmware`: [0x31, 0x01, 0xFF, 0x00], 0xFF padded. */
  function RequestErase(): (f: seq<int>)
    ensures IsSingleFrame(f) && PaddedWith(f, Pad)
    ensures SfPayload(f) == [Sid, StartRoutine] + ByteCodec.LeBytes(EraseMemory, 2)
  {
    var f := [0x04, Sid, StartRoutine, EraseMemory % 256, EraseMemory / 256, 0xFF, 0xFF, 0xFF];
    assert f[1..f[0] + 1] == [Sid, StartRoutine, 0xFF, 0x00];
    f
  }

  /** `verify_answer_erase_firmware`: a positive response (0x71) to the
      start of routine `(data[4] << 8) | data[3]` == 0x00FF. */
  function VerifyErase(data: Frame): (ok: bool)
    requires |data| >= 5
    ensures ok <==> (data[1] == Sid + 0x40 && data[2] == StartRoutine &&
                     data[3] == 0xFF && data[4] == 0x00)
  {
    var idRoutine := ByteCodec.Join16(data[4], data[3]);
    data[1] == Sid + 0x40 && data[2] == StartRoutine && idRoutine == EraseMemory
  }

  /** The positive response that echoes the request's routine bytes is
      accepted. */
  lemma EraseEchoAccepted(data: Frame)
    requires |data| >= 5 && data[1] == 0x71 && data[2..5] == RequestErase()[2..5]
    ensures VerifyErase(data)
  {
    assert data[2] == RequestErase()[2] && data[3] == RequestErase()[3] && data[4] == RequestErase()[4];
  }
}

=== FILE: security_access.dfy ===
/** SecurityAccess (service 0x27, section 9.4 of ISO 14229-1): request a
    seed (sub-function 1), answer with a key computed from it
    (sub-function 2). The seed arrives low byte first; the key is sent
    high byte first. */
module SecurityAccess {
  import opened Common
  import opened IsoTp
  import ByteCodec

  const Sid: int := 0x27

  /** Seeds and keys are 16-bit words. */
  type Word16 = n: nat | n < 0x1_0000

  datatype SecurityService = SecurityService(seed: Word16, key: Word16, access: bool)

  const Initial: SecurityService := SecurityService(0, 0, false)

  /** `_calc_key`: (seed ^ 0xAA55) | seed, which sets exactly the bits of
      0xAA55 on top of the seed. */
  function CalcKey(seed: Word16): (k: Word16)
    ensures k as bv16 == KeyBits(seed as bv16)
  {
    KeyBits(seed as bv16) as nat
  }

  /** The key on 16-bit words. */
  function KeyBits(seed: bv16): (k: bv16)
    ensures k == seed | 0xAA55
    ensures k & 0xAA55 == 0xAA55 && k & seed == seed
  {
    (seed ^ 0xAA55) | seed
  }

  /** `request_seed`: a single frame [0x27, 0x01]. */
  function RequestSeed(): (f: seq<int>)
    ensures IsSingleFrame(f) && SfPayload(f) == [Sid, 0x01] && PaddedWith(f, Pad)
  {
    [0x02, 0x27, 0x01, 0xFF, 0xFF, 0xFF, 0xFF, 0xFF]
  }

  /** `request_check_key`: a single frame [0x27, 0x02, key >> 8, key & 0xFF]. */
  function RequestCheckKey(svc: SecurityService): (f: seq<int>)
    ensures IsSingleFrame(f) && PaddedWith(f, Pad)
    ensures SfPayload(f) == [Sid, 0x02] + ByteCodec.Reverse(ByteCodec.LeBytes(svc.key, 2))
    ensures ByteCodec.BeValue(SfPayload(f)[2..]) == svc.key
  {
    var f := [0x04, 0x27, 0x02, svc.key / 256, svc.key % 256, 0xFF, 0xFF, 0xFF];
    ByteCodec.BeValue2(svc.key / 256, svc.key % 256);
    assert SfPayload(f)[2..] == [svc.key / 256, svc.key % 256];
    var le := ByteCodec.LeBytes(svc.key, 2);
    assert le == [svc.key % 256, (svc.key / 256) % 256];
    f
  }

  /** `get_session`: a ReadDataByIdentifier of DID 0x0016, zero padded. */
  function GetSession(): (f: seq<int>)
    ensures IsSingleFrame(f) && SfPayload(f) == [0x22, 0x00, 0x16] && PaddedWith(f, 0)
  {
    [0x03, 0x22, 0x00, 0x16, 0x00, 0x00, 0x00, 0x00]
  }

  /** Whether a response is a positive seed response. */
  predicate SeedAccepted(data: Frame)
    requires |data| >= 3
  {
    data[1] == Sid + 0x40 && data[2] == 0x01
  }

  /** `verify_answer_request_seed`: on a positive response, the seed is
      bytes 3 (low) and 4 (high) and the key is recomputed; otherwise
      nothing changes. Bytes 3 and 4 are read only on acceptance. */
  function VerifySeed(svc: SecurityService, data: Frame): (r: (bool, SecurityService))
    requires |data| >= 3 && (SeedAccepted(data) ==> |data| >= 5)
    ensures r.0 <==> SeedAccepted(data)
    ensures r.0 ==> r.1.seed == 256 * (data[4] as int) + data[3] && r.1.key == CalcKey(r.1.seed)
    ensures r.0 ==> r.1.access == svc.access
    ensures !r.0 ==> r.1 == svc
  {
    if data[1] == 0x67 && data[2] == 0x01 then
      var seed := ByteCodec.Join16(data[4], data[3]);
      (true, svc.(seed := seed, key := CalcKey(seed)))
    else
      (false, svc)
  }

  /** `verify_answer_request_check_key`: access is granted iff the response
      is a positive key response, and the verdict is stored. */
  function VerifyCheckKey(svc: SecurityService, data: Frame): (r: (bool, SecurityService))
    requires |data| >= 3
    ensures r.0 <==> data[1] == Sid + 0x40 && data[2] == 0x02
    ensures r.1 == svc.(access := r.0)
  {
    var ok := data[1] == 0x67 && data[2] == 0x02;
    (ok, svc.(access := ok))
  }

  // ---------------------------------------------------------------- lemmas

  /** The byte order of the seed and the key differ: the seed byte that
      arrives first (the low byte) goes out second in the key frame. With
      seed bytes [0xFF, 0x00] the key frame carries [0xAA, 0xFF]. */
  lemma SeedAndKeyByteOrder()
    ensures var data: Frame := [0x04, 0x67, 0x01, 0xFF, 0x00];
      var svc := VerifySeed(Initial, data).1;
      svc.seed == 0x00FF && svc.key == 0xAAFF &&
      RequestCheckKey(svc)[3..5] == [0xAA, 0xFF]
  {
    var data: Frame := [0x04, 0x67, 0x01, 0xFF, 0x00];
    var svc := VerifySeed(Initial, data).1;
    assert svc.seed == 0x00FF;
    assert CalcKey(0x00FF) == 0xAAFF;
  }
}

=== FILE: session.dfy ===
/** DiagnosticSessionControl (service 0x10, section 9.2 of ISO 14229-1):
    ask the ECU to switch session, and accept its positive response
    (0x10 + 0x40 = 0x50). */
module Session {
  import opened Common
  import opened IsoTp

  const Sid: int := 0x10

  datatype SessionType = Default | Programming | Extended

  /** The session codes sent on the wire. */
  function Code(s: SessionType): (c: int)
    ensures 1 <= c <= 3
  {
    match s
    case Default => 1
    case Programming => 2
    case Extended => 3
  }

  /** The response check keeps its last verdict. */
  datatype SessionService = SessionService(verifyState: bool)

  /** `set`: a single frame [0x10, code]. */
  function Request(s: SessionType): (f: seq<int>)
    ensures IsSingleFrame(f) && SfPayload(f) == [Sid, Code(s)] && PaddedWith(f, Pad)
  {
    [0x02, 0x10, Code(s), 0xFF, 0xFF, 0xFF, 0xFF, 0xFF]
  }

  /** `verify_answer`: positive iff the response SID is the request SID
      plus 0x40; the verdict is also stored. Reads bytes 0 and 1. */
  function VerifyAnswer(svc: SessionService, data: Frame): (r: (bool, SessionService))
    requires |data| >= 2
    ensures r.0 <==> data[1] == Sid + 0x40
    ensures r.1.verifyState == r.0
  {
    var ok := data[1] == 0x50;
    (ok, SessionService(ok))
  }

  /** The session codes are distinct, so the code identifies the session. */
  lemma CodeInjective(a: SessionType, b: SessionType)
    ensures Code(a) == Code(b) <==> a == b
  {
  }

  /** A negative response (SID 0x7F) is never accepted. */
  lemma NegativeRejected(svc: SessionService, data: Frame)
    requires |data| >= 2 && data[1] == 0x7F
    ensures !VerifyAnswer(svc, data).0 && !VerifyAnswer(svc, data).1.verifyState
  {
  }

  /** The response check and the request agree: a response is accepted
      exactly when it carries the positive SID of the request sent. */
  lemma SessionEchoAccepted(svc: SessionService, s: SessionType, data: Frame)
    requires |data| >= 2
    ensures VerifyAnswer(svc, data).0 <==> data[1] == SfPayload(Request(s))[0] + 0x40
  {
  }
}

=== FILE: transfer_data.dfy ===
/** TransferData (service 0x36, section 14.4 of ISO 14229-1) carried over
    ISO-TP (section 9.6 of ISO 15765-2): the firmware goes out in blocks of
    at most 1026 message bytes (SID, block sequence counter, 1024 data
    bytes). Each block is a first frame with four data bytes, then
    consecutive frames of seven, paced by a timer after a flow control
    frame. The timer is the explicit `pacing` flag and `Tick` event. */
module TransferData {
  import opened Common
  import opened IsoTp
  import Bits

  const Sid: int := 0x36
  /** The largest ISO-TP message of one block: the receiver buffers 1024
      data bytes plus SID and block sequence counter. */
  const FfMaxDataLength: int := 1026
  /** The pacing interval when the flow control asks for no separation. */
  const DefaultInterval: int := 10

  /** The consecutive frame sequence number, 0..15. */
  type Nibble = x: int | 0 <= x < 16

  /** The last flow control frame received. */
  datatype FlowControl = FlowControl(frameType: int, flowStatus: int, blockSize: int, sepTime: int)

  /** The sender's state. `planned` is the number of message bytes the
      whole image should take, `totalSent` and `bytesSent` count message
      bytes (data plus the two header bytes of each block) sent overall
      and in the current block, `index` is the next content byte. The
      counters are unbounded integers and are not clamped anywhere. */
  datatype Transfer = Transfer(
    content: Option<seq<int>>,
    planned: int,
    bytesSent: int,
    totalSent: int,
    index: int,
    blockSeq: int,
    frameNumber: Nibble,
    fc: FlowControl,
    ffLen: int,
    pacing: bool,
    interval: int)

  const Initial: Transfer := Transfer(None, 0, 0, 0, 0, 0, 0, FlowControl(0, 0, 0, 0), 0, false, 0)

  /** The outcome of sending one frame: the frame went out, nothing was
      sent, or Python raised part way (IndexError on the content) after
      the changes listed in `t`. */
  datatype Out = Emitted(t: Transfer, frame: seq<int>) | Silent(t: Transfer) | Raised(t: Transfer)

  function Min(a: int, b: int): int {
    if a <= b then a else b
  }

  /** math.ceil(n / d) on naturals. */
  function CeilDiv(n: nat, d: nat): (r: nat)
    requires d > 0
    ensures d * r >= n && (r > 0 ==> d * (r - 1) < n)
  {
    (n + d - 1) / d
  }

  /** `set_firmware`: keep the image and plan its size as the content plus
      two header bytes per 1026 content bytes. Every counter is kept. */
  function SetFirmware(t: Transfer, image: seq<Byte>): (r: Transfer)
    ensures r.content == Some(image)
    ensures r.planned == |image| + 2 * CeilDiv(|image|, FfMaxDataLength)
    ensures r.(content := t.content, planned := t.planned) == t
  {
    t.(content := Some(image), planned := |image| + 2 * CeilDiv(|image|, FfMaxDataLength))
  }

  /** Python's `for i in range(n): ... content[start + i]` collecting the
      bytes: None when one of the indexes raises. The indexes are
      consecutive, so all of them are valid exactly when the first is at
      least -|c| and the last below |c|; a valid Python index k, negative
      ones counting from the end, reads c[k mod |c|]. */
  function Gather(c: seq<int>, start: int, n: int): (r: Option<seq<int>>)
    ensures n <= 0 ==> r == Some([])
    ensures r.Some? ==> |r.value| == (if n <= 0 then 0 else n)
    ensures n > 0 && (start + n > |c| || start < -|c|) <==> r.None?
  {
    if n <= 0 then Some([])
    else if -|c| <= start && start + n <= |c| then Some(Window(c, start, n))
    else None
  }

  /** What a successful gather collects: element i is the one Python reads
      at `start + i`, and for plain indexes that is the slice. */
  lemma GatherReads(c: seq<int>, start: int, n: int)
    ensures Gather(c, start, n).Some? ==>
      forall i :: 0 <= i < |Gather(c, start, n).value| ==> PyAt(c, start + i) == Some(Gather(c, start, n).value[i])
    ensures 0 <= start && start + n <= |c| && n >= 0 ==> Gather(c, start, n) == Some(c[start..start + n])
  {
    if n <= 0 {
      assert 0 <= start <= |c| ==> c[start..start] == [];
    } else if -|c| <= start && start + n <= |c| {
      WindowReads(c, start, n);
    }
  }

  /** The n elements from `start`, read with Python's indexing. */
  function Window(c: seq<int>, start: int, n: nat): (d: seq<int>)
    requires |c| > 0
  {
    seq(n, i requires 0 <= i < n => c[(start + i) % |c|])
  }

  /** A window of valid Python indexes reads what Python reads, and a
      window of plain indexes is the slice. */
  lemma WindowReads(c: seq<int>, start: int, n: nat)
    requires n > 0 && -|c| <= start && start + n <= |c|
    ensures |c| > 0
    ensures forall i :: 0 <= i < n ==> PyAt(c, start + i) == Some(Window(c, start, n)[i])
    ensures 0 <= start ==> Window(c, start, n) == c[start..start + n]
  {
    var d := Window(c, start, n);
    forall i | 0 <= i < n
      ensures PyAt(c, start + i) == Some(d[i])
    {
      var k := start + i;
      if k < 0 {
        Bits.DivModUnique(k, |c|, -1, k + |c|);
      } else {
        Bits.DivModUnique(k, |c|, 0, k);
      }
    }
    if 0 <= start {
      forall i | 0 <= i < n
        ensures d[i] == c[start + i]
      {
        Bits.DivModUnique(start + i, |c|, 0, start + i);
      }
    }
  }

  /** The first frame PCI: `0x10 | ((len >> 8) & 0xF)` and `len & 0xFF`. */
  function FirstFramePci(len: int): (p: seq<int>)
    ensures |p| == 2 && FrameType(p[0]) == FirstFrameType
    ensures 256 * (p[0] % 16) + p[1] == len % 0x1000
  {
    PciSplit(len);
    [0x10 + (len / 256) % 16, len % 256]
  }

  /** The low twelve bits of a length are its nibble above the low byte
      and the low byte. */
  lemma PciSplit(len: int)
    ensures 256 * ((len / 256) % 16) + len % 256 == len % 0x1000
  {
    var q, r := len / 256, len % 256;
    var a, b := q / 16, q % 16;
    assert len == 256 * q + r;
    assert q == 16 * a + b;
    assert len == 0x1000 * a + (256 * b + r);
    Bits.DivModUnique(len, 0x1000, a, 256 * b + r);
  }

  /** `_form_first_message`, with the block length already chosen: bump
      the block sequence counter, send [PCI, 0x36, counter, up to four
      content bytes, 0xFF fill] and count min(len, 4) data bytes plus the
      two header bytes. Nothing is sent before `set_firmware`. */
  function FormFirst(t: Transfer): (r: Out)
    ensures t.content.None? ==> r == Silent(t)
    ensures t.content.Some? ==> r.t.blockSeq == t.blockSeq + 1 && r.t.ffLen == t.ffLen
    ensures r.Emitted? ==>
      var n := Min(t.ffLen, 4);
      var f := r.frame;
      |f| == 8 && f[..2] == FirstFramePci(t.ffLen) && f[2] == Sid && f[3] == t.blockSeq + 1 &&
      (forall i :: 4 + n <= i < 8 && 4 <= i ==> f[i] == Pad) &&
      r.t == t.(blockSeq := t.blockSeq + 1, frameNumber := 0, index := t.index + n,
                totalSent := t.totalSent + n + 2, bytesSent := n + 2)
    ensures r.Raised? ==> r.t == t.(blockSeq := t.blockSeq + 1)
    ensures !r.Silent? ==> (r.Emitted? <==> Gather(t.content.value, t.index, Min(t.ffLen, 4)).Some?)
  {
    match t.content
    case None => Silent(t)
    case Some(c) =>
      var bs := t.blockSeq + 1;
      var n := Min(t.ffLen, 4);
      match Gather(c, t.index, n)
      case None => Raised(t.(blockSeq := bs))
      case Some(d) =>
        var f := FirstFramePci(t.ffLen) + [Sid, bs] + d + Fill(Pad, 4 - |d|);
        assert forall i :: 4 + |d| <= i < 8 ==> f[i] == Fill(Pad, 4 - |d|)[i - 4 - |d|];
        // Both branches of the source's `data_length < 4` test advance by
        // the n bytes copied and count them plus the two header bytes.
        Emitted(t.(blockSeq := bs, frameNumber := 0, index := t.index + n,
                   totalSent := t.totalSent + n + 2, bytesSent := n + 2), f)
  }

  /** `send_first_frame`: the block is 1026 message bytes while more than
      that remain, else what remains; returns the outcome and the block's
      data length (`ff_len - 2`) for the report. */
  function SendFirstFrame(t: Transfer): (r: (Out, int))
    ensures r.0.t.ffLen == Min(FfMaxDataLength, t.planned - t.totalSent)
    ensures t.totalSent <= t.planned ==> 0 <= r.0.t.ffLen <= FfMaxDataLength
    ensures r.1 == r.0.t.ffLen - 2
    ensures r.0 == FormFirst(t.(ffLen := r.0.t.ffLen))
  {
    var len := if t.totalSent + FfMaxDataLength < t.planned then FfMaxDataLength else t.planned - t.totalSent;
    (FormFirst(t.(ffLen := len)), len - 2)
  }

  /** `block_transferred`. */
  predicate BlockTransferred(t: Transfer) {
    t.bytesSent == t.ffLen
  }

  /** `data_transferred`. */
  predicate DataTransferred(t: Transfer) {
    t.totalSent == t.planned
  }

  /** `send_consecutive_frames`: start pacing at STmin milliseconds (10
      when STmin is 0) unless the block size is 0, which schedules
      nothing. */
  function SendConsecutiveFrames(t: Transfer): (r: Transfer)
    ensures t.fc.blockSize == 0 ==> r == t
    ensures t.fc.blockSize != 0 ==> r.pacing && r.(pacing := t.pacing, interval := t.interval) == t
    ensures t.fc.blockSize != 0 ==> r.interval == (if t.fc.sepTime > 0 then t.fc.sepTime else DefaultInterval)
  {
    if t.fc.blockSize == 0 then t
    else t.(pacing := true, interval := if t.fc.sepTime > 0 then t.fc.sepTime else DefaultInterval)
  }

  /** The data length of the next consecutive frame: 7, or what is left of
      the block (which the source does not keep positive). */
  function CfLength(t: Transfer): (n: int)
    ensures n <= 7
    ensures t.bytesSent + 7 <= t.ffLen ==> n == 7
    ensures t.bytesSent + 7 > t.ffLen ==> t.bytesSent + n == t.ffLen
  {
    if t.bytesSent + 7 > t.ffLen then t.ffLen - t.bytesSent else 7
  }

  /** `_send_consecutive_frame`, the timer callback: the sequence number
      counts 1..15, 0, ...; the frame carries the next CfLength bytes and
      0xFF fill; pacing stops once the block is complete. Before
      `set_firmware` any copy raises. */
  function ConsecutiveFrame(t: Transfer): (r: Out)
    ensures !r.Silent?
  {
    var fn: Nibble := if t.frameNumber + 1 > 15 then 0 else t.frameNumber + 1;
    var n := CfLength(t);
    match Gather(t.content.GetOr([]), t.index, n)
    case None => Raised(t.(frameNumber := fn))
    case Some(d) =>
      var f := [0x20 + fn] + d + Fill(Pad, 7 - |d|);
      var sent := t.bytesSent + n;
      Emitted(t.(frameNumber := fn, index := t.index + n, totalSent := t.totalSent + n,
                 bytesSent := sent, pacing := if sent >= t.ffLen then false else t.pacing), f)
  }

  /** What one consecutive frame does. */
  lemma ConsecutiveFrameSpec(t: Transfer)
    ensures var r := ConsecutiveFrame(t);
      r.t.frameNumber == (t.frameNumber + 1) % 16 &&
      (r.Raised? ==> r.t == t.(frameNumber := r.t.frameNumber)) &&
      (r.Emitted? ==>
        var n := CfLength(t);
        var m := if n < 0 then 0 else n;
        var f := r.frame;
        |f| == 8 && f[0] == 0x20 + r.t.frameNumber && FrameType(f[0]) == ConsecutiveFrameType &&
        (forall i :: 1 + m <= i < 8 ==> f[i] == Pad) &&
        r.t == t.(frameNumber := r.t.frameNumber, index := t.index + n, totalSent := t.totalSent + n,
                  bytesSent := t.bytesSent + n, pacing := t.pacing && t.bytesSent + n < t.ffLen))
  {
  }

  /** A timer event: a consecutive frame while pacing, nothing otherwise. */
  function Tick(t: Transfer): (r: Out)
    ensures !t.pacing ==> r == Silent(t)
    ensures t.pacing ==> r == ConsecutiveFrame(t)
  {
    if t.pacing then ConsecutiveFrame(t) else Silent(t)
  }

  /** `verify_answer_after_sent_block`: the positive response 0x76 with
      the block sequence counter of the last first frame. */
  function VerifyAfterSentBlock(t: Transfer, data: Frame): (ok: bool)
    requires |data| >= 3
    ensures ok <==> (data[1] == Sid + 0x40 && data[2] == t.blockSeq)
  {
    data[1] == 0x76 && data[2] == t.blockSeq
  }

  /** `verify_flow_control`: a flow control frame (type 3) is recorded
      (status = low nibble, block size = byte 1, STmin = byte 2); anything
      else is refused and leaves the record. Bytes 1 and 2 are read in
      either case. */
  function VerifyFlowControl(t: Transfer, data: Frame): (r: (bool, Transfer))
    requires |data| >= 3
    ensures r.0 <==> 0x30 <= data[0] <= 0x3F
    ensures r.0 ==> r.1 == t.(fc := FlowControl(FlowControlType, data[0] - 0x30, data[1], data[2]))
    ensures !r.0 ==> r.1 == t
  {
    if FrameType(data[0]) == FlowControlType then
      (true, t.(fc := FlowControl(FrameType(data[0]), data[0] % 16, data[1], data[2])))
    else (false, t)
  }

  /** `reset_transfer`: only the total and the sequence number restart. */
  function ResetTransfer(t: Transfer): (r: Transfer)
    ensures r.totalSent == 0 && r.frameNumber == 0
    ensures r.(totalSent := t.totalSent, frameNumber := t.frameNumber) == t
  {
    t.(totalSent := 0, frameNumber := 0)
  }

  // ------------------------------------------------------- whole blocks

  /** k consecutive frames in a row: the state after, the frames sent, and
      whether all k went out without raising. */
  function Run(t: Transfer, k: nat): (r: (Transfer, seq<seq<int>>, bool))
    ensures r.2 ==> |r.1| == k
    decreases k
  {
    if k == 0 then (t, [], true)
    else
      match ConsecutiveFrame(t)
      case Emitted(t1, f) =>
        var rest := Run(t1, k - 1);
        (rest.0, [f] + rest.1, rest.2)
      case _ => (ConsecutiveFrame(t).t, [], false)
  }

  /** One frame of a run. */
  lemma RunCons(t: Transfer, k: nat)
    requires k > 0 && ConsecutiveFrame(t).Emitted?
    ensures var s := ConsecutiveFrame(t);
      var r1 := Run(s.t, k - 1);
      Run(t, k) == (r1.0, [s.frame] + r1.1, r1.2)
  {
  }

  /** What a receiver reads from consecutive frames: bytes 1..7 of each. */
  function Payload(fs: seq<seq<int>>): seq<int> {
    if |fs| == 0 then [] else (if |fs[0]| > 0 then fs[0][1..] else []) + Payload(fs[1..])
  }

  /** The reference definition of the rest of a block, independent of the
      sender's state: ceil(rest / 7) frames numbered on from `fn` modulo
      16, each carrying the next min(7, rest) content bytes from `i` and
      0xFF fill. */
  function BlockFrames(c: seq<int>, i: int, rest: int, fn: int): seq<seq<int>>
    requires 0 <= i && i + rest <= |c|
    decreases rest
  {
    if rest <= 0 then []
    else
      var n := if rest < 7 then rest else 7;
      [[0x20 + (fn + 1) % 16] + c[i..i + n] + Fill(Pad, 7 - n)] + BlockFrames(c, i + n, rest - n, (fn + 1) % 16)
  }

  /** The well-formed middle of a block: the content up to `index` is
      sent, `bytesSent` counts it plus the two header bytes, and the rest
      of the block is still inside the content. */
  predicate InBlock(t: Transfer, c: seq<int>, start: int) {
    t.content == Some(c) && 0 <= start && 2 <= t.bytesSent <= t.ffLen &&
    t.index == start + t.bytesSent - 2 && start + t.ffLen - 2 <= |c|
  }

  /** The number of consecutive frames the rest of a block takes. */
  function FramesLeft(t: Transfer): nat {
    CeilDiv(if t.ffLen - t.bytesSent < 0 then 0 else t.ffLen - t.bytesSent, 7)
  }

  /** One consecutive frame inside a block is the first frame of the
      reference definition, and leaves one frame less to send. */
  lemma CfStep(t: Transfer, c: seq<int>, start: int)
    requires InBlock(t, c, start) && t.bytesSent < t.ffLen
    ensures var r := ConsecutiveFrame(t);
      var rest := t.ffLen - t.bytesSent;
      var n := if rest < 7 then rest else 7;
      r.Emitted? && InBlock(r.t, c, start) && CfLength(t) == n &&
      r.frame == [0x20 + (t.frameNumber + 1) % 16] + c[t.index..t.index + n] + Fill(Pad, 7 - n) &&
      r.t == t.(frameNumber := (t.frameNumber + 1) % 16, index := t.index + n, totalSent := t.totalSent + n,
                bytesSent := t.bytesSent + n, pacing := t.pacing && t.bytesSent + n < t.ffLen) &&
      FramesLeft(t) == FramesLeft(r.t) + 1
  {
    var n := CfLength(t);
    var d := c[t.index..t.index + n];
    GatherReads(c, t.index, n);
    assert Gather(c, t.index, n) == Some(d);
    var rest, rest1 := t.ffLen - t.bytesSent, t.ffLen - t.bytesSent - n;
    if n == 7 {
      Bits.DivModUnique(rest + 6, 7, (rest1 + 6) / 7 + 1, (rest1 + 6) % 7);
    }
  }

  /** The rest of a block goes out without raising as exactly the frames
      of the reference definition; the block ends complete, the content
      consumed up to its end, the total advanced by the rest, and pacing
      stopped. */
  lemma {:induction false} RestOfBlock(t: Transfer, c: seq<int>, start: int)
    requires InBlock(t, c, start)
    ensures var r := Run(t, FramesLeft(t));
      r.2 && r.1 == BlockFrames(c, t.index, t.ffLen - t.bytesSent, t.frameNumber) &&
      InBlock(r.0, c, start) && BlockTransferred(r.0) &&
      r.0.totalSent == t.totalSent + (t.ffLen - t.bytesSent) &&
      (t.bytesSent < t.ffLen ==> !r.0.pacing)
    decreases t.ffLen - t.bytesSent
  {
    if t.bytesSent < t.ffLen {
      var s := ConsecutiveFrame(t);
      CfStep(t, c, start);
      RestOfBlock(s.t, c, start);
      RunCons(t, FramesLeft(t));
      if s.t.bytesSent == s.t.ffLen {
        assert FramesLeft(s.t) == 0;
      }
    } else {
      assert FramesLeft(t) == 0;
    }
  }

  /** There are ceil(rest / 7) reference frames. */
  lemma {:induction false} BlockFramesCount(c: seq<int>, i: int, rest: int, fn: int)
    requires 0 <= i && 0 <= rest && i + rest <= |c|
    ensures |BlockFrames(c, i, rest, fn)| == CeilDiv(rest, 7)
    decreases rest
  {
    if rest > 0 {
      var n := if rest < 7 then rest else 7;
      BlockFramesCount(c, i + n, rest - n, (fn + 1) % 16);
      if n == 7 {
        Bits.DivModUnique(rest + 6, 7, (rest - n + 6) / 7 + 1, (rest - n + 6) % 7);
      }
    }
  }

  /** Reference frame j is 8 bytes long and numbered fn + j + 1 modulo 16. */
  lemma {:induction false} BlockFrameAt(c: seq<int>, i: int, rest: int, fn: int, j: int)
    requires 0 <= i && 0 <= rest && i + rest <= |c| && 0 <= j < |BlockFrames(c, i, rest, fn)|
    ensures |BlockFrames(c, i, rest, fn)[j]| == 8
    ensures BlockFrames(c, i, rest, fn)[j][0] == 0x20 + (fn + j + 1) % 16
    decreases rest
  {
    var n := if rest < 7 then rest else 7;
    var fs := BlockFrames(c, i, rest, fn);
    var fs1 := BlockFrames(c, i + n, rest - n, (fn + 1) % 16);
    assert fs == [[0x20 + (fn + 1) % 16] + c[i..i + n] + Fill(Pad, 7 - n)] + fs1;
    if j > 0 {
      assert fs[j] == fs1[j - 1];
      BlockFrameAt(c, i + n, rest - n, (fn + 1) % 16, j - 1);
      ModShift(fn + 1, j);
    }
  }

  /** Frames `fs` are 8 bytes each and numbered on from `fn` modulo 16. */
  predicate Numbered(fs: seq<seq<int>>, fn: int) {
    forall j :: 0 <= j < |fs| ==> |fs[j]| == 8 && fs[j][0] == 0x20 + (fn + j + 1) % 16
  }

  /** The reference frames are numbered on from `fn`. */
  lemma BlockFramesNumbered(c: seq<int>, i: int, rest: int, fn: int)
    requires 0 <= i && 0 <= rest && i + rest <= |c|
    ensures Numbered(BlockFrames(c, i, rest, fn), fn)
  {
    forall j | 0 <= j < |BlockFrames(c, i, rest, fn)|
      ensures |BlockFrames(c, i, rest, fn)[j]| == 8
      ensures BlockFrames(c, i, rest, fn)[j][0] == 0x20 + (fn + j + 1) % 16
    {
      BlockFrameAt(c, i, rest, fn, j);
    }
  }

  /** Frames `fs` carry `rest` content bytes from `i`, followed by fill. */
  predicate Carries(fs: seq<seq<int>>, c: seq<int>, i: int, rest: int)
    requires 0 <= i && 0 <= rest && i + rest <= |c|
  {
    7 * |fs| >= rest && Payload(fs) == c[i..i + rest] + Fill(Pad, 7 * |fs| - rest)
  }

  /** The payload of the reference frames is the rest of the block's
      content followed by 0xFF fill. */
  lemma {:induction false} BlockFramesPayload(c: seq<int>, i: int, rest: int, fn: int)
    requires 0 <= i && 0 <= rest && i + rest <= |c|
    ensures Carries(BlockFrames(c, i, rest, fn), c, i, rest)
    decreases rest
  {
    var fs := BlockFrames(c, i, rest, fn);
    if rest == 0 {
      assert c[i..i] == [] && Fill(Pad, 0) == [];
    } else {
      var n := if rest < 7 then rest else 7;
      var f := [0x20 + (fn + 1) % 16] + c[i..i + n] + Fill(Pad, 7 - n);
      var fs1 := BlockFrames(c, i + n, rest - n, (fn + 1) % 16);
      assert fs == [f] + fs1;
      BlockFramesPayload(c, i + n, rest - n, (fn + 1) % 16);
      PayloadStep(c, i, n, rest, 0x20 + (fn + 1) % 16, fs1, fs);
    }
  }

  /** One more frame in front of a block's remaining frames keeps the
      payload equal to the content followed by fill. */
  lemma PayloadStep(c: seq<int>, i: int, n: int, rest: int, b: int, fs1: seq<seq<int>>, fs: seq<seq<int>>)
    requires 0 <= i && 0 < n <= 7 && n <= rest && i + rest <= |c| && (n == 7 || n == rest)
    requires fs == [[b] + c[i..i + n] + Fill(Pad, 7 - n)] + fs1
    requires Carries(fs1, c, i + n, rest - n)
    requires n < 7 ==> fs1 == []
    ensures Carries(fs, c, i, rest)
  {
    var f := [b] + c[i..i + n] + Fill(Pad, 7 - n);
    assert fs[0] == f && fs[1..] == fs1;
    PayloadJoin(c, i, n, rest, f, Payload(fs1), 7 * |fs1| - (rest - n));
  }

  /** The payload of one more frame in front of the rest of a block. */
  lemma PayloadJoin(c: seq<int>, i: int, n: int, rest: int, f: seq<int>, p: seq<int>, pad: int)
    requires 0 <= i && 0 < n <= 7 && n <= rest && i + rest <= |c| && (n == 7 || n == rest) && 0 <= pad
    requires |f| == 8 && f == [f[0]] + c[i..i + n] + Fill(Pad, 7 - n)
    requires p == c[i + n..i + rest] + Fill(Pad, pad)
    requires n < 7 ==> pad == 0
    ensures f[1..] + p == c[i..i + rest] + Fill(Pad, 7 - n + pad)
  {
    if n == 7 {
      assert f[1..] == c[i..i + 7];
      assert c[i..i + rest] == c[i..i + 7] + c[i + 7..i + rest];
      assert Fill(Pad, 0) == [];
    } else {
      assert f[1..] == c[i..i + rest] + Fill(Pad, 7 - n);
      assert p == [] + Fill(Pad, 0);
    }
  }

  /** Sequence numbers modulo 16 shift with their start. */
  lemma ModShift(a: int, j: int)
    ensures (a % 16 + j) % 16 == (a + j) % 16
  {
    var q, r := a / 16, a % 16;
    var q2, r2 := (r + j) / 16, (r + j) % 16;
    Bits.DivModUnique(a + j, 16, q + q2, r2);
  }

  /** A whole block in order: a first frame for a block of at least six
      message bytes carries the next four content bytes, and the
      consecutive frames after it, numbered 1, 2, ..., carry the rest of
      the block's `ffLen - 2` content bytes and then only 0xFF. */
  lemma BlockInOrder(t: Transfer, c: seq<int>)
    requires t.content == Some(c) && 0 <= t.index
    requires 6 <= Min(FfMaxDataLength, t.planned - t.totalSent)
    requires t.index + Min(FfMaxDataLength, t.planned - t.totalSent) - 2 <= |c|
    ensures BlockSent(SendFirstFrame(t).0, Run(SendFirstFrame(t).0.t, FramesLeft(SendFirstFrame(t).0.t)).1, c, t.index)
  {
    var o := SendFirstFrame(t).0;
    FirstFrameOfBlock(t, c);
    RestOfBlock(o.t, c, t.index);
    BlockReference(o, Run(o.t, FramesLeft(o.t)).1, c, t.index);
  }

  /** A block is sent in order: the first frame `o` carries the four
      content bytes from `i`, and the consecutive frames `fs`, 8 bytes
      each and numbered 1, 2, ... modulo 16, carry the rest of the block's
      `ffLen - 2` content bytes and then only 0xFF. */
  predicate BlockSent(o: Out, fs: seq<seq<int>>, c: seq<int>, i: int) {
    var len := o.t.ffLen;
    o.Emitted? && |o.frame| >= 4 && 0 <= i && 6 <= len && i + len - 2 <= |c| &&
    |fs| == CeilDiv(len - 6, 7) && 7 * |fs| >= len - 6 && Numbered(fs, 0) &&
    o.frame[4..] + Payload(fs) == c[i..i + len - 2] + Fill(Pad, 7 * |fs| - (len - 6))
  }

  /** A first frame with the block's first four content bytes, followed
      by the reference frames for the rest, sends the block in order. */
  lemma BlockReference(o: Out, fs: seq<seq<int>>, c: seq<int>, i: int)
    requires o.Emitted? && |o.frame| >= 4 && 0 <= i && 6 <= o.t.ffLen && i + o.t.ffLen - 2 <= |c|
    requires o.frame[4..] == c[i..i + 4] && fs == BlockFrames(c, i + 4, o.t.ffLen - 6, 0)
    ensures BlockSent(o, fs, c, i)
  {
    var len := o.t.ffLen;
    assert |fs| == CeilDiv(len - 6, 7) by {
      BlockFramesCount(c, i + 4, len - 6, 0);
    }
    assert Numbered(fs, 0) by {
      BlockFramesNumbered(c, i + 4, len - 6, 0);
    }
    assert Carries(fs, c, i + 4, len - 6) by {
      BlockFramesPayload(c, i + 4, len - 6, 0);
    }
    HeadJoin(c, i, len, o.frame[4..], fs);
  }

  /** The first frame's four bytes in front of frames carrying the rest of
      a block make the block's content, then fill. */
  lemma HeadJoin(c: seq<int>, i: int, len: int, head: seq<int>, fs: seq<seq<int>>)
    requires 0 <= i && 6 <= len && i + len - 2 <= |c|
    requires head == c[i..i + 4] && Carries(fs, c, i + 4, len - 6)
    ensures head + Payload(fs) == c[i..i + len - 2] + Fill(Pad, 7 * |fs| - (len - 6))
  {
    assert c[i..i + len - 2] == c[i..i + 4] + c[i + 4..i + len - 2];
  }

  /** The first frame of a block of at least six message bytes. */
  lemma FirstFrameOfBlock(t: Transfer, c: seq<int>)
    requires t.content == Some(c) && 0 <= t.index
    requires 6 <= Min(FfMaxDataLength, t.planned - t.totalSent)
    requires t.index + Min(FfMaxDataLength, t.planned - t.totalSent) - 2 <= |c|
    ensures var o := SendFirstFrame(t).0;
      o.Emitted? && o.frame[3] == t.blockSeq + 1 && o.frame[4..] == c[t.index..t.index + 4] &&
      o.t.ffLen == Min(FfMaxDataLength, t.planned - t.totalSent) &&
      o.t.totalSent == t.totalSent + 6 && o.t.bytesSent == 6 && o.t.index == t.index + 4 &&
      o.t.frameNumber == 0 && InBlock(o.t, c, t.index)
  {
    var len := Min(FfMaxDataLength, t.planned - t.totalSent);
    var o := FormFirst(t.(ffLen := len));
    GatherReads(c, t.index, 4);
    assert Gather(c, t.index, 4) == Some(c[t.index..t.index + 4]);
    var f := FirstFramePci(len) + [Sid, t.blockSeq + 1] + c[t.index..t.index + 4] + Fill(Pad, 0);
    assert o.frame == f;
    assert f[4..] == c[t.index..t.index + 4];
  }

  // ------------------------------------------------- as-written behaviour

  /** A flow control frame with block size 0 schedules nothing: the next
      timer event sends no frame. ISO 15765-2 reads block size 0 as "send
      the rest without waiting". */
  lemma BlockSizeZeroSendsNothing(t: Transfer)
    requires t.fc.blockSize == 0 && !t.pacing
    ensures Tick(SendConsecutiveFrames(t)) == Silent(t)
  {
  }

  /** The block sequence counter is not reduced to a byte: the 256th
      block's first frame carries 256. */
  lemma BlockSeqUnmasked(t: Transfer)
    requires t.blockSeq == 255 && FormFirst(t).Emitted?
    ensures FormFirst(t).frame[3] == 256
  {
  }

  /** `set_firmware` keeps every counter, and nothing else resets them
      between runs (`reset_transfer` has no caller): loading the same image
      after a finished run leaves the transfer already complete, and the
      next first frame announces an empty block. */
  lemma SecondRunStartsSpent(t: Transfer, image: seq<Byte>)
    requires t.content == Some(image) && DataTransferred(t)
    requires t.planned == |image| + 2 * CeilDiv(|image|, FfMaxDataLength)
    ensures var u := SetFirmware(t, image);
      DataTransferred(u) && u.index == t.index && u.blockSeq == t.blockSeq &&
      SendFirstFrame(u).0.t.ffLen == 0 && SendFirstFrame(u).1 == -2
  {
  }

  /** The plan counts two header bytes per 1026 content bytes, but a block
      carries 1024: an image of 1025 bytes is planned as 1027 message bytes
      although it takes two blocks (1029 bytes). */
  lemma PlanUndercounts(t: Transfer, image: seq<Byte>)
    requires |image| == 1025
    ensures SetFirmware(t, image).planned == 1027
  {
    assert CeilDiv(1025, 1026) == 1;
  }

  /** A final block of fewer than six message bytes is mis-counted. With a
      1026-byte image after its first block, the last block has length 2
      (no room for data), yet the first frame copies two content bytes and
      counts four, overshooting the plan; the next consecutive frame then
      "sends" -2 bytes and the total meets the plan again. */
  lemma ShortFinalBlock(t: Transfer, c: seq<int>)
    requires t.content == Some(c) && |c| == 1026
    requires t.planned == 1028 && t.totalSent == 1026 && t.index == 1024
    ensures var o := SendFirstFrame(t).0;
      o.Emitted? && o.t.ffLen == 2 && o.frame[4..6] == c[1024..1026] &&
      o.t.totalSent == 1030 && o.t.bytesSent == 4 &&
      var n := ConsecutiveFrame(o.t);
      n.Emitted? && CfLength(o.t) == -2 && DataTransferred(n.t)
  {
    var o := SendFirstFrame(t).0;
    GatherReads(c, 1024, 2);
    assert Gather(c, 1024, 2) == Some(c[1024..1026]);
    assert o.t.bytesSent == 4;
    assert Gather(c, o.t.index, -2) == Some([]);
  }

  /** With a 1027-byte image the last block has length 5, and the first
      frame copies four content bytes where three remain: IndexError. */
  lemma FinalBlockRaises(t: Transfer, c: seq<int>)
    requires t.content == Some(c) && |c| == 1027
    requires t.planned == 1031 && t.totalSent == 1026 && t.index == 1024
    ensures SendFirstFrame(t).0.Raised?
  {
    assert Gather(c, 1024, 4).None?;
  }
}

=== FILE: uds_identifiers.dfy ===
/** The pair of J1939 identifiers a UDS session uses: `tx` for requests
    from the tester, `rx` for responses from the ECU. The pair is a
    process-wide value; here it is passed in and returned. The three
    setters keep the request's destination equal to the response's
    source. */
module UdsIdentifiers {
  import opened CanIdentifier
  import Bits

  datatype Pair = Pair(tx: CanId, rx: CanId)

  /** Requests go to the ECU whose responses we accept: the request's
      destination byte is the response's source byte. */
  predicate Linked(p: Pair) {
    Dst(p.tx) == p.rx.src % 0x100
  }

  /** The defaults: requests 0x18DA6AF1 (tester 0xF1 to ECU 0x6A),
      responses 0x18DAF16A (ECU 0x6A to tester 0xF1). */
  function Default(): (p: Pair)
    ensures p.tx == CanId(6, 0xDA6A, 0xF1) && p.rx == CanId(6, 0xDAF1, 0x6A)
    ensures Linked(p) && Dst(p.rx) == p.tx.src
  {
    Pair(Parse(0x18DA_6AF1), Parse(0x18DA_F16A))
  }

  /** `set_tx`: take a new request identifier; the response source follows
      its destination. */
  function SetTx(p: Pair, iden: nat): (r: Pair)
    ensures r.tx == Parse(iden)
    ensures r.rx.prio == p.rx.prio && r.rx.pgn == p.rx.pgn
    ensures r.rx.src == iden / 0x100 % 0x100
    ensures Linked(r)
  {
    DstOfParse(iden);
    var tx := Parse(iden);
    Pair(tx, p.rx.(src := Dst(tx)))
  }

  /** `set_rx`: take a new response identifier; the request destination
      follows its source. */
  function SetRx(p: Pair, iden: nat): (r: Pair)
    ensures r.rx == Parse(iden)
    ensures r.tx.prio == p.tx.prio && r.tx.src == p.tx.src
    ensures Dst(r.tx) == iden % 0x100
    ensures r.tx.pgn / 0x100 == (p.tx.pgn / 0x100) % 0x400
    ensures Linked(r)
  {
    var rx := Parse(iden);
    Pair(SetDst(p.tx, rx.src), rx)
  }

  /** `set_src`: address another ECU; the request destination and the
      response source both become it. */
  function SetSrc(p: Pair, src: nat): (r: Pair)
    ensures Dst(r.tx) == src % 0x100 && r.rx.src == src
    ensures r.tx.prio == p.tx.prio && r.tx.src == p.tx.src
    ensures r.rx.prio == p.rx.prio && r.rx.pgn == p.rx.pgn
    ensures Linked(r)
  {
    Pair(SetDst(p.tx, src), p.rx.(src := src))
  }

  /** Installing a request identifier keeps it exactly. */
  lemma SetTxIdentifier(p: Pair, iden: nat)
    ensures Identifier(SetTx(p, iden).tx) == iden
  {
    ParseIdentifier(iden);
  }

  /** Installing a response identifier keeps it exactly. */
  lemma SetRxIdentifier(p: Pair, iden: nat)
    ensures Identifier(SetRx(p, iden).rx) == iden
  {
    ParseIdentifier(iden);
  }

  /** Re-addressing an ECU below 256 is visible in both identifiers: the
      request keeps its source byte and carries the new destination, the
      response carries the new source. */
  lemma SetSrcIdentifiers(p: Pair, src: nat)
    requires src < 0x100 && p.rx.pgn < 0x4_0000
    ensures Identifier(SetSrc(p, src).tx) % 0x100 == p.tx.src % 0x100
    ensures (Identifier(SetSrc(p, src).tx) / 0x100) % 0x100 == src
    ensures Identifier(SetSrc(p, src).rx) % 0x100 == src
  {
    var r := SetSrc(p, src);
    var t := r.tx;
    var x := (p.tx.pgn / 0x100) % 0x400;
    assert t.pgn == x * 0x100 + src;
    var v := Identifier(t);
    Bits.DivModUnique(v, 0x100, t.prio * 0x4_0000 + t.pgn, t.src % 0x100);
    Bits.DivModUnique(v / 0x100, 0x100, t.prio * 0x400 + x, src);
    Bits.DivModUnique(Identifier(r.rx), 0x100, r.rx.prio * 0x4_0000 + r.rx.pgn, src);
  }
}

=== FILE: write_data_by_id.dfy ===
/** WriteDataByIdentifier (service 0x2E, section 10.7 of ISO 14229-1):
    write a DID of at most four bytes, value low byte first, and match the
    positive response against the DID written last. */
module WriteDataById {
  import opened Common
  import opened IsoTp
  import opened PidField
  import ByteCodec
  import Bits
  import DataIdentifiers
  import CanIdentifier
  import UdsIdentifiers

  const Sid: int := 0x2E

  /** The DID of the last accepted write, and the DID byte order. */
  datatype WriteService = WriteService(savedPid: nat, order: ByteOrder)

  const Initial: WriteService := WriteService(0, Big)

  /** `set_byte_order`. */
  function SetByteOrder(svc: WriteService, text: string): (r: WriteService)
    ensures r.savedPid == svc.savedPid
    ensures r.order == Little <==> Lower(Strip(text)) == "little"
  {
    svc.(order := ParseByteOrder(text))
  }

  /** The identifier a request goes out on: the one passed in, else the
      request identifier of the pair. */
  function TxIdentifier(txId: Option<int>, pair: UdsIdentifiers.Pair): (id: int)
    ensures txId.Some? ==> id == txId.value
    ensures txId.None? ==> id == CanIdentifier.Identifier(pair.tx)
  {
    match txId
    case Some(i) => i
    case None => CanIdentifier.Identifier(pair.tx)
  }

  /** `write_data`: a variable wider than four bytes is refused (False,
      nothing sent, nothing stored). Otherwise the DID is stored and a
      single frame [0x2E, DID, value bytes low first] padded with 0xFF is
      sent; only the low `size` bytes of the value travel. */
  function WriteData(svc: WriteService, v: DataIdentifiers.UdsVar, value: int,
                     txId: Option<int>, pair: UdsIdentifiers.Pair): (r: (bool, WriteService, Option<Sent>))
    ensures v.size > 4 ==> r == (false, svc, None)
    ensures v.size <= 4 ==> r.0 && r.1 == svc.(savedPid := v.pid) && r.2.Some?
    ensures v.size <= 4 ==>
      var f := r.2.value.data;
      var b := PidToBytes(svc.order, v.pid);
      r.2.value.id == TxIdentifier(txId, pair) &&
      IsSingleFrame(f) && PaddedWith(f, Pad) &&
      SfPayload(f) == [Sid, b.0, b.1] + ByteCodec.LeBytes(value, v.size) &&
      ByteCodec.LeValue(f[4..4 + v.size]) == value % ByteCodec.Pow256(v.size)
  {
    if v.size > 4 then (false, svc, None)
    else
      var b := PidToBytes(svc.order, v.pid);
      var bytes := ByteCodec.LeBytes(value, v.size);
      var f := [3 + v.size, Sid, b.0, b.1] + bytes + Padding(4 - v.size);
      assert f[1..f[0] + 1] == [Sid, b.0, b.1] + bytes;
      assert f[4..4 + v.size] == bytes;
      ByteCodec.LeBytesValue(value, v.size);
      (true, svc.(savedPid := v.pid), Some(Sent(TxIdentifier(txId, pair), f)))
  }

  /** `verify_answer_write_data`: a positive response (0x6E) naming the
      DID written last; that DID is found only if it fits 16 bits. */
  function VerifyWriteData(svc: WriteService, data: Frame): (ok: bool)
    requires |data| >= 4
    ensures ok <==> (data[1] == Sid + 0x40 && svc.savedPid < 0x1_0000 &&
                     (data[2], data[3]) == PidToBytes(svc.order, svc.savedPid))
  {
    PidMatches(svc.order, svc.savedPid, data);
    data[1] == Sid + 0x40 && ParsePidField(svc.order, data) == svc.savedPid
  }

  /** `write_fingerprint`: a four-byte single frame writing `value`
      unmasked to the fingerprint DID 0x1500; the stored DID is untouched. */
  function WriteFingerprint(svc: WriteService, value: int, pair: UdsIdentifiers.Pair): (s: Sent)
    ensures s.id == CanIdentifier.Identifier(pair.tx)
    ensures IsSingleFrame(s.data) && PaddedWith(s.data, Pad)
    ensures var b := PidToBytes(svc.order, DataIdentifiers.Fingerprint.pid);
      SfPayload(s.data) == [Sid, b.0, b.1, value]
  {
    var b := PidToBytes(svc.order, DataIdentifiers.Fingerprint.pid);
    var f := [0x04, Sid, b.0, b.1, value, 0xFF, 0xFF, 0xFF];
    assert f[1..f[0] + 1] == [Sid, b.0, b.1, value];
    Sent(CanIdentifier.Identifier(pair.tx), f)
  }

  /** `verify_answer_write_fingerprint`: a positive response naming 0x1500. */
  function VerifyFingerprint(svc: WriteService, data: Frame): (ok: bool)
    requires |data| >= 4
    ensures ok <==> (data[1] == Sid + 0x40 &&
                     (data[2], data[3]) == PidToBytes(svc.order, DataIdentifiers.Fingerprint.pid))
  {
    DataIdentifiers.FingerprintAlias();
    PidMatches(svc.order, DataIdentifiers.Fingerprint.pid, data);
    data[1] == Sid + 0x40 && ParsePidField(svc.order, data) == DataIdentifiers.Fingerprint.pid
  }

  // ---------------------------------------------------------------- lemmas

  /** A response that echoes the request's DID bytes is accepted exactly
      when the DID fits 16 bits. */
  lemma WriteEchoAccepted(svc: WriteService, v: DataIdentifiers.UdsVar, value: int,
                          txId: Option<int>, pair: UdsIdentifiers.Pair, data: Frame)
    requires v.size <= 4 && |data| >= 4 && data[1] == 0x6E
    requires data[2..4] == WriteData(svc, v, value, txId, pair).2.value.data[2..4]
    ensures VerifyWriteData(WriteData(svc, v, value, txId, pair).1, data) <==> v.pid < 0x1_0000
  {
    var f := WriteData(svc, v, value, txId, pair).2.value.data;
    assert data[2] == f[2] && data[3] == f[3];
  }

  /** The value bytes of a write read back as the value when it fits. */
  lemma WriteValueRoundTrip(svc: WriteService, v: DataIdentifiers.UdsVar, value: nat,
                            txId: Option<int>, pair: UdsIdentifiers.Pair)
    requires v.size <= 4 && value < ByteCodec.Pow256(v.size)
    ensures var f := WriteData(svc, v, value, txId, pair).2.value.data;
      ByteCodec.LeValue(f[4..4 + v.size]) == value
  {
    var r := WriteData(svc, v, value, txId, pair);
    Bits.DivModUnique(value, ByteCodec.Pow256(v.size), 0, value);
  }

  /** The fingerprint write is answered by its own echo. */
  lemma FingerprintEchoAccepted(svc: WriteService, value: int, pair: UdsIdentifiers.Pair, data: Frame)
    requires |data| >= 4 && data[1] == 0x6E
    requires data[2..4] == WriteFingerprint(svc, value, pair).data[2..4]
    ensures VerifyFingerprint(svc, data)
  {
    var f := WriteFingerprint(svc, value, pair).data;
    assert data[2] == f[2] && data[3] == f[3];
  }
}
